=== FILE: README.md ===
# liboptpy's line-search optimisers in Dafny

This project models the iterative line-search engine of liboptpy. The
floating-point arithmetic is replaced by `real`. The objective, gradient,
projector and linear-minimisation oracle are function parameters. A NaN
objective value is `None`. A Python exception is an `Err` value. A numpy
division by zero, which gives inf or nan rather than raising, is the error
`NonFinite`.

The model follows the structure of the repository:

- `Driver` is the check-before-step `LineSearchOptimizer.solve` of
  liboptpy/base_optimizer.py. A strategy (BFGS, conjugate gradients, ...)
  is a `Hooks` record: the methods a subclass overrides, as function
  values over a strategy state. The gradient memory is a bounded FIFO
  (`Fifo`).
- `OlderDriver` is the check-after-step loop shared by
  liboptpy/unconstr_solvers/base_optimizer.py, unconstr_solvers.py and
  unconstr_methods.py. The two generations are kept apart: the older one
  steps before it tests convergence, so it always takes at least one step.
- `StepSizes` covers the step-size rules of liboptpy/step_size.py:
  - the constant and 1/k schedules;
  - backtracking under the Armijo, Wolfe, strong Wolfe and Lipschitz
    rules, plus Goldstein and unknown rule names;
  - the exact line search for quadratics.
- `LegacyStepSize` covers the top-level step_size.py, and `Restarts` the
  restart predicate.
- The strategies:
  - `QuasiNewton`: BFGS, DFP and the gradient-memory Barzilai–Borwein
    method;
  - `LimitedMemory`: L-BFGS;
  - `ConjugateGradient`: Fletcher–Reeves and linear CG;
  - `DualAverage`: dual averaging;
  - `ConstrainedSolvers`: Frank–Wolfe and projected gradient;
  - `AcceleratedGd`: Nesterov's method, with its own loop;
  - `BarzilaiBorwein`: the stand-alone BB solvers;
  - `LegacySolvers`: gradient descent, linear CG and Fletcher–Reeves of
    unconstr_solvers.py.
- `Vectors` and `Bilinear` hold the linear algebra, and `Errors` the
  outcomes.

Several strategies cannot run under the driver they are written for, and
the model records it:

- Fletcher–Reeves, linear CG, Frank–Wolfe and projected gradient never set
  `_current_grad`. `LineSearchOptimizer.solve` therefore raises ValueError
  on their first pass.
- BFGS, DFP and L-BFGS built with an explicit `H` raise TypeError on their
  first direction.
- The projected-gradient module imports a step-size class that does not
  exist.
- In the older driver:
  - a backtracking step size is rejected at construction;
  - any keyword argument given to a solver breaks every step-size call.

## Model

| member | source | states |
|---|---|---|
| Driver.DefaultUpdate | liboptpy/base_optimizer.py:61-62 | The default update moves from x by alpha times h, entry by entry. |
| Driver.DefaultConverged | liboptpy/base_optimizer.py:64-65 | The base convergence test fails exactly when no current gradient is set; it can only answer yes for a positive tolerance. |
| Driver.Pass | liboptpy/base_optimizer.py:24-45 | A pass that continues has taken exactly one more step, recorded one more point, pushed one more gradient and asked the convergence test once, at the frame holding the trajectory so far and the pushed gradient, which answered no; a direction that sets no gradient while none is set raises the ValueError. |
| Driver.PassStops | liboptpy/base_optimizer.py:24-45 | A pass that stops returns a run that extends the trajectory, steps, gradient pushes and convergence tests so far; its last test answered whether it converged, and a converged run returns `_get_result_x` of the state at that test. |
| Driver.Iterate | liboptpy/base_optimizer.py:24-45 | The loop's finished run extends the trajectory, steps, gradient memory and convergence tests it started from; every test it adds but the last answered no and the last answered whether it converged; it stops below the cap only by convergence, and raises the ValueError when the first direction sets no gradient. |
| Driver.Solve | liboptpy/base_optimizer.py:18-50 | The trajectory starts at exactly [x0]; each later point is `_f_update_x_next` of its predecessor; at most max(max_iter, 1) steps are taken, and exactly that many unless convergence stopped the loop; one gradient is pushed per step, plus one on convergence; the memory afterwards holds the newest memory_size of everything ever pushed; the returned point is the last one; the convergence test is asked once per pass, on the trajectory so far and the gradient just pushed; the loop stops at the first test that holds: every earlier test answered no, the last answered whether the run converged, and a converged run returns `_get_result_x` of the state at that test; ValueError when the first direction leaves the gradient unset. |
| Driver.DefaultNeverConverges | liboptpy/base_optimizer.py:64-65 | With a tolerance that is not positive the base test never holds. |
| Driver.PassKeeps | liboptpy/base_optimizer.py:24-45 | A property of the strategy state that every hook preserves survives a pass. |
| Driver.IterateKeeps | liboptpy/base_optimizer.py:24-50 | Such a property holds of the state handed to `_get_result_x` at the end of the loop. |
| Driver.SolveKeeps | liboptpy/base_optimizer.py:18-50 | Such a property holds at the end of every solve. |
| Driver.ConvergedAtStart | liboptpy/base_optimizer.py:29-32 | When the first direction sets a gradient with norm below tol, no step is taken: the trajectory stays [x0], x0 is returned, and one gradient has been pushed. |
| Driver.RunsToCap | liboptpy/base_optimizer.py:41-45 | Under the base test with tol ≤ 0, every finished run takes exactly max(max_iter, 1) steps and records one more point. |
| Driver.FirstPass | liboptpy/base_optimizer.py:24-45 | A finished solve is the first pass's run, or begins with the first pass's step. |
| Fifo.Push | liboptpy/base_optimizer.py:28 | Appending to a deque with maxlen keeps at most maxlen entries, the newest maxlen of the old contents plus the new one, with the new one last. |
| Fifo.PushAll | liboptpy/base_optimizer.py:28 | Any number of appends keeps the deque within maxlen. |
| Fifo.PushAllKeepsNewest | liboptpy/base_optimizer.py:13 | A deque created once and never cleared holds the newest maxlen of everything ever appended to it. |
| Restarts.Fires | liboptpy/restarts.py:5-9 | The predicate answers exactly when limit_dim is a nonzero number; None raises TypeError and 0 raises ZeroDivisionError. |
| Restarts.FiresIgnoresPoint | liboptpy/restarts.py:5-9 | The answer never depends on the point x. |
| Restarts.DefaultRestartRaises | liboptpy/restarts.py:2-3 | `Restart()` with its default limit_dim raises on every call. |
| Restarts.FiresPeriodic | liboptpy/restarts.py:6-9 | The answer at n + limit_dim is the answer at n. |
| Restarts.FiresOnMultiples | liboptpy/restarts.py:6-7 | Every multiple of limit_dim, 0 included, fires. |
| Restarts.NoFireBelowPeriod | liboptpy/restarts.py:6-9 | No index strictly between 0 and limit_dim fires. |
| Restarts.FiresAlwaysWithPeriodOne | liboptpy/restarts.py:6-7 | With limit_dim 1 every call fires. |
| StepSizes.MakeBacktracking | liboptpy/step_size.py:60-68 | The rule name is parsed; the Lipschitz rule always has an eps, 0 unless given; the other parameters are kept; no previous Lipschitz step is remembered. |
| StepSizes.MakeExactQuad | liboptpy/step_size.py:187-192 | The exact search keeps A and uses the given b, or a zero vector of A's size when b is None. |
| StepSizes.Need | liboptpy/step_size.py:76 | Reading a keyword parameter yields its value, or KeyError naming the key exactly when it is missing. |
| StepSizes.ArmijoLoop | liboptpy/step_size.py:84-96 | A returned step is accepted at the update's trial point (not NaN, and strictly below f(x) + β∇f(x)·(x_next − x) unless f(x) is NaN); it is the first accepted trial of init_alpha, init_alpha·ρ, init_alpha·ρ², …, every earlier trial having been rejected without underflow; it is init_alpha itself or at least 1e-16; init_alpha is returned exactly when it is accepted at once, and a rejected init_alpha whose shrunk step falls below 1e-16 raises the underflow ValueError (for later trials see `StepSizes.ArmijoUnderflows`); the only errors are that ValueError and the trial budget. |
| StepSizes.ArmijoFinds | liboptpy/step_size.py:84-96 | When trial k ≥ 0 of init_alpha·ρᵏ is the first accepted one, no shrink up to it fell below 1e-16, and k is within the budget, the loop returns exactly that trial. |
| StepSizes.ArmijoUnderflows | liboptpy/step_size.py:84-96 | When trials 0 … k − 1 are all rejected and the k-th shrink is the first below 1e-16, the loop raises the underflow ValueError, for any k up to one past the budget. |
| StepSizes.ArmijoRunsOut | liboptpy/step_size.py:84-96 | The loop runs out of budget exactly when the first budget + 1 trials are all rejected and none of the budget + 1 shrinks falls below 1e-16. |
| StepSizes.WolfeLoop | liboptpy/step_size.py:108-155 | A returned step satisfies the Wolfe conditions at x + αh: not NaN, sufficient decrease with β1, and the curvature condition with β2 (signed for Wolfe, absolute for strong Wolfe); it is the initial step or at least 1e-16; an initial step that already satisfies them is returned unchanged, and a NaN initial step whose shrunk step falls below 1e-16 raises the underflow ValueError (for later rounds see `StepSizes.WolfeUnderflows`). |
| StepSizes.WolfeRound | liboptpy/step_size.py:108-125 | One round accepts exactly when the Wolfe conditions hold; otherwise a NaN trial shrinks α by ρ keeping the bracket, too little decrease makes α the upper bound, and a failed curvature test makes α the lower bound. |
| StepSizes.WolfeFinds | liboptpy/step_size.py:108-155 | When round k of the bracketing is the first to accept, every trial produced up to it is at least 1e-16, and k is within the budget, the loop returns round k's α. |
| StepSizes.WolfeUnderflows | liboptpy/step_size.py:108-155 | When round k ≥ 1 is the first to produce a trial below 1e-16, and no earlier round accepted, the loop raises the underflow ValueError, for any k up to one past the budget. |
| StepSizes.WolfeRunsOut | liboptpy/step_size.py:108-155 | The loop runs out of budget exactly when rounds 0 … budget all reject and rounds 1 … budget + 1 all produce trials of at least 1e-16. |
| StepSizes.WolfeRetry | liboptpy/step_size.py:123-124 | Once a step has been shrunk or bisected, any step the search returns is at least 1e-16 and satisfies the Wolfe conditions; a trial below 1e-16 raises the ValueError. |
| StepSizes.WolfeRetryOutcome | liboptpy/step_size.py:108-155 | A retry from a bracket at or above 1e-16 returns the bracket's first accepting round within the remaining budget, raises at its first underflowing round, and runs out exactly when the budget is spent before either. |
| StepSizes.LipschitzLoop | liboptpy/step_size.py:166-182 | A returned step α is accepted at the update's trial point: not NaN and within f(x) + ∇f(x)·d + ‖d‖²/(2α) + eps for d = x_next − x; it is the first accepted trial of the start, start·ρ, start·ρ², …, every earlier trial having been rejected without underflow; the start is returned exactly when it is accepted at once, and a rejected start whose shrunk step falls below 1e-16 raises the underflow ValueError (for later trials see `StepSizes.LipschitzUnderflows`); the only errors are underflow and the budget. |
| StepSizes.LipschitzFinds | liboptpy/step_size.py:166-182 | When trial k of start·ρᵏ is the first accepted one, no shrink up to it fell below 1e-16, and k is within the budget, the loop returns exactly that trial. |
| StepSizes.LipschitzUnderflows | liboptpy/step_size.py:166-182 | When trials 0 … k − 1 are all rejected and the k-th shrink is the first below 1e-16, the loop raises the underflow ValueError, for any k up to one past the budget. |
| StepSizes.LipschitzRunsOut | liboptpy/step_size.py:166-182 | The loop runs out of budget exactly when the first budget + 1 trials are all rejected and none of the budget + 1 shrinks falls below 1e-16. |
| StepSizes.LipschitzStart | liboptpy/step_size.py:162-165 | The first call starts at init_alpha; a later call starts at the previous step divided by ρ, ZeroDivisionError for ρ = 0. |
| StepSizes.Backtrack | liboptpy/step_size.py:75-184 | A missing init_alpha is a KeyError; a successful Armijo, Wolfe or strong-Wolfe call has passed the parameter assertions and returns a step satisfying that rule's exit test; Armijo's step is the first accepted shrink of init_alpha, and Lipschitz's the first accepted shrink of its start, which it remembers; Goldstein returns None; an unknown rule raises NotImplementedError; a step is at least 1e-16 unless no shrinking happened. Which trial is returned, when the ValueError is raised and when the budget runs out are stated by `StepSizes.BacktrackArmijoSearch`, `StepSizes.BacktrackWolfeSearch` and `StepSizes.BacktrackLipschitzSearch`. |
| StepSizes.BacktrackArmijoSearch | liboptpy/step_size.py:75-96 | With the preamble passed, the Armijo rule returns its first accepted shrink of init_alpha within the budget, raises the ValueError at the first shrink below 1e-16 before acceptance, and runs out exactly when budget + 1 trials are rejected without underflow; the object is unchanged. |
| StepSizes.BacktrackWolfeSearch | liboptpy/step_size.py:97-155 | With the preamble passed, the Wolfe and strong-Wolfe rules return the first accepting round of the bracketing from (init_alpha, 0, no upper bound), raise the ValueError at the first round below 1e-16, and run out exactly when budget + 1 rounds reject without underflow. |
| StepSizes.BacktrackLipschitzSearch | liboptpy/step_size.py:156-184 | With the preamble passed and the start computed, the Lipschitz rule returns and remembers its first accepted shrink of the start, raises the ValueError at the first shrink below 1e-16, and runs out exactly when budget + 1 trials are rejected without underflow. |
| StepSizes.Preamble | liboptpy/step_size.py:76-81 | The reads and assertions before the first gradient call: a missing init_alpha is KeyError; the only errors are KeyError and AssertionError; on success the result is init_alpha and Armijo has β < 0.5 and ρ < 1, Wolfe and strong Wolfe ρ < 1 and 0 < β1 < β2 < 1, Lipschitz ρ < 1; Goldstein and unknown rules read only init_alpha. |
| StepSizes.PreambleFirst | liboptpy/step_size.py:75-184 | A failing preamble is the error of the whole backtracking call, and a successful call has passed it. |
| StepSizes.BacktrackFirstTrial | liboptpy/step_size.py:84-96 | With the preamble passed: an Armijo init_alpha accepted at once is returned, and a rejected one whose shrunk step is below 1e-16 raises ValueError; the same holds for the first Lipschitz call, which also remembers the step; a Wolfe or strong-Wolfe init_alpha satisfying the conditions is returned, and a NaN one shrunk below 1e-16 raises ValueError. |
| StepSizes.WolfeSearch | liboptpy/step_size.py:97-107 | A successful Wolfe search has ρ < 1 and 0 < β1 < β2 < 1, and its step satisfies the Wolfe conditions. |
| StepSizes.ExactStep | liboptpy/step_size.py:194-195 | The exact step is non-finite exactly when h·Ah = 0; otherwise the residual A(x + αh) − b is orthogonal to h, so α is stationary for the quadratic along h. |
| StepSizes.ExactStepStationary | liboptpy/step_size.py:194-195 | The closed-form α = h·(b − Ax)/h·Ah makes (A(x + αh) − b)·h vanish. |
| StepSizes.GetStepsize | liboptpy/step_size.py:24-195 | A constant rule returns its constant; 1/k returns the α with α·k = 1 for k ≥ 1 and ZeroDivisionError at k = 0; the exact rule's step is stationary along h; backtracking defers to `Backtrack`. |
| StepSizes.InvIterDecreasing | liboptpy/step_size.py:38-39 | The 1/k schedule is positive and strictly decreasing for k ≥ 1. |
| StepSizes.ConstantIgnoresInputs | liboptpy/step_size.py:24-25 | A constant step is the same whatever the direction, point and iteration index. |
| StepSizes.Take | liboptpy/base_optimizer.py:37-38 | The driver gets the step-size object's step; a None step (Goldstein) fails as TypeError when the driver multiplies it with h. |
| OlderDriver.Loop | unconstr_solvers.py:24-35 | Each pass appends x + αh for the direction and step it computes; the loop stops at the first point whose gradient norm is below tol or at the cap, and no earlier point of the pass sequence was converged. |
| OlderDriver.Solve | liboptpy/unconstr_solvers/base_optimizer.py:16-37 | The trajectory starts at [x0] and each later point is its predecessor plus αh; at least one and at most max(max_iter, 1) steps are taken; below the cap the last point has converged and no intermediate point has; the last point is returned. |
| OlderDriver.LoopKeeps | liboptpy/unconstr_solvers/base_optimizer.py:21-32 | A property of state, trajectory and steps that one pass preserves holds of the finished loop. |
| OlderDriver.SolveKeeps | liboptpy/unconstr_solvers/base_optimizer.py:16-37 | Such a property, true of [x0], holds of every finished solve. |
| OlderDriver.SolveRunsToCap | liboptpy/unconstr_solvers/base_optimizer.py:31-32 | With tol ≤ 0 every finished solve takes exactly max(max_iter, 1) steps. |
| OlderDriver.Construct | liboptpy/unconstr_solvers/base_optimizer.py:8-9 | The constructor's two-argument `assign_function` is rejected (TypeError) exactly by a backtracking step size; any other is kept. |
| OlderDriver.BaseConstant | liboptpy/unconstr_solvers/base_optimizer.py:45-46 | Through the older driver a constant rule yields its constant. |
| OlderDriver.BaseInvIter | liboptpy/unconstr_solvers/base_optimizer.py:45-46 | Through the older driver the 1/k rule uses the number of recorded points, a 1-based iteration index. |
| OlderDriver.BaseExact | liboptpy/unconstr_solvers/base_optimizer.py:45-46 | Through the older driver the exact rule is exact along h from convergence[-1]. |
| OlderDriver.ConstructTrustRegion | liboptpy/unconstr_solvers/base_optimizer.py:48-50 | Constructing the trust-region optimiser always raises NotImplementedError with its message. |
| QuasiNewton.Curvature | liboptpy/unconstr_solvers/fo/_quasi_newton.py:31 | ρ is the inverse of y·s, and non-finite exactly when y·s = 0. |
| QuasiNewton.InitialEstimate | liboptpy/unconstr_solvers/fo/_quasi_newton.py:32-33 | The first estimate is the identity scaled by (y·s)/(y·y): symmetric, non-finite exactly when y·y = 0. |
| QuasiNewton.BfgsSymmetric | liboptpy/unconstr_solvers/fo/_quasi_newton.py:34-38 | The BFGS formula keeps a symmetric estimate symmetric. |
| QuasiNewton.BfgsSecant | liboptpy/unconstr_solvers/fo/_quasi_newton.py:34-38 | With ρ(y·s) = 1 the BFGS estimate maps y to s (the secant equation). |
| QuasiNewton.DfpSymmetric | liboptpy/unconstr_solvers/fo/_quasi_newton.py:120-121 | The DFP formula keeps a symmetric estimate symmetric. |
| QuasiNewton.DfpSecant | liboptpy/unconstr_solvers/fo/_quasi_newton.py:120-121 | With ρ(y·s) = 1 and k(y·Hy) = 1 the DFP estimate maps y to s. |
| QuasiNewton.Estimate | liboptpy/unconstr_solvers/fo/_quasi_newton.py:32-33 | The update starts from the current estimate, or from the scaled identity when there is none. |
| QuasiNewton.BfgsUpdate | liboptpy/unconstr_solvers/fo/_quasi_newton.py:29-38 | The BFGS update succeeds exactly when y·s ≠ 0 (and y·y ≠ 0 on the first update); the new estimate maps y to s and is symmetric when the old one was. |
| QuasiNewton.DfpUpdate | liboptpy/unconstr_solvers/fo/_quasi_newton.py:115-121 | The DFP update fails when y·s = 0 (or y·y = 0 on the first update) and, from an estimate, exactly when y·Hy = 0; the new estimate maps y to s and stays symmetric. |
| QuasiNewton.Direction | liboptpy/unconstr_solvers/fo/_quasi_newton.py:17-22 | Without an estimate the direction is −∇f(x) and sets the current gradient; with one it is −H·g, whose slope along g is −gᵀHg, and it is a TypeError while no gradient is set. |
| QuasiNewton.DirectionDescends | liboptpy/unconstr_solvers/fo/_quasi_newton.py:22 | With a positive-definite estimate −H·g descends along g. |
| QuasiNewton.StepAlong | liboptpy/unconstr_solvers/fo/_quasi_newton.py:24-25 | The step is taken along `_h` from convergence[-1] at the trajectory length; IndexError on an empty trajectory. |
| QuasiNewton.Move | liboptpy/unconstr_solvers/fo/_quasi_newton.py:27-39 | The current gradient becomes ∇f(x_next). With s = x_next − x and y = ∇f(x_next) − grad_mem[-1], the new estimate maps y to s and stays symmetric. y·s = 0 is non-finite, and an empty memory is an IndexError. |
| QuasiNewton.Reset | liboptpy/unconstr_solvers/fo/_quasi_newton.py:41-43 | `_get_result_x` puts back the constructor's H and changes nothing else. |
| QuasiNewton.HooksKeepSymmetry | liboptpy/unconstr_solvers/fo/_quasi_newton.py:27-39 | Every hook of BFGS and DFP keeps the estimate unset or symmetric. |
| QuasiNewton.SolveResetsEstimate | liboptpy/unconstr_solvers/fo/_quasi_newton.py:41-43 | After any solve the estimate is the constructor's H again. |
| QuasiNewton.SuppliedEstimateFails | liboptpy/unconstr_solvers/fo/_quasi_newton.py:17-22 | With an estimate already set when solve starts, the first direction reads a current gradient that is still None: TypeError. |
| QuasiNewton.ConvergedAtStart | liboptpy/unconstr_solvers/fo/_quasi_newton.py:17-20 | Without an estimate and with ‖∇f(x0)‖ < tol, solve takes no step and returns x0. |
| QuasiNewton.BbMemoryStep | liboptpy/unconstr_solvers/fo/_quasi_newton.py:136-146 | The first step is init_alpha (KeyError if missing); later ones are the BB formula on the last two memory gradients and trajectory points, IndexError when either holds fewer than two. |
| QuasiNewton.BbFirstStep | liboptpy/unconstr_solvers/fo/_quasi_newton.py:136-138 | Under the main driver the BB method's first step, if any, has length init_alpha along −∇f(x0). |
| LimitedMemory.Rho | liboptpy/unconstr_solvers/fo/_quasi_newton.py:67 | ρ is the inverse of s·y. |
| LimitedMemory.Alpha | liboptpy/unconstr_solvers/fo/_quasi_newton.py:68 | α is (s·q)/(s·y). |
| LimitedMemory.Backward | liboptpy/unconstr_solvers/fo/_quasi_newton.py:66-69 | The first loop yields one α and one ρ per pair, each ρ the inverse of its pair's s·y. |
| LimitedMemory.TwoLoop | liboptpy/unconstr_solvers/fo/_quasi_newton.py:63-74 | The recursion is finite exactly when every pair has s·y ≠ 0. |
| LimitedMemory.TwoLoopSecant | liboptpy/unconstr_solvers/fo/_quasi_newton.py:63-74 | Applied to the newest y the recursion returns the newest s, for any H and any older history: the implied estimate satisfies the secant equation. |
| LimitedMemory.Direction | liboptpy/unconstr_solvers/fo/_quasi_newton.py:58-74 | Without H the direction is −∇f(x) and sets the gradient; with H it is −r of the two-loop recursion on the current gradient, TypeError while that is None. |
| LimitedMemory.Move | liboptpy/unconstr_solvers/fo/_quasi_newton.py:79-86 | The gradient becomes ∇f(x_next); the pair (s, y) is appended last, evicting the oldest when the history is full; H becomes (y·s)/(y·y), non-finite when y·y = 0. |
| LimitedMemory.Reset | liboptpy/unconstr_solvers/fo/_quasi_newton.py:88-90 | `_get_result_x` restores the constructor's H and leaves the history alone. |
| LimitedMemory.HooksKeepBound | liboptpy/unconstr_solvers/fo/_quasi_newton.py:55-56 | Every hook keeps the history within hist_size and leaves hist_size and the constructor's H unchanged. |
| LimitedMemory.SolveKeepsHistoryBounded | liboptpy/unconstr_solvers/fo/_quasi_newton.py:83-90 | After a solve H is the constructor's again and the history still holds at most hist_size pairs. |
| BarzilaiBorwein.BbStep | liboptpy/unconstr_solvers/fo/_bb.py:40-45 | Type 1 is the α with α(g·g) = g·s, type 2 the α with α(g·s) = s·s, non-finite on a zero denominator; another type is UnboundLocalError; a missing type is KeyError. |
| BarzilaiBorwein.ShortStepNotLonger | unconstr_methods.py:109-114 | When g·s > 0 both steps exist and 0 < type 1 ≤ type 2. |
| BarzilaiBorwein.StepLength | liboptpy/unconstr_solvers/fo/_bb.py:17-24 | The first step is init_alpha (KeyError if missing); a later one is the BB formula on the last two points and h_prev − h; h becomes h_prev. |
| BarzilaiBorwein.StepUsesGradientDifference | unconstr_solvers.py:87-94 | When h_prev is −∇f at the previous point, the step is the BB formula on the gradient difference ∇f(x_k) − ∇f(x_{k−1}). |
| BarzilaiBorwein.BbHistoryStep | liboptpy/unconstr_solvers/fo/_bb.py:16-26 | One pass keeps the run's history: each direction is −∇f at the point it leaves, the first step is init_alpha, each later step is the BB formula on the last displacement and gradient difference, and h_prev is −∇f at the second-to-last point. |
| BarzilaiBorwein.SolveUsesGradientDifferences | liboptpy/unconstr_solvers/fo/_bb.py:11-45 | In every successful solve each step goes along −∇f at the point it leaves, the first has length init_alpha, and every later one is the BB formula on s = x_k − x_{k−1} and g = ∇f(x_k) − ∇f(x_{k−1}). |
| BarzilaiBorwein.FirstStepIsInitAlpha | liboptpy/unconstr_solvers/fo/_bb.py:18-19 | Every solve's first step has length init_alpha along −∇f(x0), and a missing init_alpha is a KeyError. |
| ConjugateGradient.CombineDescends | liboptpy/unconstr_solvers/fo/_cg.py:17-19 | When g is orthogonal to the previous direction, −g + βh has slope −g·g along g. |
| ConjugateGradient.FrBeta | liboptpy/unconstr_solvers/fo/_cg.py:18 | β(h·h) = g·g and β ≥ 0; non-finite exactly when h·h = 0. |
| ConjugateGradient.Restarted | liboptpy/unconstr_solvers/fo/_cg.py:12-13 | The direction restarts on the first iteration, never otherwise without a restart object, and else as the restart predicate answers at the trajectory length. |
| ConjugateGradient.FrDirection | liboptpy/unconstr_solvers/fo/_cg.py:11-21 | On a restart the direction is −∇f(x); otherwise it is −g + βh_prev with g = ∇f(convergence[-1]) and β ≥ 0, β(h·h) = g·g, non-finite when h·h = 0; errors of the restart predicate propagate. |
| ConjugateGradient.FrRestartsPeriodically | liboptpy/unconstr_solvers/fo/_cg.py:12-14 | At every trajectory length that is a multiple of the restart period the direction is −∇f(x). |
| ConjugateGradient.FrStep | liboptpy/unconstr_solvers/fo/_cg.py:23-24 | The step-size object is called with grad_mem[-1] in the direction's place, convergence[-1] and the trajectory length. |
| ConjugateGradient.FrNeverSteps | liboptpy/unconstr_solvers/fo/_cg.py:11-21 | Under the main driver Fletcher–Reeves raises the ValueError on its first pass. |
| ConjugateGradient.DefaultB | liboptpy/unconstr_solvers/fo/_cg.py:28-29 | b defaults to the zero vector of A's size. |
| ConjugateGradient.QuadBeta | liboptpy/unconstr_solvers/fo/_cg.py:43 | β(r·r) = r_next·r_next, non-finite exactly when r·r = 0. |
| ConjugateGradient.QuadDirection | liboptpy/unconstr_solvers/fo/_cg.py:36-47 | The first direction is −(Ax − b) with r = Ax − b; later r_next = r + αAh and h = −r_next + βh are computed and stored; AttributeError while r, h or α is unset. |
| ConjugateGradient.QuadAlpha | liboptpy/unconstr_solvers/fo/_cg.py:51 | α(v·Av) = r·r, non-finite exactly when v·Av = 0. |
| ConjugateGradient.QuadStep | liboptpy/unconstr_solvers/fo/_cg.py:49-52 | α is computed with g = grad_mem[-1] in place of the direction and stored; IndexError on an empty memory. |
| ConjugateGradient.QuadNeverSteps | liboptpy/unconstr_solvers/fo/_cg.py:36-47 | Under the main driver linear CG raises the ValueError on its first pass. |
| ConjugateGradient.ResidualStep | liboptpy/unconstr_solvers/fo/_cg.py:42 | Moving x by αh moves the residual Ax − b by αAh. |
| ConjugateGradient.ResidualAdvance | liboptpy/unconstr_solvers/fo/_cg.py:42 | If r is exactly the residual at x, r + αAh is exactly the residual at x + αh. |
| ConjugateGradient.NextResidualOrthogonal | liboptpy/unconstr_solvers/fo/_cg.py:42-51 | With r·h = −r·r and the CG step, the next residual is orthogonal to h. |
| ConjugateGradient.NextDirectionAligned | liboptpy/unconstr_solvers/fo/_cg.py:44 | A residual orthogonal to the old direction has r·h = −r·r with the new one. |
| DualAverage.Construct | liboptpy/unconstr_solvers/fo/_dual_average.py:5-8 | A new object has Σλ = 0 and no s. |
| DualAverage.DualWeight | liboptpy/unconstr_solvers/fo/_dual_average.py:14-15 | The dual weight is the constant, or the λ with λk = 1 for the iteration index k (ZeroDivisionError at 0). An exact-search dual object is called with (x, g) in the place of (h, x). A backtracking dual object that is not also the primal step size fails: first with the KeyError or AssertionError of its parameter checks, then with TypeError for Goldstein (its None weight is multiplied at line 15), NotImplementedError for an unknown rule, and AttributeError for the others, whose objective was never assigned. |
| DualAverage.Average | liboptpy/unconstr_solvers/fo/_dual_average.py:15 | The new s satisfies (Σλ + λ)s' = Σλ·s + λg entry by entry, non-finite exactly when Σλ + λ = 0. |
| DualAverage.Direction | liboptpy/unconstr_solvers/fo/_dual_average.py:10-17 | The dual step's error comes first; after it, a pass other than the first with no s yet is an AttributeError. Otherwise the direction sets the current gradient to ∇f(x), resets s to zeros on the first pass, folds g into the average with weight λ, adds λ to Σλ and returns −s. |
| DualAverage.StepLength | liboptpy/unconstr_solvers/fo/_dual_average.py:19-20 | The primal step is taken along `_h` from `_x_current` at the trajectory length. |
| DualAverage.Anchored | liboptpy/unconstr_solvers/fo/_dual_average.py:22-23 | The update is convergence[0] + αh, whatever the current point. |
| DualAverage.AverageKeepsSum | liboptpy/unconstr_solvers/fo/_dual_average.py:15-16 | One averaging step keeps Σλ·s equal to the weighted sum of gradients. |
| DualAverage.DirectionKeeps | liboptpy/unconstr_solvers/fo/_dual_average.py:10-17 | The direction keeps Σλ the total weight and Σλ·s the weighted sum of this solve's gradients. |
| DualAverage.HooksKeepAveraging | liboptpy/unconstr_solvers/fo/_dual_average.py:10-29 | Every hook keeps that invariant. |
| DualAverage.SolveKeepsAveraging | liboptpy/unconstr_solvers/fo/_dual_average.py:8-16 | After any solve Σλ is the total weight since construction and Σλ·s the weighted sum of the solve's gradients. |
| DualAverage.ConstructAverages | liboptpy/unconstr_solvers/fo/_dual_average.py:5-8 | A new object satisfies the invariant. |
| DualAverage.WeightedMean | liboptpy/unconstr_solvers/fo/_dual_average.py:12-16 | In the first solve s is the λ-weighted mean Σλᵢgᵢ/Σλᵢ. |
| DualAverage.CarriedWeight | liboptpy/unconstr_solvers/fo/_dual_average.py:12-16 | On the first pass of a later solve Σλ still holds the earlier weight L, so s becomes λg/(L + λ) rather than g. |
| DualAverage.AnchoredTrajectory | liboptpy/unconstr_solvers/fo/_dual_average.py:22-29 | Every recorded point after the first is x0 + αᵢhᵢ. |
| ConstrainedSolvers.Decreased | liboptpy/constr_solvers/_frank_wolfe.py:18-22 | Convergence is reported exactly when both values exist and f(x_{k−1}) − f(x_k) < tol; IndexError with fewer than two points. |
| ConstrainedSolvers.MemoryStep | liboptpy/constr_solvers/_frank_wolfe.py:24-25 | The step-size object is called with grad_mem[-1], convergence[-1] and the trajectory length; with the exact rule the residual is orthogonal to that gradient. |
| ConstrainedSolvers.StepIgnoresDirection | liboptpy/constr_solvers/_frank_wolfe.py:24-25 | The step never depends on the direction `_h`, because grad_mem[-1] is passed in its place. |
| ConstrainedSolvers.FwDirection | liboptpy/constr_solvers/_frank_wolfe.py:14-16 | The direction is the oracle's answer for ∇f(x) minus x. |
| ConstrainedSolvers.FwConvexCombination | liboptpy/constr_solvers/_frank_wolfe.py:14-16 | A step α along it lands on (1 − α)x + αs; a unit step lands on s. |
| ConstrainedSolvers.FwNeverSteps | liboptpy/constr_solvers/_frank_wolfe.py:14-16 | Under the main driver Frank–Wolfe raises the ValueError on its first pass. |
| ConstrainedSolvers.ImportName | liboptpy/constr_solvers/_proj_gd.py:3 | Importing a name succeeds exactly when the module defines it; otherwise ImportError names it. |
| ConstrainedSolvers.PgdDoesNotLoad | liboptpy/constr_solvers/_proj_gd.py:3 | The projected-gradient module's import of `ProjectedArmijo` fails. |
| ConstrainedSolvers.PgdNeverSteps | liboptpy/constr_solvers/_proj_gd.py:15-16 | Under the main driver projected gradient raises the ValueError on its first pass. |
| ConstrainedSolvers.ProjectedPoints | liboptpy/constr_solvers/_proj_gd.py:18-19 | Every point after the first is the projection of a step from its predecessor, and a fixed point of an idempotent projector. |
| AcceleratedGd.Momentum | liboptpy/unconstr_solvers/fo/_acc_gd.py:22 | The momentum weight lies in [0, 1) and is 0 exactly on the first pass. |
| AcceleratedGd.MomentumIncreasing | liboptpy/unconstr_solvers/fo/_acc_gd.py:22-24 | The weight strictly increases with k. |
| AcceleratedGd.AcceleratedStep | liboptpy/unconstr_solvers/fo/_acc_gd.py:19-25 | Appending y − α∇f(y) at the next look-ahead point y keeps the record a sequence of accelerated iterates. |
| AcceleratedGd.Loop | liboptpy/unconstr_solvers/fo/_acc_gd.py:18-32 | The loop records one point per pass, stops below the cap only at a converged point, and passes no converged point before it. |
| AcceleratedGd.LoopAccelerated | liboptpy/unconstr_solvers/fo/_acc_gd.py:18-32 | Entered with y, x_prev and k as the recursion leaves them, the loop records only accelerated iterates. |
| AcceleratedGd.Solve | liboptpy/unconstr_solvers/fo/_acc_gd.py:11-37 | A backtracking step size or any keyword argument is a TypeError; otherwise the record starts at x0, each step goes along −∇f at the look-ahead point with the inherited step length, at least one and at most max(max_iter, 1) steps are taken, the test is on the recorded x, and the last x is returned. |
| AcceleratedGd.OpeningSteps | liboptpy/unconstr_solvers/fo/_acc_gd.py:13-22 | The first step is a gradient step from x0, and the second starts from the first recorded point, since the first momentum weight is 0. |
| AcceleratedGd.ExactStepFromRecordedPoint | liboptpy/unconstr_solvers/fo/_acc_gd.py:19-21 | With the exact quadratic rule each step is exact from the recorded point, not from the look-ahead point it is taken from. |
| AcceleratedGd.RunsToCap | liboptpy/unconstr_solvers/fo/_acc_gd.py:31-32 | With tol ≤ 0 every finished solve takes exactly max(max_iter, 1) steps. |
| LegacyStepSize.ArmijoShrink | step_size.py:31-40 | A returned step is the first trial of init_alpha, init_alpha·ρ, … that passes the sufficient-decrease test with a non-NaN value, or the first shrink below 1e-16, whichever comes first: every earlier trial failed the test and no earlier shrink underflowed; an acceptable init_alpha is returned unchanged, and a rejected one whose shrink is below 1e-16 returns that shrink (for later shrinks see `LegacyStepSize.ArmijoShrinkUnderflows`). |
| LegacyStepSize.ArmijoShrinkFinds | step_size.py:31-40 | When trial k is the first sufficient one, no shrink up to it fell below 1e-16, and k is within the budget, the loop returns exactly that trial. |
| LegacyStepSize.ArmijoShrinkUnderflows | step_size.py:31-40 | When trials 0 … k − 1 all fail the test and the k-th shrink is the first below 1e-16, the loop breaks and returns that shrink, for any k up to one past the budget. |
| LegacyStepSize.ArmijoShrinkRunsOut | step_size.py:31-40 | The loop runs out of budget exactly when the first budget + 1 trials all fail and none of the budget + 1 shrinks falls below 1e-16. |
| LegacyStepSize.ClampedStep | step_size.py:52-53 | The step is never negative; a positive step solves α(h·Ah) = −x·Ah; 0 with h·Ah > 0 means x·Ah ≥ 0; non-finite exactly when h·Ah = 0 and x·Ah < 0. |
| LegacyStepSize.ClampedStepMinimises | step_size.py:52-53 | For symmetric A with h·Ah > 0 the clamped step minimises ½(x + αh)ᵀA(x + αh) over α ≥ 0. |
| LegacyStepSize.GetStepsize | step_size.py:14-53 | Any keyword argument is a TypeError. A constant returns itself. Backtracking needs init_alpha, runs Armijo and returns its first sufficient or underflowing trial (which one, and when the budget runs out, is `LegacyStepSize.GetStepsizeArmijo`), and returns None for every other rule name. The exact rule returns the clamped step. |
| LegacyStepSize.GetStepsizeArmijo | step_size.py:30-40 | With init_alpha, ρ and β given, the Armijo rule returns its first sufficient trial within the budget, or the first shrink below 1e-16 reached before one, and runs out exactly when budget + 1 trials fail without underflow. |
| LegacyStepSize.ConstantIgnoresInputs | step_size.py:18-19 | A constant step is the same for every direction and point. |
| LegacySolvers.StepCall | unconstr_solvers.py:48-49 | The step is the step-size object's answer at convergence[-1]; a missing object is an AttributeError and a None step a TypeError. |
| LegacySolvers.GradientDescentSteepest | unconstr_solvers.py:55-56 | Every step of a gradient-descent run goes along −∇f at the point it left. |
| LegacySolvers.KeywordsRejected | unconstr_solvers.py:48-49 | A solver given keyword arguments fails on its first step with TypeError. |
| LegacySolvers.QuadStep | unconstr_solvers.py:138-141 | α(h·Ah) = r·r along the direction itself and is stored; AttributeError before r is set; non-finite when h·Ah = 0. |
| LegacySolvers.StepOrthogonal | unconstr_solvers.py:138-141 | The exact step along a direction with r·h = −r·r leaves the next residual orthogonal to that direction. |
| LegacySolvers.DirectionDescends | unconstr_solvers.py:125-136 | Every direction linear CG computes has r·h = −r·r with the residual it stores. |
| LegacySolvers.PassTracks | unconstr_solvers.py:125-136 | The residual a pass stores is exactly Ax − b at the point the pass starts from. |
| LegacySolvers.QuadPassKeeps | unconstr_solvers.py:125-141 | One pass keeps the residual exact and the descent and orthogonality relations. |
| LegacySolvers.PassConjugate | unconstr_solvers.py:125-141 | After a pass the stored residual, direction and step are conjugate. |
| LegacySolvers.QuadSolveKeepsResidual | unconstr_solvers.py:117-141 | After every linear-CG run the stored residual advanced by the last step is Ax − b at the returned point, and that residual is orthogonal to the last direction. |
| LegacySolvers.FrDirection | unconstr_solvers.py:150-160 | On a restart the direction is −∇f(x); otherwise the stored h is read (AttributeError while unset) and combined as −g + βh. |
| LegacySolvers.FrRunRestarts | unconstr_solvers.py:150-160 | With a restart period d, every step taken at trajectory length 1 or a multiple of d goes along −∇f. |

## Left out

- Floating point: reals replace floats, so there is no rounding, overflow or nan propagation beyond what is modelled. A NaN objective is `None`, and a numpy division by zero stops with `NonFinite`, where numpy would carry inf or nan on.
- `np.linalg.norm` is compared through squared norms (‖g‖ < tol as tol > 0 and ‖g‖² < tol²), which is the same test over the reals.
- Vectors are zero-padded: mismatched lengths, which numpy rejects, are never an error here.
- The Armijo, Wolfe and Lipschitz loops, and the top-level Armijo loop, carry a trial budget (`OutOfFuel`) that the source does not have. The source's Wolfe loop need not terminate: α doubles without bound while the curvature test fails. The budget is the only departure: `OutOfFuel` is returned exactly when budget + 1 trials (or Wolfe rounds) have been rejected with no step below 1e-16, which is when the source would still be looping.
- `ScaledConstantStepSize`, `ScaledInvIterStepSize` and `InvSqrootIterStepSize` need a square root or a norm, so they are not modelled.
- Newton and inexact-Newton directions are not modelled: they wrap a linear solver that is not part of this model.
- liboptpy/unconstr_solvers/fo/_subgrad.py, liboptpy/unconstr_solvers/fo/_gd.py and liboptpy/unconstr_solvers/fo.py are not modelled: their base classes do not exist, so they cannot be loaded.
- Printing under `disp` and the `_print_info` helpers are left out, as they have no effect on the result.
- f, the gradient, the projector and the oracle are function parameters with no body. The model does not look inside them.
- The step-size object receives the optimiser's own `_f_update_x_next` (liboptpy/base_optimizer.py:9-10). `Driver.Pass` wires this by handing the step-size hook `updateNext`, anchored at convergence[0]. No separate lemma restates that wiring.
- OlderDriver.BaseStepSize: the keyword arguments the older driver forwards to `get_stepsize` are ignored there. `AcceleratedGd.Solve` and `LegacyStepSize.GetStepsize` model the resulting TypeError.
- DualAverage.DualWeight: the dual step-size object is assumed distinct from the primal one, and so never assigned a function. Passing the same backtracking object as both (liboptpy/base_optimizer.py:10 assigns it f, grad and the update) would run a real search at line 14 with the anchored update, and a Lipschitz object would share its remembered `_alpha` with the primal search; that aliasing is not modelled.
- An exception ends the model's run, and the state changes made before it are not kept: the shrunk Lipschitz `_alpha` (liboptpy/step_size.py:171-174) before the underflow raise at lines 179-180, the `_current_grad` and `_s` set at liboptpy/unconstr_solvers/fo/_dual_average.py:11-13 before line 14 raises, and the gradients pushed onto the memory deque in passes before a failing one. A caller that catches the exception and reuses the object is not modelled.
- AcceleratedGd.Solve: the step rule is a plain function of the direction and the record. This holds because the step-size objects its constructor accepts keep no state.

=== FILE: acc_gd.dfy ===
/**
 * Nesterov's accelerated gradient method of
 * liboptpy/unconstr_solvers/fo/_acc_gd.py. It is a subclass of the
 * check-after-step driver of liboptpy/unconstr_solvers/base_optimizer.py
 * but replaces `solve` with its own loop over a look-ahead point y:
 *
 *   h = −∇f(y),  x = y + α·h,  y = x + (k − 1)/(k + 2)·(x − x_prev),
 *   x_prev = x,  k = k + 1,
 *
 * starting from y = x_prev = x0 and k = 1. Only the points x are recorded.
 * The step size and the convergence test are inherited, so both look at
 * `convergence[-1]`, the newest x, not at y.
 */
module AcceleratedGd {
  import opened Vectors
  import opened Errors
  import StepSizes
  import Driver
  import OlderDriver

  /** The momentum weight (k − 1)/(k + 2). */
  function Momentum(k: real): (r: real)
    requires k >= 1.0
    ensures 0.0 <= r < 1.0
    ensures k == 1.0 <==> r == 0.0
  {
    (k - 1.0) / (k + 2.0)
  }

  /** The weight grows with k: later passes extrapolate further. */
  lemma MomentumIncreasing(k: real, k': real)
    requires 1.0 <= k < k'
    ensures Momentum(k) < Momentum(k')
  {
    var m, m' := Momentum(k), Momentum(k');
    assert m * (k + 2.0) == k - 1.0;
    assert m' * (k' + 2.0) == k' - 1.0;
    // (k − 1)(k' + 2) < (k' − 1)(k + 2) reduces to 3k < 3k'
    assert (k - 1.0) * (k' + 2.0) < (k' - 1.0) * (k + 2.0);
    CrossCompare(k - 1.0, k + 2.0, k' - 1.0, k' + 2.0);
  }

  lemma CrossCompare(a: real, b: real, c: real, d: real)
    requires b > 0.0 && d > 0.0 && a * d < c * b
    ensures a / b < c / d
  {
    assert a / b * (b * d) == a * d;
    assert c / d * (b * d) == c * b;
  }

  /** y = x + m·(x − x_prev) with m the momentum weight of pass k. */
  function Extrapolate(x: Vec, xPrev: Vec, k: real): Vec
    requires k >= 1.0
  {
    Add(x, Scale(Momentum(k), Sub(x, xPrev)))
  }

  /**
   * The look-ahead point at which pass j (from 0) evaluates the gradient,
   * in terms of the recorded points: x0 for the first pass, and afterwards
   * the extrapolation of the last two points with the momentum weight of
   * the pass that produced the newer one.
   */
  function Lookahead(traj: seq<Vec>, j: nat): Vec
    requires j < |traj|
  {
    if j == 0 then traj[0] else Extrapolate(traj[j], traj[j - 1], j as real)
  }

  /** A finished solve: the returned point, the recorded points and the steps taken. */
  datatype AccRun = AccRun(x: Vec, trajectory: seq<Vec>, steps: seq<OlderDriver.Step>)

  /**
   * The inherited `get_stepsize(h)`, reduced to the step length; it reads
   * `convergence[-1]`, so an empty record raises IndexError.
   */
  function StepLength(ss: StepSizes.StepSize, f: StepSizes.Objective, grad: Vec -> Vec,
                      h: Vec, traj: seq<Vec>): Result<real>
  {
    if |traj| == 0 then Err(IndexError)
    else
      var t :- OlderDriver.BaseStepSize(ss, f, grad, h, traj);
      Ok(t.alpha)
  }

  /** The step rule of a solver built on `ss`, as a function of the direction and the recorded points. */
  function Inherited(ss: StepSizes.StepSize, f: StepSizes.Objective, grad: Vec -> Vec): (Vec, seq<Vec>) -> Result<real> {
    (h: Vec, traj: seq<Vec>) => StepLength(ss, f, grad, h, traj)
  }

  /**
   * Step j goes along −∇f at the look-ahead point, from the look-ahead
   * point, with the length the step rule gives for the trajectory up to
   * point j.
   */
  ghost predicate AcceleratedStepAt(step: (Vec, seq<Vec>) -> Result<real>, grad: Vec -> Vec,
                                    traj: seq<Vec>, steps: seq<OlderDriver.Step>, j: nat)
    requires j < |steps| && |traj| == |steps| + 1
  {
    && steps[j].h == Neg(grad(Lookahead(traj, j)))
    && traj[j + 1] == Add(Lookahead(traj, j), Scale(steps[j].alpha, steps[j].h))
    && step(steps[j].h, traj[..j + 1]) == Ok(steps[j].alpha)
  }

  /** The recorded points are the accelerated iterates. */
  ghost predicate Accelerated(step: (Vec, seq<Vec>) -> Result<real>, grad: Vec -> Vec,
                              traj: seq<Vec>, steps: seq<OlderDriver.Step>) {
    && |traj| == |steps| + 1
    && forall j: nat | j < |steps| :: AcceleratedStepAt(step, grad, traj, steps, j)
  }

  /** Appending the next accelerated iterate keeps the trajectory accelerated. */
  lemma AcceleratedStep(step: (Vec, seq<Vec>) -> Result<real>, grad: Vec -> Vec,
                        traj: seq<Vec>, steps: seq<OlderDriver.Step>, alpha: real)
    requires Accelerated(step, grad, traj, steps)
    requires step(Neg(grad(Lookahead(traj, |steps|))), traj) == Ok(alpha)
    ensures var y := Lookahead(traj, |steps|);
      var h := Neg(grad(y));
      Accelerated(step, grad, traj + [Add(y, Scale(alpha, h))], steps + [OlderDriver.Step(h, alpha)])
  {
    var y := Lookahead(traj, |steps|);
    var h := Neg(grad(y));
    var traj' := traj + [Add(y, Scale(alpha, h))];
    var steps' := steps + [OlderDriver.Step(h, alpha)];
    forall j: nat | j < |steps'| ensures AcceleratedStepAt(step, grad, traj', steps', j) {
      assert traj'[..j + 1] == traj[..j + 1];
      assert Lookahead(traj', j) == Lookahead(traj, j);
      if j < |steps| {
        assert AcceleratedStepAt(step, grad, traj, steps, j);
      }
    }
  }

  /**
   * The `while True` loop of `solve` from the top of a pass, with y, x_prev
   * and k as the previous pass left them, for a step rule `step` and a
   * convergence test `stop`. The step-size objects the constructor accepts
   * keep no state between calls, so the rule is a plain function.
   */
  function Loop(step: (Vec, seq<Vec>) -> Result<real>, grad: Vec -> Vec, stop: Vec -> bool, maxIter: int,
                y: Vec, xPrev: Vec, k: real, traj: seq<Vec>, steps: seq<OlderDriver.Step>): (r: Result<AccRun>)
    requires |traj| == |steps| + 1 && |steps| < Driver.Cap(maxIter) && k >= 1.0
    decreases Driver.Cap(maxIter) - |steps|
    ensures r.Ok? ==>
      && |r.value.trajectory| == |r.value.steps| + 1
      && |steps| < |r.value.steps| <= Driver.Cap(maxIter)
      && r.value.trajectory[..|traj|] == traj
      && r.value.steps[..|steps|] == steps
      && r.value.x == Last(r.value.trajectory)
      && (|r.value.steps| < Driver.Cap(maxIter) ==> stop(r.value.x))
      && (forall j | |traj| <= j < |r.value.trajectory| - 1 :: !stop(r.value.trajectory[j]))
  {
    var h := Neg(grad(y));
    var alpha :- step(h, traj);
    var x := Add(y, Scale(alpha, h));
    var traj' := traj + [x];
    var steps' := steps + [OlderDriver.Step(h, alpha)];
    if stop(x) || |steps'| >= maxIter then
      Ok(AccRun(x, traj', steps'))
    else
      var r :- Loop(step, grad, stop, maxIter, Extrapolate(x, xPrev, k), x, k + 1.0, traj', steps');
      assert r.trajectory[..|traj|] == r.trajectory[..|traj'|][..|traj|];
      assert r.steps[..|steps|] == r.steps[..|steps'|][..|steps|];
      assert r.trajectory[|traj|] == x;
      Ok(r)
  }

  /**
   * When the loop is entered with y, x_prev and k as the accelerated
   * recursion leaves them, every recorded point is an accelerated iterate.
   */
  lemma {:induction false} LoopAccelerated(step: (Vec, seq<Vec>) -> Result<real>, grad: Vec -> Vec,
                                           stop: Vec -> bool, maxIter: int, y: Vec, xPrev: Vec, k: real,
                                           traj: seq<Vec>, steps: seq<OlderDriver.Step>)
    requires Accelerated(step, grad, traj, steps) && |steps| < Driver.Cap(maxIter)
    requires y == Lookahead(traj, |steps|) && xPrev == Last(traj) && k == |traj| as real
    decreases Driver.Cap(maxIter) - |steps|
    ensures var r := Loop(step, grad, stop, maxIter, y, xPrev, k, traj, steps);
      r.Ok? ==> Accelerated(step, grad, r.value.trajectory, r.value.steps)
  {
    var h := Neg(grad(y));
    var t := step(h, traj);
    if t.Ok? {
      var x := Add(y, Scale(t.value, h));
      var traj' := traj + [x];
      var steps' := steps + [OlderDriver.Step(h, t.value)];
      AcceleratedStep(step, grad, traj, steps, t.value);
      if !(stop(x) || |steps'| >= maxIter) {
        assert Lookahead(traj', |steps'|) == Extrapolate(x, xPrev, k);
        LoopAccelerated(step, grad, stop, maxIter, Extrapolate(x, xPrev, k), x, k + 1.0, traj', steps');
      }
    }
  }

  /**
   * `AcceleratedGD(f, grad, step_size, **kwargs)` followed by
   * `solve(x0, max_iter, tol)`. The constructor hands the step-size object
   * `assign_function(f, grad)`, which a backtracking object rejects, and
   * the keyword arguments (`extra` of them) are forwarded to every
   * `get_stepsize` call, which accepts none.
   */
  function Solve(ss: StepSizes.StepSize, f: StepSizes.Objective, grad: Vec -> Vec, extra: nat,
                 x0: Vec, maxIter: int, tol: real): (r: Result<AccRun>)
    ensures ss.Backtracking? || extra > 0 ==> r == Err(TypeError)
    ensures r.Ok? ==>
      && Accelerated(Inherited(ss, f, grad), grad, r.value.trajectory, r.value.steps)
      && r.value.trajectory[0] == x0
      && 1 <= |r.value.steps| <= Driver.Cap(maxIter)
      && r.value.x == Last(r.value.trajectory)
      && (|r.value.steps| < Driver.Cap(maxIter) ==> OlderDriver.Converged(grad, tol, r.value.x))
      && (forall j | 1 <= j < |r.value.trajectory| - 1 :: !OlderDriver.Converged(grad, tol, r.value.trajectory[j]))
  {
    var ss :- OlderDriver.Construct(ss);
    if extra > 0 then Err(TypeError)
    else
      var step := Inherited(ss, f, grad);
      var stop := (x: Vec) => OlderDriver.Converged(grad, tol, x);
      var r := Loop(step, grad, stop, maxIter, x0, x0, 1.0, [x0], []);
      LoopAccelerated(step, grad, stop, maxIter, x0, x0, 1.0, [x0], []);
      if r.Ok? then
        assert r.value.trajectory[..1] == [x0];
        r
      else r
  }

  /**
   * The first two steps are plain gradient steps: the first starts from x0,
   * and the momentum weight of the first pass is 0, so the second starts
   * from the first recorded point.
   */
  lemma OpeningSteps(step: (Vec, seq<Vec>) -> Result<real>, grad: Vec -> Vec,
                     traj: seq<Vec>, steps: seq<OlderDriver.Step>)
    requires Accelerated(step, grad, traj, steps)
    ensures |steps| >= 1 ==> traj[1] == Add(traj[0], Scale(steps[0].alpha, Neg(grad(traj[0]))))
    ensures |steps| >= 2 ==> Equiv(Lookahead(traj, 1), traj[1])
  {
    if |steps| >= 1 {
      assert AcceleratedStepAt(step, grad, traj, steps, 0);
    }
    if |steps| >= 2 {
      forall i: nat ensures At(Lookahead(traj, 1), i) == At(traj[1], i) {
        assert Momentum(1.0) == 0.0;
      }
    }
  }

  /**
   * The inherited step size looks at `convergence[-1]`: with the exact line
   * search for a quadratic, step j is exact along hⱼ from the recorded point
   * xⱼ, not from the look-ahead point the step is taken from.
   */
  lemma ExactStepFromRecordedPoint(A: Mat, b: Vec, f: StepSizes.Objective, grad: Vec -> Vec,
                                   traj: seq<Vec>, steps: seq<OlderDriver.Step>)
    requires Accelerated(Inherited(StepSizes.ExactQuad(A, b), f, grad), grad, traj, steps)
    ensures forall j | 0 <= j < |steps| ::
      Dot(Sub(MatVec(A, Add(traj[j], Scale(steps[j].alpha, steps[j].h))), b), steps[j].h) == 0.0
  {
    forall j | 0 <= j < |steps|
      ensures Dot(Sub(MatVec(A, Add(traj[j], Scale(steps[j].alpha, steps[j].h))), b), steps[j].h) == 0.0
    {
      ExactAt(A, b, f, grad, traj, steps, j);
    }
  }

  lemma ExactAt(A: Mat, b: Vec, f: StepSizes.Objective, grad: Vec -> Vec,
                traj: seq<Vec>, steps: seq<OlderDriver.Step>, j: nat)
    requires Accelerated(Inherited(StepSizes.ExactQuad(A, b), f, grad), grad, traj, steps) && j < |steps|
    ensures Dot(Sub(MatVec(A, Add(traj[j], Scale(steps[j].alpha, steps[j].h))), b), steps[j].h) == 0.0
  {
    assert AcceleratedStepAt(Inherited(StepSizes.ExactQuad(A, b), f, grad), grad, traj, steps, j);
    ExactFromLast(A, b, f, grad, steps[j].h, traj[..j + 1], steps[j].alpha);
    assert Last(traj[..j + 1]) == traj[j];
  }

  lemma ExactFromLast(A: Mat, b: Vec, f: StepSizes.Objective, grad: Vec -> Vec, h: Vec, pts: seq<Vec>, alpha: real)
    requires StepLength(StepSizes.ExactQuad(A, b), f, grad, h, pts) == Ok(alpha)
    ensures |pts| > 0 && Dot(Sub(MatVec(A, Add(Last(pts), Scale(alpha, h))), b), h) == 0.0
  {
    OlderDriver.BaseExact(StepSizes.ExactQuad(A, b), f, grad, h, pts);
  }

  /** With a tolerance that is not positive nothing converges, so every solve runs max(max_iter, 1) passes. */
  lemma RunsToCap(ss: StepSizes.StepSize, f: StepSizes.Objective, grad: Vec -> Vec, extra: nat,
                  x0: Vec, maxIter: int, tol: real)
    requires tol <= 0.0
    ensures var r := Solve(ss, f, grad, extra, x0, maxIter, tol);
      r.Ok? ==> |r.value.steps| == Driver.Cap(maxIter) && |r.value.trajectory| == Driver.Cap(maxIter) + 1
  {
  }
}

=== FILE: bb.dfy ===
/**
 * The Barzilai–Borwein step lengths and the stand-alone BB solver of
 * liboptpy/unconstr_solvers/fo/_bb.py, whose copies in unconstr_solvers.py
 * (`BarzilaiBorwein`) and unconstr_methods.py (`BB_method`) are identical.
 */
module BarzilaiBorwein {
  import opened Vectors
  import opened Errors
  import OlderDriver

  /**
   * `get_stepsize(s, g, alpha_type)`: type 1 is g·s/g·g and type 2 is
   * s·s/g·s; any other type leaves `alpha` unbound. A missing "type"
   * keyword is a KeyError, and a zero denominator gives a non-finite value.
   */
  function BbStep(s: Vec, g: Vec, kind: Option<int>): (r: Result<real>)
    ensures kind.None? <==> r == Err(KeyError("type"))
    ensures kind == Some(1) ==> (r.Ok? <==> Dot(g, g) != 0.0)
    ensures kind == Some(1) && r.Ok? ==> r.value * Dot(g, g) == Dot(g, s)
    ensures kind == Some(2) ==> (r.Ok? <==> Dot(g, s) != 0.0)
    ensures kind == Some(2) && r.Ok? ==> r.value * Dot(g, s) == Dot(s, s)
    ensures kind.Some? && kind.value != 1 && kind.value != 2 <==> r == Err(UnboundLocalError)
    ensures r.Err? && kind.Some? && (kind.value == 1 || kind.value == 2) ==> r.error == NonFinite
  {
    if kind.None? then Err(KeyError("type"))
    else if kind.value == 1 then
      if Dot(g, g) == 0.0 then Err(NonFinite) else Ok(Dot(g, s) / Dot(g, g))
    else if kind.value == 2 then
      if Dot(g, s) == 0.0 then Err(NonFinite) else Ok(Dot(s, s) / Dot(g, s))
    else Err(UnboundLocalError)
  }

  /** ‖s − t·g‖² expanded. */
  lemma ExpandNormSq(s: Vec, g: Vec, t: real)
    ensures Dot(Sub(s, Scale(t, g)), Sub(s, Scale(t, g))) == Dot(s, s) - 2.0 * t * Dot(g, s) + t * t * Dot(g, g)
  {
    var v := Sub(s, Scale(t, g));
    InnerWithDifference(s, s, g, t);
    InnerWithDifference(g, s, g, t);
    DifferenceWithInner(s, g, t, v);
    DotComm(s, g);
    Binomial(Dot(s, s), Dot(g, s), Dot(s, g), Dot(g, g), t, Dot(s, v), Dot(g, v), Dot(v, v));
  }

  lemma Binomial(ss: real, gs: real, sg: real, gg: real, t: real, sv: real, gv: real, vv: real)
    requires sg == gs && sv == ss - t * sg && gv == gs - t * gg && vv == sv - t * gv
    ensures vv == ss - 2.0 * t * gs + t * t * gg
  {
  }

  /** (s − t·g)·v = s·v − t·(g·v). */
  lemma DifferenceWithInner(s: Vec, g: Vec, t: real, v: Vec)
    ensures Dot(Sub(s, Scale(t, g)), v) == Dot(s, v) - t * Dot(g, v)
  {
    DotSubLeft(s, Scale(t, g), v);
    DotScaleLeft(t, g, v);
  }

  /** u·(s − t·g) = u·s − t·(u·g). */
  lemma InnerWithDifference(u: Vec, s: Vec, g: Vec, t: real)
    ensures Dot(u, Sub(s, Scale(t, g))) == Dot(u, s) - t * Dot(u, g)
  {
    DotSubRight(u, s, Scale(t, g));
    DotScaleRight(t, u, g);
  }

  /** (g·s)² ≤ (g·g)(s·s). */
  lemma CauchySchwarz(s: Vec, g: Vec)
    requires Dot(g, g) > 0.0
    ensures Dot(g, s) * Dot(g, s) <= Dot(g, g) * Dot(s, s)
  {
    var gg, gs, ss := Dot(g, g), Dot(g, s), Dot(s, s);
    var t := gs / gg;
    ExpandNormSq(s, g, t);
    NormSqNonNeg(Sub(s, Scale(t, g)));
    DiscriminantStep(gg, gs, ss, t);
  }

  lemma DiscriminantStep(gg: real, gs: real, ss: real, t: real)
    requires gg > 0.0 && t == gs / gg
    requires ss - 2.0 * t * gs + t * t * gg >= 0.0
    ensures gs * gs <= gg * ss
  {
    assert t * gg == gs;
    assert t * t * gg == t * gs;
    assert ss - t * gs >= 0.0;
    assert gg * (ss - t * gs) >= 0.0;
    assert gg * (t * gs) == gs * gs;
  }

  /** When g·s > 0 the type-1 step never exceeds the type-2 step, and both are positive. */
  lemma ShortStepNotLonger(s: Vec, g: Vec)
    requires Dot(g, s) > 0.0
    ensures BbStep(s, g, Some(1)).Ok? && BbStep(s, g, Some(2)).Ok?
    ensures 0.0 < BbStep(s, g, Some(1)).value <= BbStep(s, g, Some(2)).value
  {
    NormSqNonNeg(g);
    if Dot(g, g) == 0.0 {
      // g·g = 0 makes g zero, contradicting g·s > 0
      ZeroNormSq(g, s);
      assert false;
    }
    CauchySchwarz(s, g);
    QuotientOrder(Dot(g, g), Dot(g, s), Dot(s, s));
  }

  /** A vector of zero norm has zero inner product with everything. */
  lemma ZeroNormSq(g: Vec, s: Vec)
    requires Dot(g, g) == 0.0
    ensures Dot(g, s) == 0.0
  {
    var gs, ss := Dot(g, s), Dot(s, s);
    if gs != 0.0 {
      // ‖s − t·g‖² = s·s − 2t(g·s) would be −1 for this t
      var t := (ss + 1.0) / (2.0 * gs);
      ExpandNormSq(s, g, t);
      NormSqNonNeg(Sub(s, Scale(t, g)));
      HalfwayPoint(ss, gs, t);
    }
  }

  lemma HalfwayPoint(ss: real, gs: real, t: real)
    requires gs != 0.0 && t == (ss + 1.0) / (2.0 * gs)
    ensures ss - 2.0 * t * gs + t * t * 0.0 < 0.0
  {
    assert t * (2.0 * gs) == ss + 1.0;
  }

  lemma QuotientOrder(gg: real, gs: real, ss: real)
    requires gg > 0.0 && gs > 0.0 && gs * gs <= gg * ss
    ensures 0.0 < gs / gg <= ss / gs
  {
    var a1 := gs / gg;
    var a2 := ss / gs;
    assert a1 * gg == gs;
    assert a2 * gs == ss;
    assert a1 * gg * gs <= a2 * gs * gg;
  }

  // ------------------------------------------------------------- the solver

  const InitAlphaKey: string := "init_alpha"

  /**
   * `BarzilaiBorweinMethod.solve` as a check-after-step loop. The state is
   * `h_prev`. The first step is init_alpha; every later step is `BbStep` on
   * s = x_k − x_{k−1} (the last two trajectory points) and g = h_prev − h.
   */
  function Solver(grad: Vec -> Vec, initAlpha: Option<real>, kind: Option<int>): OlderDriver.Older<Vec> {
    OlderDriver.Older(
      (hPrev: Vec, x: Vec, traj: seq<Vec>) => Ok(OlderDriver.Directed(hPrev, Neg(grad(x)))),
      (hPrev: Vec, h: Vec, traj: seq<Vec>) => StepLength(initAlpha, kind, hPrev, h, traj))
  }

  /** The step of one iteration of `solve`, and the new h_prev. */
  function StepLength(initAlpha: Option<real>, kind: Option<int>, hPrev: Vec, h: Vec, traj: seq<Vec>): (r: Result<OlderDriver.Sized<Vec>>)
    ensures |traj| == 1 ==> (r.Ok? <==> initAlpha.Some?)
    ensures |traj| == 1 && r.Ok? ==> r.value.alpha == initAlpha.value
    ensures |traj| == 1 && initAlpha.None? ==> r == Err(KeyError(InitAlphaKey))
    ensures |traj| >= 2 ==> r.Ok? == BbStep(Sub(Last(traj), traj[|traj| - 2]), Sub(hPrev, h), kind).Ok?
    ensures |traj| >= 2 && r.Ok? ==>
      r.value.alpha == BbStep(Sub(Last(traj), traj[|traj| - 2]), Sub(hPrev, h), kind).value
    ensures r.Ok? ==> r.value.state == h
  {
    if |traj| <= 1 then
      if initAlpha.None? then Err(KeyError(InitAlphaKey)) else Ok(OlderDriver.Sized(h, initAlpha.value))
    else
      var a :- BbStep(Sub(Last(traj), traj[|traj| - 2]), Sub(hPrev, h), kind);
      Ok(OlderDriver.Sized(h, a))
  }

  /**
   * Once h_prev is −∇f at the previous point, g = h_prev − h is the
   * gradient difference ∇f(x_k) − ∇f(x_{k−1}), as the BB formulas intend.
   */
  lemma StepUsesGradientDifference(grad: Vec -> Vec, initAlpha: Option<real>, kind: Option<int>, traj: seq<Vec>)
    requires |traj| >= 2
    ensures
      var xk, xp := Last(traj), traj[|traj| - 2];
      var r := StepLength(initAlpha, kind, Neg(grad(xp)), Neg(grad(xk)), traj);
      var b := BbStep(Sub(xk, xp), Sub(grad(xk), grad(xp)), kind);
      r.Ok? == b.Ok? && (r.Ok? ==> r.value.alpha == b.value)
  {
    var xk, xp := Last(traj), traj[|traj| - 2];
    var g1 := Sub(Neg(grad(xp)), Neg(grad(xk)));
    var g2 := Sub(grad(xk), grad(xp));
    var s := Sub(xk, xp);
    assert Equiv(g1, g2);
    DotEquiv(g1, g1, g2, g2);
    DotEquiv(g1, s, g2, s);
  }

  /**
   * What a BB run has done so far, with `hPrev` the solver's state: every
   * direction is −∇f at the point it left, the first step is init_alpha,
   * every later step is the BB step on the last displacement and the
   * gradient difference across it, and h_prev is −∇f at the second-to-last
   * point.
   */
  ghost predicate BbHistory(grad: Vec -> Vec, initAlpha: Option<real>, kind: Option<int>,
                            hPrev: Vec, traj: seq<Vec>, steps: seq<OlderDriver.Step>) {
    && |traj| == |steps| + 1
    && (|traj| >= 2 ==> hPrev == Neg(grad(traj[|traj| - 2])))
    && (forall j | 0 <= j < |steps| :: steps[j].h == Neg(grad(traj[j])))
    && (|steps| >= 1 ==> initAlpha == Some(steps[0].alpha))
    && (forall j | 1 <= j < |steps| ::
          BbStep(Sub(traj[j], traj[j - 1]), Sub(grad(traj[j]), grad(traj[j - 1])), kind) == Ok(steps[j].alpha))
  }

  /** One pass of the solver extends the history. */
  lemma BbHistoryStep(grad: Vec -> Vec, initAlpha: Option<real>, kind: Option<int>,
                      hPrev: Vec, traj: seq<Vec>, steps: seq<OlderDriver.Step>)
    requires BbHistory(grad, initAlpha, kind, hPrev, traj, steps)
    ensures
      var h := Neg(grad(Last(traj)));
      var z := StepLength(initAlpha, kind, hPrev, h, traj);
      z.Ok? ==> BbHistory(grad, initAlpha, kind, z.value.state, traj + [Add(Last(traj), Scale(z.value.alpha, h))],
                          steps + [OlderDriver.Step(h, z.value.alpha)])
  {
    var h := Neg(grad(Last(traj)));
    var z := StepLength(initAlpha, kind, hPrev, h, traj);
    if z.Ok? {
      var traj2 := traj + [Add(Last(traj), Scale(z.value.alpha, h))];
      var steps2 := steps + [OlderDriver.Step(h, z.value.alpha)];
      forall j | 0 <= j < |steps2| ensures steps2[j].h == Neg(grad(traj2[j])) {
        if j < |steps| {
          assert steps2[j] == steps[j] && traj2[j] == traj[j];
        }
      }
      if |traj| >= 2 {
        StepUsesGradientDifference(grad, initAlpha, kind, traj);
      }
      forall j | 1 <= j < |steps2|
        ensures BbStep(Sub(traj2[j], traj2[j - 1]), Sub(grad(traj2[j]), grad(traj2[j - 1])), kind) == Ok(steps2[j].alpha)
      {
        if j < |steps| {
          assert steps2[j] == steps[j] && traj2[j] == traj[j] && traj2[j - 1] == traj[j - 1];
        } else {
          assert traj2[j] == Last(traj) && traj2[j - 1] == traj[|traj| - 2];
        }
      }
      assert |steps| >= 1 ==> steps2[0] == steps[0];
    }
  }

  /**
   * Every step of a successful solve is what the BB method prescribes: along
   * −∇f at the point it leaves, init_alpha first, and afterwards the BB step
   * on s = x_k − x_{k−1} and g = ∇f(x_k) − ∇f(x_{k−1}).
   */
  lemma SolveUsesGradientDifferences(grad: Vec -> Vec, tol: real, maxIter: int, initAlpha: Option<real>,
                                     kind: Option<int>, hPrev: Vec, x0: Vec)
    ensures
      var r := OlderDriver.Solve(Solver(grad, initAlpha, kind), grad, tol, maxIter, hPrev, x0);
      r.Ok? ==>
        && (forall j | 0 <= j < |r.value.steps| :: r.value.steps[j].h == Neg(grad(r.value.trajectory[j])))
        && initAlpha == Some(r.value.steps[0].alpha)
        && (forall j | 1 <= j < |r.value.steps| ::
              var xk, xp := r.value.trajectory[j], r.value.trajectory[j - 1];
              BbStep(Sub(xk, xp), Sub(grad(xk), grad(xp)), kind) == Ok(r.value.steps[j].alpha))
  {
    var o := Solver(grad, initAlpha, kind);
    var inv := (u: Vec, traj: seq<Vec>, steps: seq<OlderDriver.Step>) => BbHistory(grad, initAlpha, kind, u, traj, steps);
    forall u: Vec, traj: seq<Vec>, steps: seq<OlderDriver.Step> | inv(u, traj, steps) && |traj| > 0
      ensures var d := o.direction(u, Last(traj), traj);
        d.Ok? && o.stepSize(d.value.state, d.value.h, traj).Ok? ==>
          var z := o.stepSize(d.value.state, d.value.h, traj).value;
          inv(z.state, traj + [Add(Last(traj), Scale(z.alpha, d.value.h))], steps + [OlderDriver.Step(d.value.h, z.alpha)])
    {
      BbHistoryStep(grad, initAlpha, kind, u, traj, steps);
    }
    OlderDriver.SolveKeeps(o, inv, grad, tol, maxIter, hPrev, x0);
  }

  /** The first step of every solve is init_alpha along −∇f(x0). */
  lemma FirstStepIsInitAlpha(grad: Vec -> Vec, tol: real, maxIter: int, initAlpha: Option<real>, kind: Option<int>,
                             hPrev: Vec, x0: Vec)
    ensures
      var r := OlderDriver.Solve(Solver(grad, initAlpha, kind), grad, tol, maxIter, hPrev, x0);
      && (initAlpha.None? ==> r == Err(KeyError(InitAlphaKey)))
      && (r.Ok? ==> r.value.steps[0] == OlderDriver.Step(Neg(grad(x0)), initAlpha.value))
  {
    var o := Solver(grad, initAlpha, kind);
    var r := OlderDriver.Loop(o, grad, tol, maxIter, hPrev, [x0], []);
    if r.Ok? {
      assert r.value.steps[..0] == [];
    }
  }
}

=== FILE: bilinear.dfy ===
/**
 * The bilinear form x·(A y) as a double sum, and its symmetry: for a
 * symmetric A, x·(A y) = y·(A x). The exact quadratic line searches need
 * it to compare their closed-form step with the minimiser of the quadratic.
 */
module Bilinear {
  import opened Vectors

  /** The longest row of m; every row fits in it. */
  function Width(m: Mat): (r: nat)
    ensures forall i: nat :: |Row(m, i)| <= r
  {
    if |m| == 0 then 0
    else
      var w := Width(m[..|m| - 1]);
      assert forall i: nat | i < |m| - 1 :: Row(m, i) == Row(m[..|m| - 1], i);
      if w < |m[|m| - 1]| then |m[|m| - 1]| else w
  }

  /** The (i, j) term x_i·m_ij·y_j of the double sum. */
  function Term(x: Vec, m: Mat, y: Vec, i: nat, j: nat): real {
    At(x, i) * At2(m, i, j) * At(y, j)
  }

  /** Σ_{j<k} of row i's terms. */
  function RowSum(x: Vec, m: Mat, y: Vec, i: nat, k: nat): real {
    if k == 0 then 0.0 else RowSum(x, m, y, i, k - 1) + Term(x, m, y, i, k - 1)
  }

  /** Σ_{i<n} of column j's terms. */
  function ColSum(x: Vec, m: Mat, y: Vec, j: nat, n: nat): real {
    if n == 0 then 0.0 else ColSum(x, m, y, j, n - 1) + Term(x, m, y, n - 1, j)
  }

  /** The double sum over i < n, j < k, row by row. */
  function ByRows(x: Vec, m: Mat, y: Vec, n: nat, k: nat): real {
    if n == 0 then 0.0 else ByRows(x, m, y, n - 1, k) + RowSum(x, m, y, n - 1, k)
  }

  /** The same double sum, column by column. */
  function ByCols(x: Vec, m: Mat, y: Vec, n: nat, k: nat): real {
    if k == 0 then 0.0 else ByCols(x, m, y, n, k - 1) + ColSum(x, m, y, k - 1, n)
  }

  /** Taking the last row off the column-wise sum. */
  lemma {:induction false} ColsPeel(x: Vec, m: Mat, y: Vec, n: nat, k: nat)
    requires n > 0
    ensures ByCols(x, m, y, n, k) == ByCols(x, m, y, n - 1, k) + RowSum(x, m, y, n - 1, k)
  {
    if k > 0 {
      ColsPeel(x, m, y, n, k - 1);
    }
  }

  /** A finite double sum may be taken in either order. */
  lemma {:induction false} RowsCols(x: Vec, m: Mat, y: Vec, n: nat, k: nat)
    ensures ByRows(x, m, y, n, k) == ByCols(x, m, y, n, k)
  {
    if n > 0 {
      RowsCols(x, m, y, n - 1, k);
      ColsPeel(x, m, y, n, k);
    } else {
      ColsEmpty(x, m, y, k);
    }
  }

  lemma {:induction false} ColsEmpty(x: Vec, m: Mat, y: Vec, k: nat)
    ensures ByCols(x, m, y, 0, k) == 0.0
  {
    if k > 0 {
      ColsEmpty(x, m, y, k - 1);
    }
  }

  /** Row i's sum is x_i times the partial inner product of row i with y. */
  lemma {:induction false} RowSumDot(x: Vec, m: Mat, y: Vec, i: nat, k: nat)
    ensures RowSum(x, m, y, i, k) == At(x, i) * DotN(Row(m, i), y, k)
  {
    if k > 0 {
      RowSumDot(x, m, y, i, k - 1);
      Distribute(At(x, i), DotN(Row(m, i), y, k - 1), At(Row(m, i), k - 1), At(y, k - 1));
    }
  }

  lemma Distribute(a: real, d: real, r: real, y: real)
    ensures a * (d + r * y) == a * d + a * r * y
  {
  }

  /** Once k covers every row and y, entry i of m y is the k-term partial inner product of row i with y. */
  lemma MatVecWide(m: Mat, y: Vec, k: nat)
    requires k >= Width(m) && k >= |y|
    ensures forall i: nat :: At(MatVec(m, y), i) == DotN(Row(m, i), y, k)
  {
    forall i: nat ensures At(MatVec(m, y), i) == DotN(Row(m, i), y, k) {
      DotNStable(Row(m, i), y, k);
    }
  }

  /** The partial sum x·v over i < n is the row-wise double sum when v holds the rows' inner products with y. */
  lemma {:induction false} PrefixByRows(x: Vec, m: Mat, y: Vec, v: Vec, n: nat, k: nat)
    requires forall i: nat :: At(v, i) == DotN(Row(m, i), y, k)
    ensures DotN(x, v, n) == ByRows(x, m, y, n, k)
  {
    if n > 0 {
      PrefixByRows(x, m, y, v, n - 1, k);
      RowSumDot(x, m, y, n - 1, k);
      Times(At(x, n - 1), DotN(Row(m, n - 1), y, k), At(v, n - 1));
    }
  }

  lemma Times(a: real, p: real, q: real)
    requires p == q
    ensures a * p == a * q
  {
  }

  /** x·(m y) as a row-wise double sum over a large enough square. */
  lemma QuadByRows(x: Vec, m: Mat, y: Vec, n: nat)
    requires n >= |x| && n >= |m| && n >= Width(m) && n >= |y|
    ensures Quad(x, m, y) == ByRows(x, m, y, n, n)
  {
    var v := MatVec(m, y);
    DotNStable(x, v, n);
    MatVecWide(m, y, n);
    PrefixByRows(x, m, y, v, n, n);
  }

  /** For symmetric m, row j of the (y, m, x) sum is column j of the (x, m, y) sum. */
  lemma {:induction false} MirrorRow(x: Vec, m: Mat, y: Vec, j: nat, n: nat)
    requires Symmetric(m)
    ensures RowSum(y, m, x, j, n) == ColSum(x, m, y, j, n)
  {
    if n > 0 {
      MirrorRow(x, m, y, j, n - 1);
      MirrorTerm(x, m, y, n - 1, j);
    }
  }

  lemma MirrorTerm(x: Vec, m: Mat, y: Vec, i: nat, j: nat)
    requires Symmetric(m)
    ensures Term(y, m, x, j, i) == Term(x, m, y, i, j)
  {
    assert At2(m, j, i) == At2(m, i, j);
    Reorder(At(y, j), At2(m, j, i), At2(m, i, j), At(x, i));
  }

  lemma Reorder(yj: real, mji: real, mij: real, xi: real)
    requires mji == mij
    ensures yj * mji * xi == xi * mij * yj
  {
  }

  /** For symmetric m, the (y, m, x) row-wise sum is the (x, m, y) column-wise sum. */
  lemma {:induction false} MirrorSums(x: Vec, m: Mat, y: Vec, n: nat, k: nat)
    requires Symmetric(m)
    ensures ByRows(y, m, x, k, n) == ByCols(x, m, y, n, k)
  {
    if k > 0 {
      MirrorSums(x, m, y, n, k - 1);
      MirrorRow(x, m, y, k - 1, n);
    }
  }

  /** x·(A y) = y·(A x) for a symmetric A. */
  lemma QuadSymmetric(x: Vec, m: Mat, y: Vec)
    requires Symmetric(m)
    ensures Quad(x, m, y) == Quad(y, m, x)
  {
    var n := Max(Max(|x|, |y|), Max(|m|, Width(m)));
    QuadByRows(x, m, y, n);
    QuadByRows(y, m, x, n);
    RowsCols(x, m, y, n, n);
    MirrorSums(x, m, y, n, n);
  }
}

=== FILE: cg.dfy ===
/**
 * The conjugate-gradient strategies of liboptpy/unconstr_solvers/fo/_cg.py:
 * Fletcher–Reeves with an optional restart predicate, and linear CG for the
 * quadratic ½xᵀAx − bᵀx. The direction and step formulas are shared with the
 * classes of the same names in unconstr_solvers.py, which run them under the
 * check-after-step driver.
 *
 * Neither class sets `_current_grad`, so under the driver of
 * liboptpy/base_optimizer.py `solve` raises before the first step
 * (`FrNeverSteps`, `QuadNeverSteps`).
 */
module ConjugateGradient {
  import opened Vectors
  import opened Errors
  import StepSizes
  import Driver
  import Restarts

  /** −g + β·h, the conjugate-gradient combination. */
  function Combine(g: Vec, beta: real, hPrev: Vec): (r: Vec)
    ensures forall i: nat :: At(r, i) == - At(g, i) + beta * At(hPrev, i)
  {
    Add(Neg(g), Scale(beta, hPrev))
  }

  /** v·(−g + β·h) = −v·g + β·(v·h). */
  lemma DotCombine(v: Vec, g: Vec, beta: real, hPrev: Vec)
    ensures Dot(v, Combine(g, beta, hPrev)) == - Dot(v, g) + beta * Dot(v, hPrev)
  {
    DotAddRight(v, Neg(g), Scale(beta, hPrev));
    DotNeg(v, g);
    DotScaleRight(beta, v, hPrev);
  }

  /**
   * When g is orthogonal to the previous direction (as after an exact line
   * search along it), the combined direction has slope −g·g along g, so it
   * is a descent direction unless g = 0.
   */
  lemma CombineDescends(g: Vec, beta: real, hPrev: Vec)
    requires Dot(g, hPrev) == 0.0
    ensures Dot(g, Combine(g, beta, hPrev)) == - Dot(g, g)
    ensures Dot(g, Combine(g, beta, hPrev)) <= 0.0
  {
    DotCombine(g, g, beta, hPrev);
    NormSqNonNeg(g);
  }

  // ---------------------------------------------------------------- Fletcher–Reeves

  /** β = (g·g)/(h·h); numpy gives a non-finite β when h·h = 0. */
  function FrBeta(g: Vec, hPrev: Vec): (r: Result<real>)
    ensures r.Ok? <==> Dot(hPrev, hPrev) != 0.0
    ensures r.Err? ==> r.error == NonFinite
    ensures r.Ok? ==> r.value * Dot(hPrev, hPrev) == Dot(g, g) && r.value >= 0.0
  {
    if Dot(hPrev, hPrev) == 0.0 then Err(NonFinite)
    else
      NormSqNonNeg(g);
      NormSqNonNeg(hPrev);
      Ok(Dot(g, g) / Dot(hPrev, hPrev))
  }

  /** Whether `get_direction` starts afresh: on the first iteration, or when a restart object fires. */
  function Restarted(restart: Option<Restarts.Restart>, traj: seq<Vec>, x: Vec): (r: Result<bool>)
    ensures |traj| == 1 ==> r == Ok(true)
    ensures |traj| != 1 && restart.None? ==> r == Ok(false)
    ensures |traj| != 1 && restart.Some? ==> r == Restarts.Fires(restart.value, |traj|, x)
  {
    if |traj| == 1 then Ok(true)
    else if restart.None? then Ok(false)
    else Restarts.Fires(restart.value, |traj|, x)
  }

  /**
   * `get_direction(x)` of Fletcher–Reeves, in both generations: −∇f(x) when
   * restarted; otherwise −g + β·h_prev with g = ∇f(convergence[-1]).
   */
  function FrDirection(grad: Vec -> Vec, restart: Option<Restarts.Restart>, traj: seq<Vec>, x: Vec, hPrev: Vec): (r: Result<Vec>)
    ensures Restarted(restart, traj, x).Err? ==> r == Err(Restarted(restart, traj, x).error)
    ensures Restarted(restart, traj, x) == Ok(true) ==> r == Ok(Neg(grad(x)))
    ensures Restarted(restart, traj, x) == Ok(false) ==>
      && (|traj| == 0 ==> r == Err(IndexError))
      && (|traj| > 0 ==>
            var g := grad(Last(traj));
            && (r.Ok? <==> Dot(hPrev, hPrev) != 0.0)
            && (r.Err? ==> r.error == NonFinite)
            && (r.Ok? ==> exists beta :: beta >= 0.0 && beta * Dot(hPrev, hPrev) == Dot(g, g) && r.value == Combine(g, beta, hPrev)))
  {
    var anew :- Restarted(restart, traj, x);
    if anew then Ok(Neg(grad(x)))
    else if |traj| == 0 then Err(IndexError)
    else
      var g := grad(Last(traj));
      var beta :- FrBeta(g, hPrev);
      Ok(Combine(g, beta, hPrev))
  }

  /** A restart object with period d gives steepest descent at every trajectory length k·d other than 0. */
  lemma FrRestartsPeriodically(grad: Vec -> Vec, restart: Restarts.Restart, k: nat, traj: seq<Vec>, x: Vec, hPrev: Vec)
    requires restart.limitDim.Some? && restart.limitDim.value != 0
    requires |traj| == k * restart.limitDim.value
    ensures FrDirection(grad, Some(restart), traj, x, hPrev) == Ok(Neg(grad(x)))
  {
    Restarts.FiresOnMultiples(restart, k, x);
  }

  /** The state of a Fletcher–Reeves optimiser: the restart object and the step-size object. */
  datatype FrState = FrState(restart: Option<Restarts.Restart>, ss: StepSizes.StepSize)

  /**
   * `get_stepsize()`: the step-size object is called with grad_mem[-1] in
   * the direction's place, the newest point and the trajectory length.
   */
  function FrStep(f: StepSizes.Objective, grad: Vec -> Vec, st: FrState, fr: Driver.Frame,
                  update: StepSizes.Update): (r: Result<Driver.Sized<FrState>>)
    ensures |fr.gradMem| == 0 ==> r == Err(IndexError)
    ensures |fr.gradMem| > 0 && |fr.trajectory| > 0 ==>
      var t := StepSizes.Take(st.ss, f, grad, update, Last(fr.gradMem), Last(fr.trajectory), |fr.trajectory|);
      && (r.Ok? <==> t.Ok?)
      && (r.Ok? ==> r.value == Driver.Sized(st.(ss := t.value.next), t.value.alpha))
  {
    var g :- Driver.NewestGrad(fr);
    var x :- Driver.NewestPoint(fr);
    var t :- StepSizes.Take(st.ss, f, grad, update, g, x, |fr.trajectory|);
    Ok(Driver.Sized(st.(ss := t.next), t.alpha))
  }

  /** `ConjugateGradientFR` as hooks of the driver of liboptpy/base_optimizer.py. */
  function FrHooks(f: StepSizes.Objective, grad: Vec -> Vec): Driver.Hooks<FrState> {
    Driver.Hooks(
      (st: FrState, fr: Driver.Frame) =>
        var h :- FrDirection(grad, st.restart, fr.trajectory, fr.current, fr.h);
        Ok(Driver.Directed(st, h, None)),
      (st: FrState, fr: Driver.Frame, tol: real) => Driver.DefaultConverged(st, fr, tol),
      (st: FrState, fr: Driver.Frame, u: StepSizes.Update) => FrStep(f, grad, st, fr, u),
      Driver.DefaultUpdate,
      (st: FrState, fr: Driver.Frame, xn: Vec) => Ok(Driver.Moved(st, None)),
      Driver.NoFinish)
  }

  /** `solve` raises ValueError on the first pass: the direction never sets the current gradient. */
  lemma FrNeverSteps(f: StepSizes.Objective, grad: Vec -> Vec, memSize: nat, st: FrState,
                     gradMem: seq<Vec>, x0: Vec, maxIter: int, tol: real)
    requires |gradMem| <= memSize
    ensures Driver.Solve(FrHooks(f, grad), memSize, st, gradMem, x0, maxIter, tol) == Err(ValueError(Driver.GradUnsetMsg))
  {
    var hk := FrHooks(f, grad);
    assert hk.direction(st, Driver.Start(x0, gradMem)) == Ok(Driver.Directed(st, Neg(grad(x0)), None));
  }

  // ---------------------------------------------------------------- linear CG for quadratics

  /** `f = lambda x: 0.5 * x.dot(A.dot(x)) - b.dot(x)`. */
  function QuadObjective(A: Mat, b: Vec): StepSizes.Objective {
    (x: Vec) => Some(0.5 * Dot(x, MatVec(A, x)) - Dot(b, x))
  }

  /** `grad = lambda x: A.dot(x) - b`: the residual of Ax = b. */
  function Residual(A: Mat, b: Vec): Vec -> Vec {
    (x: Vec) => Sub(MatVec(A, x), b)
  }

  /** `b=None` stands for `zeros(A.shape[0])`. */
  function DefaultB(A: Mat, b: Option<Vec>): (r: Vec)
    ensures b.Some? ==> r == b.value
    ensures b.None? ==> |r| == |A| && forall i: nat :: At(r, i) == 0.0
  {
    if b.Some? then b.value else Zeros(|A|)
  }

  /** The fields `_r`, `_h` and `_alpha` of the CG-for-quadratics object; None until first assigned. */
  datatype QuadState = QuadState(r: Option<Vec>, h: Option<Vec>, alpha: Option<real>)

  /** The state after `get_direction` and the direction it returns. */
  datatype QuadDirected = QuadDirected(state: QuadState, h: Vec)

  /** β = (r_next·r_next)/(r·r); numpy gives a non-finite β when r·r = 0. */
  function QuadBeta(rNext: Vec, r: Vec): (res: Result<real>)
    ensures res.Ok? <==> Dot(r, r) != 0.0
    ensures res.Err? ==> res.error == NonFinite
    ensures res.Ok? ==> res.value * Dot(r, r) == Dot(rNext, rNext)
  {
    if Dot(r, r) == 0.0 then Err(NonFinite) else Ok(Dot(rNext, rNext) / Dot(r, r))
  }

  /** A field read: AttributeError while it is unassigned. */
  function Field<T>(v: Option<T>): (r: Result<T>)
    ensures v.None? <==> r == Err(AttributeError)
    ensures v.Some? ==> r == Ok(v.value)
  {
    if v.None? then Err(AttributeError) else Ok(v.value)
  }

  /**
   * `get_direction(x)` (both generations): on the first iteration
   * h = −(Ax − b) and r = Ax − b; afterwards r_next = r + α·A·h,
   * β = (r_next·r_next)/(r·r), h = −r_next + β·h, and r and h are stored.
   */
  function QuadDirection(A: Mat, b: Vec, st: QuadState, traj: seq<Vec>, x: Vec): (res: Result<QuadDirected>)
    ensures |traj| == 1 ==> res.Ok?
    ensures |traj| == 1 ==>
      && res.value.state.r == Some(Residual(A, b)(x))
      && res.value.h == Neg(Residual(A, b)(x))
      && res.value.state.h == Some(res.value.h)
    ensures |traj| != 1 && (st.r.None? || st.h.None? || st.alpha.None?) ==> res == Err(AttributeError)
    ensures |traj| != 1 && st.r.Some? && st.h.Some? && st.alpha.Some? ==>
      var rNext := Add(st.r.value, Scale(st.alpha.value, MatVec(A, st.h.value)));
      && (res.Ok? <==> Dot(st.r.value, st.r.value) != 0.0)
      && (res.Err? ==> res.error == NonFinite)
      && (res.Ok? ==>
            && res.value.state == st.(r := Some(rNext), h := Some(res.value.h))
            && res.value.h == Combine(rNext, QuadBeta(rNext, st.r.value).value, st.h.value))
  {
    if |traj| == 1 then
      var h := Neg(Residual(A, b)(x));
      NegNeg(Residual(A, b)(x));
      Ok(QuadDirected(st.(r := Some(Neg(h)), h := Some(h)), h))
    else
      var r :- Field(st.r);
      var hPrev :- Field(st.h);
      var alpha :- Field(st.alpha);
      var rNext := Add(r, Scale(alpha, MatVec(A, hPrev)));
      var beta :- QuadBeta(rNext, r);
      var h := Combine(rNext, beta, hPrev);
      Ok(QuadDirected(st.(r := Some(rNext), h := Some(h)), h))
  }

  /** α = (r·r)/(v·Av), non-finite when v·Av = 0. */
  function QuadAlpha(A: Mat, r: Vec, v: Vec): (res: Result<real>)
    ensures res.Ok? <==> Dot(v, MatVec(A, v)) != 0.0
    ensures res.Err? ==> res.error == NonFinite
    ensures res.Ok? ==> res.value * Dot(v, MatVec(A, v)) == Dot(r, r)
  {
    if Dot(v, MatVec(A, v)) == 0.0 then Err(NonFinite) else Ok(Dot(r, r) / Dot(v, MatVec(A, v)))
  }

  /**
   * `get_stepsize()` of _cg.py: α = (r·r)/(g·Ag) with g = grad_mem[-1] in
   * the direction's place; α is stored for the next direction.
   */
  function QuadStep(A: Mat, st: QuadState, fr: Driver.Frame): (res: Result<Driver.Sized<QuadState>>)
    ensures |fr.gradMem| == 0 ==> res == Err(IndexError)
    ensures |fr.gradMem| > 0 && st.r.Some? ==>
      && (res.Ok? <==> Dot(Last(fr.gradMem), MatVec(A, Last(fr.gradMem))) != 0.0)
      && (res.Ok? ==>
            && res.value.state == st.(alpha := Some(res.value.alpha))
            && res.value.alpha * Dot(Last(fr.gradMem), MatVec(A, Last(fr.gradMem))) == Dot(st.r.value, st.r.value))
  {
    var g :- Driver.NewestGrad(fr);
    var r :- Field(st.r);
    var alpha :- QuadAlpha(A, r, g);
    Ok(Driver.Sized(st.(alpha := Some(alpha)), alpha))
  }

  /** `ConjugateGradientQuad(A, b)` as hooks of the driver of liboptpy/base_optimizer.py. */
  function QuadHooks(A: Mat, b: Vec): Driver.Hooks<QuadState> {
    Driver.Hooks(
      (st: QuadState, fr: Driver.Frame) =>
        var d :- QuadDirection(A, b, st, fr.trajectory, fr.current);
        Ok(Driver.Directed(d.state, d.h, None)),
      (st: QuadState, fr: Driver.Frame, tol: real) => Driver.DefaultConverged(st, fr, tol),
      (st: QuadState, fr: Driver.Frame, u: StepSizes.Update) => QuadStep(A, st, fr),
      Driver.DefaultUpdate,
      (st: QuadState, fr: Driver.Frame, xn: Vec) => Ok(Driver.Moved(st, None)),
      Driver.NoFinish)
  }

  /** `solve` raises ValueError on the first pass: the direction never sets the current gradient. */
  lemma QuadNeverSteps(A: Mat, b: Vec, memSize: nat, st: QuadState,
                       gradMem: seq<Vec>, x0: Vec, maxIter: int, tol: real)
    requires |gradMem| <= memSize
    ensures Driver.Solve(QuadHooks(A, b), memSize, st, gradMem, x0, maxIter, tol) == Err(ValueError(Driver.GradUnsetMsg))
  {
    var hk := QuadHooks(A, b);
    assert hk.direction(st, Driver.Start(x0, gradMem)).Ok?;
  }

  // ---------------------------------------------------------------- the CG identities

  /** Stepping x by α·h moves the residual Ax − b by α·A·h. */
  lemma ResidualStep(A: Mat, b: Vec, x: Vec, r: Vec, h: Vec, alpha: real)
    requires Equiv(r, Residual(A, b)(x))
    ensures Equiv(Add(r, Scale(alpha, MatVec(A, h))), Residual(A, b)(Add(x, Scale(alpha, h))))
  {
    var ah := MatVec(A, h);
    var ax := MatVec(A, x);
    var lhs := Add(r, Scale(alpha, ah));
    var rhs := Residual(A, b)(Add(x, Scale(alpha, h)));
    MatVecAddVec(A, x, Scale(alpha, h));
    MatVecScaleVec(A, alpha, h);
    assert rhs == Sub(Add(ax, Scale(alpha, ah)), b);
    forall i: nat ensures At(lhs, i) == At(rhs, i) {
      assert At(r, i) == At(ax, i) - At(b, i);
    }
  }

  /** When r is exactly the residual at x, r + α·A·h is exactly the residual at x + α·h. */
  lemma ResidualAdvance(A: Mat, b: Vec, x: Vec, r: Vec, h: Vec, alpha: real)
    requires r == Residual(A, b)(x)
    ensures Add(r, Scale(alpha, MatVec(A, h))) == Residual(A, b)(Add(x, Scale(alpha, h)))
  {
    var lhs := Add(r, Scale(alpha, MatVec(A, h)));
    var rhs := Residual(A, b)(Add(x, Scale(alpha, h)));
    ResidualStep(A, b, x, r, h, alpha);
    assert |lhs| == |rhs|;
    forall i | 0 <= i < |lhs| ensures lhs[i] == rhs[i] {
      assert At(lhs, i) == At(rhs, i);
    }
  }

  /**
   * With r·h = −r·r and the exact step α·(h·Ah) = r·r, the new residual
   * r + α·A·h is orthogonal to h.
   */
  lemma NextResidualOrthogonal(A: Mat, r: Vec, h: Vec, alpha: real)
    requires Dot(r, h) == - Dot(r, r)
    requires alpha * Dot(h, MatVec(A, h)) == Dot(r, r)
    ensures Dot(Add(r, Scale(alpha, MatVec(A, h))), h) == 0.0
  {
    OrthogonalAfterShift(r, h, MatVec(A, h), alpha);
  }

  lemma OrthogonalAfterShift(r: Vec, h: Vec, u: Vec, alpha: real)
    requires Dot(r, h) == - Dot(r, r)
    requires alpha * Dot(h, u) == Dot(r, r)
    ensures Dot(Add(r, Scale(alpha, u)), h) == 0.0
  {
    DotShifted(r, alpha, u, h);
    Cancels(Dot(r, h), Dot(r, r), alpha, Dot(h, u));
  }

  /** (r + α·u)·h = r·h + α·(h·u). */
  lemma DotShifted(r: Vec, alpha: real, u: Vec, h: Vec)
    ensures Dot(Add(r, Scale(alpha, u)), h) == Dot(r, h) + alpha * Dot(h, u)
  {
    DotAddLeft(r, Scale(alpha, u), h);
    DotScaleLeft(alpha, u, h);
    DotComm(u, h);
  }

  lemma Cancels(rh: real, rr: real, alpha: real, hah: real)
    requires rh == - rr && alpha * hah == rr
    ensures rh + alpha * hah == 0.0
  {
  }

  /** A residual orthogonal to the previous direction has r·h = −r·r with the next direction. */
  lemma NextDirectionAligned(rNext: Vec, beta: real, hPrev: Vec)
    requires Dot(rNext, hPrev) == 0.0
    ensures Dot(rNext, Combine(rNext, beta, hPrev)) == - Dot(rNext, rNext)
  {
    DotCombine(rNext, rNext, beta, hPrev);
  }
}

=== FILE: constr_solvers.dfy ===
/**
 * The constrained solvers of liboptpy/constr_solvers: Frank–Wolfe
 * (conditional gradient) with a linear-minimisation oracle, and projected
 * gradient descent with a projector. Both run under the check-before-step
 * driver of liboptpy/base_optimizer.py.
 *
 * Neither `get_direction` sets `_current_grad`, so `solve` raises
 * ValueError before the first step (`FwNeverSteps`, `PgdNeverSteps`); the
 * convergence test, the step size and the projected update are modelled as
 * written all the same. Besides, the projected-gradient module imports a
 * step-size class that liboptpy/step_size.py does not define, so it cannot
 * even be loaded (`PgdDoesNotLoad`).
 *
 * The oracle `linsolver` and the projector are caller-supplied functions and
 * appear here as parameters.
 */
module ConstrainedSolvers {
  import opened Vectors
  import opened Errors
  import StepSizes
  import Driver

  // ---------------------------------------------------------------- shared by both classes

  /**
   * `check_convergence(tol)`: f(convergence[-2]) − f(convergence[-1]) < tol.
   * A NaN value makes the difference NaN, which compares false.
   */
  function Decreased(f: StepSizes.Objective, traj: seq<Vec>, tol: real): (r: Result<bool>)
    ensures r.Err? <==> |traj| < 2
    ensures r.Err? ==> r.error == IndexError
    ensures r == Ok(true) <==>
      && |traj| >= 2
      && f(traj[|traj| - 2]).Some? && f(traj[|traj| - 1]).Some?
      && f(traj[|traj| - 2]).value - f(traj[|traj| - 1]).value < tol
  {
    if |traj| < 2 then Err(IndexError)
    else
      var prev := f(traj[|traj| - 2]);
      var last := f(traj[|traj| - 1]);
      if prev.None? || last.None? then Ok(false) else Ok(prev.value - last.value < tol)
  }

  /**
   * `get_stepsize()`: the step-size object is given `_grad_mem[-1]`, the
   * newest gradient, where it expects the direction, together with
   * `convergence[-1]` and the 1-based iteration index.
   */
  function MemoryStep(ss: StepSizes.StepSize, f: StepSizes.Objective, grad: Vec -> Vec, fr: Driver.Frame,
                      u: StepSizes.Update): (r: Result<Driver.Sized<StepSizes.StepSize>>)
    ensures |fr.gradMem| == 0 || |fr.trajectory| == 0 ==> r == Err(IndexError)
    ensures r.Ok? ==>
      && |fr.gradMem| > 0 && |fr.trajectory| > 0
      && StepSizes.Take(ss, f, grad, u, Last(fr.gradMem), Last(fr.trajectory), |fr.trajectory|)
           == Ok(StepSizes.Taken(r.value.state, r.value.alpha))
    ensures r.Ok? && ss.ExactQuad? ==>
      var g := Last(fr.gradMem);
      Dot(Sub(MatVec(ss.A, Add(Last(fr.trajectory), Scale(r.value.alpha, g))), ss.b), g) == 0.0
  {
    var g :- Driver.NewestGrad(fr);
    var x :- Driver.NewestPoint(fr);
    var t :- StepSizes.Take(ss, f, grad, u, g, x, |fr.trajectory|);
    Ok(Driver.Sized(t.next, t.alpha))
  }

  /** The step never consults the direction `_h`, only the stored gradient. */
  lemma StepIgnoresDirection(ss: StepSizes.StepSize, f: StepSizes.Objective, grad: Vec -> Vec, fr: Driver.Frame,
                             u: StepSizes.Update, h: Vec)
    ensures MemoryStep(ss, f, grad, fr, u) == MemoryStep(ss, f, grad, fr.(h := h), u)
  {
  }

  // ---------------------------------------------------------------- Frank–Wolfe

  /** `get_direction(x)`: s − x for the oracle's answer s = linsolver(∇f(x)). */
  function FwDirection(linsolver: Vec -> Vec, grad: Vec -> Vec, x: Vec): (r: Vec)
    ensures forall i: nat :: At(r, i) == At(linsolver(grad(x)), i) - At(x, i)
  {
    Sub(linsolver(grad(x)), x)
  }

  /**
   * A step of length α along the Frank–Wolfe direction lands on the convex
   * combination (1 − α)·x + α·s of the point and the oracle's answer; a unit
   * step lands on s itself.
   */
  lemma FwConvexCombination(linsolver: Vec -> Vec, grad: Vec -> Vec, x: Vec, a: real)
    ensures Equiv(Add(x, Scale(a, FwDirection(linsolver, grad, x))), Add(Scale(1.0 - a, x), Scale(a, linsolver(grad(x)))))
    ensures Equiv(Add(x, Scale(1.0, FwDirection(linsolver, grad, x))), linsolver(grad(x)))
  {
    var s := linsolver(grad(x));
    var h := FwDirection(linsolver, grad, x);
    forall i: nat ensures At(Add(x, Scale(a, h)), i) == At(Add(Scale(1.0 - a, x), Scale(a, s)), i) {
      Mix(At(x, i), At(s, i), a);
    }
  }

  lemma Mix(x: real, s: real, a: real)
    ensures x + a * (s - x) == (1.0 - a) * x + a * s
  {
  }

  /** `FrankWolfe(f, grad, linsolver, step_size)`; the strategy state is the step-size object. */
  function FwHooks(f: StepSizes.Objective, grad: Vec -> Vec, linsolver: Vec -> Vec): Driver.Hooks<StepSizes.StepSize> {
    Driver.Hooks(
      (ss: StepSizes.StepSize, fr: Driver.Frame) => Ok(Driver.Directed(ss, FwDirection(linsolver, grad, fr.current), None)),
      (ss: StepSizes.StepSize, fr: Driver.Frame, tol: real) => Decreased(f, fr.trajectory, tol),
      (ss: StepSizes.StepSize, fr: Driver.Frame, u: StepSizes.Update) => MemoryStep(ss, f, grad, fr, u),
      Driver.DefaultUpdate,
      (ss: StepSizes.StepSize, fr: Driver.Frame, xn: Vec) => Ok(Driver.Moved(ss, None)),
      Driver.NoFinish)
  }

  /** `solve` raises ValueError on the first pass: the direction never sets the current gradient. */
  lemma FwNeverSteps(f: StepSizes.Objective, grad: Vec -> Vec, linsolver: Vec -> Vec, memSize: nat,
                     ss: StepSizes.StepSize, gradMem: seq<Vec>, x0: Vec, maxIter: int, tol: real)
    requires |gradMem| <= memSize
    ensures Driver.Solve(FwHooks(f, grad, linsolver), memSize, ss, gradMem, x0, maxIter, tol)
         == Err(ValueError(Driver.GradUnsetMsg))
  {
    var hk := FwHooks(f, grad, linsolver);
    assert hk.direction(ss, Driver.Start(x0, gradMem)).value.grad.None?;
  }

  // ---------------------------------------------------------------- projected gradient descent

  /** The names liboptpy/step_size.py defines at module level. */
  const StepSizeNames: set<string> := {
    "np", "StepSize", "ConstantStepSize", "ScaledConstantStepSize", "InvIterStepSize",
    "ScaledInvIterStepSize", "InvSqrootIterStepSize", "Backtracking", "ExactLineSearch4Quad" }

  /** `from module import name`. */
  function ImportName(names: set<string>, name: string): (r: Result<()>)
    ensures r.Ok? <==> name in names
    ensures r.Err? ==> r.error == ImportError(name)
  {
    if name in names then Ok(()) else Err(ImportError(name))
  }

  /** Loading the projected-gradient module fails on its import of `ProjectedArmijo`. */
  lemma PgdDoesNotLoad()
    ensures ImportName(StepSizeNames, "ProjectedArmijo") == Err(ImportError("ProjectedArmijo"))
  {
  }

  /** `_f_update_x_next(x, alpha, h)`: P(x + alpha*h). */
  function Projected(projector: Vec -> Vec): (Vec, Vec, real, Vec) -> Vec {
    (anchor: Vec, x: Vec, alpha: real, h: Vec) => projector(Add(x, Scale(alpha, h)))
  }

  /** `ProjectedGD(f, grad, projector, step_size)`; the direction is −∇f(x). */
  function PgdHooks(f: StepSizes.Objective, grad: Vec -> Vec, projector: Vec -> Vec): Driver.Hooks<StepSizes.StepSize> {
    Driver.Hooks(
      (ss: StepSizes.StepSize, fr: Driver.Frame) => Ok(Driver.Directed(ss, Neg(grad(fr.current)), None)),
      (ss: StepSizes.StepSize, fr: Driver.Frame, tol: real) => Decreased(f, fr.trajectory, tol),
      (ss: StepSizes.StepSize, fr: Driver.Frame, u: StepSizes.Update) => MemoryStep(ss, f, grad, fr, u),
      Projected(projector),
      (ss: StepSizes.StepSize, fr: Driver.Frame, xn: Vec) => Ok(Driver.Moved(ss, None)),
      Driver.NoFinish)
  }

  /** `solve` raises ValueError on the first pass, as for Frank–Wolfe. */
  lemma PgdNeverSteps(f: StepSizes.Objective, grad: Vec -> Vec, projector: Vec -> Vec, memSize: nat,
                      ss: StepSizes.StepSize, gradMem: seq<Vec>, x0: Vec, maxIter: int, tol: real)
    requires |gradMem| <= memSize
    ensures Driver.Solve(PgdHooks(f, grad, projector), memSize, ss, gradMem, x0, maxIter, tol)
         == Err(ValueError(Driver.GradUnsetMsg))
  {
    var hk := PgdHooks(f, grad, projector);
    assert hk.direction(ss, Driver.Start(x0, gradMem)).value.grad.None?;
  }

  /**
   * Every point after the first that the projected update produces is the
   * projection of a gradient step from its predecessor, so it lies in the
   * projector's image; for an idempotent projector it is a fixed point.
   */
  lemma {:induction false} ProjectedPoints(f: StepSizes.Objective, grad: Vec -> Vec, projector: Vec -> Vec,
                                           traj: seq<Vec>, steps: seq<Driver.Step>)
    requires Driver.Follows(PgdHooks(f, grad, projector), traj, steps)
    ensures forall i | 1 <= i < |traj| ::
      traj[i] == projector(Add(traj[i - 1], Scale(steps[i - 1].alpha, steps[i - 1].h)))
    ensures (forall y :: projector(projector(y)) == projector(y)) ==>
      forall i | 1 <= i < |traj| :: projector(traj[i]) == traj[i]
  {
    var hk := PgdHooks(f, grad, projector);
    forall i | 1 <= i < |traj|
      ensures traj[i] == projector(Add(traj[i - 1], Scale(steps[i - 1].alpha, steps[i - 1].h)))
    {
      assert traj[i] == hk.updateNext(traj[0], traj[i - 1], steps[i - 1].alpha, steps[i - 1].h);
    }
    if forall y :: projector(projector(y)) == projector(y) {
      forall i | 1 <= i < |traj| ensures projector(traj[i]) == traj[i] {
        var y := Add(traj[i - 1], Scale(steps[i - 1].alpha, steps[i - 1].h));
        assert projector(projector(y)) == projector(y);
      }
    }
  }
}

=== FILE: driver.dfy ===
/**
 * The check-before-step driver `LineSearchOptimizer.solve` of
 * liboptpy/base_optimizer.py.
 *
 * A strategy (gradient descent, BFGS, conjugate gradients, ...) is a subclass
 * that overrides some of the driver's methods. Here a strategy is a `Hooks`
 * record of function values over a strategy state `S`, which holds whatever
 * the subclass keeps in its own fields (the inverse-Hessian estimate, the
 * step-size object, ...). The fields the driver itself owns are passed to
 * the hooks in a `Frame`.
 */
module Driver {
  import opened Vectors
  import opened Errors
  import Fifo

  const GradUnsetMsg: string := "Variable self._current_grad has to be initialized in method get_direction()!"

  /** The optimiser's own fields as a hook sees them. */
  datatype Frame = Frame(
    trajectory: seq<Vec>,     // self.convergence
    current: Vec,             // self._x_current
    currentGrad: Option<Vec>, // self._current_grad
    gradMem: seq<Vec>,        // self._grad_mem, oldest first
    h: Vec)                   // self._h, the last direction

  /** What `get_direction` returns, and what it stored in `_current_grad` (None: left alone). */
  datatype Directed<S> = Directed(state: S, h: Vec, grad: Option<Vec>)

  /** What `get_stepsize` returns. */
  datatype Sized<S> = Sized(state: S, alpha: real)

  /** The effect of `_update_x_current` besides moving to x_next. */
  datatype Moved<S> = Moved(state: S, grad: Option<Vec>)

  /** The overridable methods of `LineSearchOptimizer`. */
  datatype Hooks<!S> = Hooks(
    direction: (S, Frame) -> Result<Directed<S>>,
    converged: (S, Frame, real) -> Result<bool>,
    stepSize: (S, Frame, (Vec, real, Vec) -> Vec) -> Result<Sized<S>>,
    // `_f_update_x_next(x, alpha, h)`; the first argument is `convergence[0]`
    updateNext: (Vec, Vec, real, Vec) -> Vec,
    updateCurrent: (S, Frame, Vec) -> Result<Moved<S>>,
    // the side effect of `_get_result_x`
    finish: S -> S)

  /** The arguments of one `check_convergence` call: the state after `get_direction` and the fields it sees. */
  datatype Test<S> = Test(state: S, frame: Frame)

  /** One completed iteration: the direction and the step length used. */
  datatype Step = Step(h: Vec, alpha: real)

  /**
   * A finished `solve`: the returned point, the trajectory, the steps taken,
   * every gradient pushed to the gradient memory during this solve, the
   * memory afterwards, whether the convergence test stopped the loop, the
   * strategy state afterwards, and the convergence tests made, one per pass.
   */
  datatype Run<S> = Run(
    x: Vec,
    trajectory: seq<Vec>,
    steps: seq<Step>,
    grads: seq<Vec>,
    gradMem: seq<Vec>,
    converged: bool,
    state: S,
    tests: seq<Test<S>>)

  /** The base class's `_f_update_x_next`: x + alpha*h. */
  function DefaultUpdate(anchor: Vec, x: Vec, alpha: real, h: Vec): (r: Vec)
    ensures forall i: nat :: At(r, i) == At(x, i) + alpha * At(h, i)
  {
    Add(x, Scale(alpha, h))
  }

  /**
   * The base class's `check_convergence`: ‖current_grad‖ < tol. The driver
   * only calls it once current_grad is set.
   */
  function DefaultConverged<S(!new)>(s: S, fr: Frame, tol: real): (r: Result<bool>)
    ensures fr.currentGrad.None? <==> r.Err?
    ensures r.Ok? ==> (r.value ==> tol > 0.0)
  {
    if fr.currentGrad.None? then Err(TypeError)
    else Ok(NormLess(fr.currentGrad.value, tol))
  }

  /** `self.convergence[-1]`: IndexError on an empty list. */
  function NewestPoint(fr: Frame): (r: Result<Vec>)
    ensures r.Ok? <==> |fr.trajectory| > 0
    ensures r.Ok? ==> r.value == Last(fr.trajectory)
  {
    if |fr.trajectory| == 0 then Err(IndexError) else Ok(Last(fr.trajectory))
  }

  /** `self._grad_mem[-1]`: IndexError on an empty deque. */
  function NewestGrad(fr: Frame): (r: Result<Vec>)
    ensures r.Ok? <==> |fr.gradMem| > 0
    ensures r.Ok? ==> r.value == Last(fr.gradMem)
  {
    if |fr.gradMem| == 0 then Err(IndexError) else Ok(Last(fr.gradMem))
  }

  /** The base class's `_get_result_x` has no side effect. */
  function NoFinish<S(!new)>(s: S): S {
    s
  }

  /** The number of iterations `max_iter` allows: at least one step is always taken. */
  function Cap(maxIter: int): (r: nat)
    ensures r >= 1 && r >= maxIter
  {
    if maxIter < 1 then 1 else maxIter
  }

  /** Every point after the first is `_f_update_x_next` applied to its predecessor. */
  ghost predicate Follows<S(!new)>(hk: Hooks<S>, traj: seq<Vec>, steps: seq<Step>) {
    && |traj| == |steps| + 1
    && forall i | 0 <= i < |steps| ::
         traj[i + 1] == hk.updateNext(traj[0], traj[i], steps[i].alpha, steps[i].h)
  }

  /** The convergence hook never answers yes for this tolerance. */
  ghost predicate NeverConverges<S(!new)>(hk: Hooks<S>, tol: real) {
    forall s, fr :: hk.converged(s, fr, tol) != Ok(true)
  }

  /** The state as the driver hands it to the first hook of a solve. */
  function Start(x0: Vec, gradMem: seq<Vec>): Frame {
    Frame([x0], x0, None, gradMem, [])
  }

  /** Where one pass of the loop leaves the driver: finished, or ready for the next pass. */
  datatype Outcome<S> =
    | Stop(run: Run<S>)
    | Next(state: S, frame: Frame, steps: seq<Step>, grads: seq<Vec>, tests: seq<Test<S>>)

  /** What the driver keeps true from one pass to the next. */
  ghost predicate Ready<S(!new)>(hk: Hooks<S>, memSize: nat, maxIter: int, fr: Frame, steps: seq<Step>) {
    && |fr.trajectory| == |steps| + 1 && |steps| < Cap(maxIter)
    && fr.current == Last(fr.trajectory)
    && |fr.gradMem| <= memSize
    && Follows(hk, fr.trajectory, steps)
  }

  /** The next pass extends this one by one step, one pushed gradient and one convergence test that answered no. */
  ghost predicate Advances<S(!new)>(hk: Hooks<S>, tol: real, memSize: nat,
                                    fr: Frame, steps: seq<Step>, grads: seq<Vec>, tests: seq<Test<S>>,
                                    fr': Frame, steps': seq<Step>, grads': seq<Vec>, tests': seq<Test<S>>) {
    && |fr.trajectory| <= |fr'.trajectory|
    && fr'.trajectory[..|fr.trajectory|] == fr.trajectory
    && |steps'| == |steps| + 1 && steps'[..|steps|] == steps
    && |grads'| == |grads| + 1 && grads'[..|grads|] == grads
    && |tests'| == |tests| + 1 && tests'[..|tests|] == tests
    && hk.converged(tests'[|tests|].state, tests'[|tests|].frame, tol) == Ok(false)
    && tests'[|tests|].frame.trajectory == fr.trajectory
    && tests'[|tests|].frame.currentGrad == Some(grads'[|grads|])
    && |fr.gradMem| <= memSize
    && fr'.gradMem == Fifo.Push(fr.gradMem, grads'[|grads|], memSize)
  }

  /** The finished run continues the trajectory, steps and gradient pushes seen so far. */
  ghost predicate Extends<S(!new)>(hk: Hooks<S>, memSize: nat, maxIter: int, tol: real,
                                   fr: Frame, steps: seq<Step>, grads: seq<Vec>, tests: seq<Test<S>>, r: Run<S>) {
    && Tested(hk, tol, fr, steps, grads, tests, r)
    && Follows(hk, r.trajectory, r.steps)
    && |r.trajectory| == |r.steps| + 1
    && |steps| <= |r.steps| <= Cap(maxIter)
    && |fr.trajectory| == |steps| + 1
    && r.trajectory[..|fr.trajectory|] == fr.trajectory
    && r.steps[..|steps|] == steps
    && r.x == Last(r.trajectory)
    && (!r.converged ==> |r.steps| == Cap(maxIter) && |r.steps| > |steps|)
    && |r.grads| == |grads| + |r.steps| - |steps| + (if r.converged then 1 else 0)
    && r.grads[..|grads|] == grads
    && |fr.gradMem| <= memSize
    && r.gradMem == Fifo.PushAll(fr.gradMem, r.grads[|grads|..], memSize)
    && (exists s' :: r.state == hk.finish(s'))
    && (NeverConverges(hk, tol) ==> !r.converged)
  }

  /**
   * Every pass of the finished run after these made one convergence test,
   * on the trajectory so far and the gradient it pushed; every such test but
   * the last answered no, and the last one answered whether the run
   * converged, with the final state `finish` of the state it saw.
   */
  ghost predicate Tested<S(!new)>(hk: Hooks<S>, tol: real, fr: Frame, steps: seq<Step>, grads: seq<Vec>,
                                  tests: seq<Test<S>>, r: Run<S>) {
    && |tests| == |steps| && |grads| == |steps|
    && |r.tests| == |r.grads| && |r.tests| > |tests|
    && r.tests[..|tests|] == tests
    && |r.trajectory| >= |r.tests|
    && (forall i | |tests| <= i < |r.tests| ::
          && r.tests[i].frame.trajectory == r.trajectory[..i + 1]
          && r.tests[i].frame.currentGrad == Some(r.grads[i]))
    && (forall i | |tests| <= i < |r.tests| - 1 :: hk.converged(r.tests[i].state, r.tests[i].frame, tol) == Ok(false))
    && hk.converged(r.tests[|r.tests| - 1].state, r.tests[|r.tests| - 1].frame, tol) == Ok(r.converged)
    && (r.converged ==> r.state == hk.finish(r.tests[|r.tests| - 1].state))
  }

  /**
   * One pass of the `while True` loop of `solve`: get the direction, insist
   * that current_grad is set, push it to the gradient memory, test
   * convergence, then step, move, append and count.
   */
  function Pass<S(!new)>(hk: Hooks<S>, memSize: nat, maxIter: int, tol: real,
                         s: S, fr: Frame, steps: seq<Step>, grads: seq<Vec>, tests: seq<Test<S>>): (r: Result<Outcome<S>>)
    requires Ready(hk, memSize, maxIter, fr, steps)
    requires |grads| == |steps| && |tests| == |steps|
    ensures r.Ok? && r.value.Next? ==>
      && Ready(hk, memSize, maxIter, r.value.frame, r.value.steps)
      && Advances(hk, tol, memSize, fr, steps, grads, tests, r.value.frame, r.value.steps, r.value.grads, r.value.tests)
    ensures hk.direction(s, fr).Ok? && hk.direction(s, fr).value.grad.None? && fr.currentGrad.None? ==>
      r == Err(ValueError(GradUnsetMsg))
  {
    var d :- hk.direction(s, fr);
    var cg := if d.grad.Some? then d.grad else fr.currentGrad;
    if cg.None? then Err(ValueError(GradUnsetMsg))
    else
      var g := cg.value;
      var fr1 := fr.(h := d.h, currentGrad := cg, gradMem := Fifo.Push(fr.gradMem, g, memSize));
      var grads1 := grads + [g];
      var tests1 := tests + [Test(d.state, fr1)];
      var c :- hk.converged(d.state, fr1, tol);
      if c then
        Ok(Stop(Run(fr.current, fr.trajectory, steps, grads1, fr1.gradMem, true, hk.finish(d.state), tests1)))
      else
        var anchor := fr.trajectory[0];
        var st :- hk.stepSize(d.state, fr1, (x: Vec, a: real, h: Vec) => hk.updateNext(anchor, x, a, h));
        var xn := hk.updateNext(anchor, fr.current, st.alpha, d.h);
        var mv :- hk.updateCurrent(st.state, fr1, xn);
        var traj2 := fr.trajectory + [xn];
        var steps2 := steps + [Step(d.h, st.alpha)];
        var fr2 := fr1.(trajectory := traj2, current := xn,
                        currentGrad := if mv.grad.Some? then mv.grad else cg);
        FollowsStep(hk, fr.trajectory, steps, Step(d.h, st.alpha));
        if |steps2| >= maxIter then
          Ok(Stop(Run(xn, traj2, steps2, grads1, fr2.gradMem, false, hk.finish(mv.state), tests1)))
        else
          Ok(Next(mv.state, fr2, steps2, grads1, tests1))
  }

  /**
   * A pass that stops finishes a run that extends the passes before it:
   * either its convergence test answered yes and no step was taken, or it
   * took the step that reached the cap after the test answered no.
   */
  lemma PassStops<S(!new)>(hk: Hooks<S>, memSize: nat, maxIter: int, tol: real,
                           s: S, fr: Frame, steps: seq<Step>, grads: seq<Vec>, tests: seq<Test<S>>)
    requires Ready(hk, memSize, maxIter, fr, steps)
    requires |grads| == |steps| && |tests| == |steps|
    ensures var r := Pass(hk, memSize, maxIter, tol, s, fr, steps, grads, tests);
      r.Ok? && r.value.Stop? ==> Extends(hk, memSize, maxIter, tol, fr, steps, grads, tests, r.value.run)
  {
    var r := Pass(hk, memSize, maxIter, tol, s, fr, steps, grads, tests);
    if r.Ok? && r.value.Stop? {
      var d := hk.direction(s, fr).value;
      var cg := if d.grad.Some? then d.grad else fr.currentGrad;
      var g := cg.value;
      var fr1 := fr.(h := d.h, currentGrad := cg, gradMem := Fifo.Push(fr.gradMem, g, memSize));
      if !hk.converged(d.state, fr1, tol).value {
        var anchor := fr.trajectory[0];
        var st := hk.stepSize(d.state, fr1, (x: Vec, a: real, h: Vec) => hk.updateNext(anchor, x, a, h)).value;
        FollowsStep(hk, fr.trajectory, steps, Step(d.h, st.alpha));
      }
      StopExtends(hk, memSize, maxIter, tol, fr, steps, grads, tests, Test(d.state, fr1), g, r.value.run);
    }
  }

  /** A pass that stops, either on convergence or at the cap, finishes a run that extends the passes before it. */
  lemma StopExtends<S(!new)>(hk: Hooks<S>, memSize: nat, maxIter: int, tol: real, fr: Frame, steps: seq<Step>,
                             grads: seq<Vec>, tests: seq<Test<S>>, t: Test<S>, g: Vec, r: Run<S>)
    requires Ready(hk, memSize, maxIter, fr, steps)
    requires |grads| == |steps| && |tests| == |steps|
    requires r.tests == tests + [t] && r.grads == grads + [g]
    requires r.gradMem == Fifo.Push(fr.gradMem, g, memSize)
    requires t.frame.trajectory == fr.trajectory && t.frame.currentGrad == Some(g)
    requires hk.converged(t.state, t.frame, tol) == Ok(r.converged)
    requires Follows(hk, r.trajectory, r.steps) && r.x == Last(r.trajectory)
    requires r.converged ==> r.trajectory == fr.trajectory && r.steps == steps && r.state == hk.finish(t.state)
    requires !r.converged ==>
      && |r.steps| == |steps| + 1 && r.steps[..|steps|] == steps && |r.steps| >= maxIter
      && r.trajectory[..|fr.trajectory|] == fr.trajectory
      && exists s' :: r.state == hk.finish(s')
    ensures Extends(hk, memSize, maxIter, tol, fr, steps, grads, tests, r)
  {
    assert r.grads[|grads|..] == [g];
    assert r.trajectory[..|fr.trajectory|] == fr.trajectory;
    LastPassTested(hk, tol, fr, steps, grads, tests, t, g, r);
  }

  /** A run whose last pass made test t, after the passes recorded so far, satisfies `Tested`. */
  lemma LastPassTested<S(!new)>(hk: Hooks<S>, tol: real, fr: Frame, steps: seq<Step>, grads: seq<Vec>,
                                tests: seq<Test<S>>, t: Test<S>, g: Vec, r: Run<S>)
    requires |grads| == |steps| && |tests| == |steps| && |fr.trajectory| == |steps| + 1
    requires r.tests == tests + [t] && r.grads == grads + [g]
    requires |r.trajectory| >= |fr.trajectory| && r.trajectory[..|fr.trajectory|] == fr.trajectory
    requires t.frame.trajectory == fr.trajectory && t.frame.currentGrad == Some(g)
    requires hk.converged(t.state, t.frame, tol) == Ok(r.converged)
    requires r.converged ==> r.state == hk.finish(t.state)
    ensures Tested(hk, tol, fr, steps, grads, tests, r)
  {
    assert r.tests[..|tests|] == tests;
  }

  /** Appending one `_f_update_x_next` step keeps the trajectory generated by the steps. */
  lemma FollowsStep<S(!new)>(hk: Hooks<S>, traj: seq<Vec>, steps: seq<Step>, st: Step)
    requires Follows(hk, traj, steps)
    ensures Follows(hk, traj + [hk.updateNext(traj[0], Last(traj), st.alpha, st.h)], steps + [st])
  {
    var traj2 := traj + [hk.updateNext(traj[0], Last(traj), st.alpha, st.h)];
    var steps2 := steps + [st];
    forall i | 0 <= i < |steps2|
      ensures traj2[i + 1] == hk.updateNext(traj2[0], traj2[i], steps2[i].alpha, steps2[i].h)
    {
      if i < |steps| {
        assert traj2[i + 1] == traj[i + 1];
      }
    }
  }

  /** A run that extends the next pass extends this one. */
  lemma ExtendsBack<S(!new)>(hk: Hooks<S>, memSize: nat, maxIter: int, tol: real,
                             fr: Frame, steps: seq<Step>, grads: seq<Vec>, tests: seq<Test<S>>,
                             fr': Frame, steps': seq<Step>, grads': seq<Vec>, tests': seq<Test<S>>, r: Run<S>)
    requires |fr.trajectory| == |steps| + 1
    requires Advances(hk, tol, memSize, fr, steps, grads, tests, fr', steps', grads', tests')
    requires Extends(hk, memSize, maxIter, tol, fr', steps', grads', tests', r)
    ensures Extends(hk, memSize, maxIter, tol, fr, steps, grads, tests, r)
  {
    TestedBack(hk, memSize, maxIter, tol, fr, steps, grads, tests, fr', steps', grads', tests', r);
    assert r.trajectory[..|fr.trajectory|] == r.trajectory[..|fr'.trajectory|][..|fr.trajectory|];
    assert r.steps[..|steps|] == r.steps[..|steps'|][..|steps|];
    assert r.grads[..|grads|] == r.grads[..|grads'|][..|grads|];
    var tail := r.grads[|grads|..];
    assert tail[0] == grads'[|grads|];
    assert tail[1..] == r.grads[|grads'|..];
  }

  /** The convergence tests of a run that extends the next pass, seen from this one. */
  lemma TestedBack<S(!new)>(hk: Hooks<S>, memSize: nat, maxIter: int, tol: real,
                            fr: Frame, steps: seq<Step>, grads: seq<Vec>, tests: seq<Test<S>>,
                            fr': Frame, steps': seq<Step>, grads': seq<Vec>, tests': seq<Test<S>>, r: Run<S>)
    requires |fr.trajectory| == |steps| + 1
    requires Advances(hk, tol, memSize, fr, steps, grads, tests, fr', steps', grads', tests')
    requires Extends(hk, memSize, maxIter, tol, fr', steps', grads', tests', r)
    ensures Tested(hk, tol, fr, steps, grads, tests, r)
  {
    assert r.tests[..|tests|] == r.tests[..|tests'|][..|tests|];
    assert r.tests[|tests|] == tests'[|tests|];
    assert r.grads[|grads|] == grads'[|grads|];
    assert r.trajectory[..|fr.trajectory|] == r.trajectory[..|fr'.trajectory|][..|fr.trajectory|];
  }

  /** The `while True` loop of `solve`, pass after pass until it breaks. */
  function Iterate<S(!new)>(hk: Hooks<S>, memSize: nat, maxIter: int, tol: real,
                            s: S, fr: Frame, steps: seq<Step>, grads: seq<Vec>, tests: seq<Test<S>>): (r: Result<Run<S>>)
    requires Ready(hk, memSize, maxIter, fr, steps)
    requires |grads| == |steps| && |tests| == |steps|
    decreases Cap(maxIter) - |steps|
    ensures r.Ok? ==> Extends(hk, memSize, maxIter, tol, fr, steps, grads, tests, r.value)
    ensures hk.direction(s, fr).Ok? && hk.direction(s, fr).value.grad.None? && fr.currentGrad.None? ==>
      r == Err(ValueError(GradUnsetMsg))
  {
    var o :- Pass(hk, memSize, maxIter, tol, s, fr, steps, grads, tests);
    match o
    case Stop(run) =>
      PassStops(hk, memSize, maxIter, tol, s, fr, steps, grads, tests);
      Ok(run)
    case Next(s', fr', steps', grads', tests') =>
      var r :- Iterate(hk, memSize, maxIter, tol, s', fr', steps', grads', tests');
      ExtendsBack(hk, memSize, maxIter, tol, fr, steps, grads, tests, fr', steps', grads', tests', r);
      Ok(r)
  }

  /**
   * `solve(x0, max_iter, tol)` on an optimiser whose gradient memory holds
   * `gradMem` (the memory is created with the optimiser, not per solve).
   */
  function Solve<S(!new)>(hk: Hooks<S>, memSize: nat, s: S, gradMem: seq<Vec>, x0: Vec, maxIter: int, tol: real): (r: Result<Run<S>>)
    requires |gradMem| <= memSize
    ensures r.Ok? ==>
      && Follows(hk, r.value.trajectory, r.value.steps)
      && r.value.trajectory[0] == x0
      && r.value.x == Last(r.value.trajectory)
      && |r.value.steps| <= Cap(maxIter)
      && (!r.value.converged ==> |r.value.steps| == Cap(maxIter))
      && |r.value.grads| == |r.value.steps| + (if r.value.converged then 1 else 0)
      && r.value.gradMem == Fifo.Keep(gradMem + r.value.grads, memSize)
      && (exists s' :: r.value.state == hk.finish(s'))
      && (NeverConverges(hk, tol) ==> !r.value.converged)
    ensures r.Ok? ==>
      && |r.value.tests| == |r.value.grads| > 0
      && (forall i | 0 <= i < |r.value.tests| ::
            && r.value.tests[i].frame.trajectory == r.value.trajectory[..i + 1]
            && r.value.tests[i].frame.currentGrad == Some(r.value.grads[i]))
      && (forall i | 0 <= i < |r.value.tests| - 1 ::
            hk.converged(r.value.tests[i].state, r.value.tests[i].frame, tol) == Ok(false))
      && hk.converged(r.value.tests[|r.value.tests| - 1].state, r.value.tests[|r.value.tests| - 1].frame, tol) == Ok(r.value.converged)
      && (r.value.converged ==> r.value.state == hk.finish(r.value.tests[|r.value.tests| - 1].state))
    ensures hk.direction(s, Start(x0, gradMem)).Ok? && hk.direction(s, Start(x0, gradMem)).value.grad.None? ==>
      r == Err(ValueError(GradUnsetMsg))
  {
    var r := Iterate(hk, memSize, maxIter, tol, s, Start(x0, gradMem), [], [], []);
    if r.Ok? then
      assert r.value.grads[0..] == r.value.grads;
      Fifo.PushAllKeepsNewest(gradMem, r.value.grads, memSize);
      r
    else r
  }

  /** The base class's convergence test never holds for a tolerance that is not positive. */
  lemma DefaultNeverConverges<S(!new)>(hk: Hooks<S>, tol: real)
    requires forall s, fr, t :: hk.converged(s, fr, t) == DefaultConverged(s, fr, t)
    requires tol <= 0.0
    ensures NeverConverges(hk, tol)
  {
  }

  /** A property of the strategy state that every hook preserves. */
  ghost predicate Keeps<S(!new)>(hk: Hooks<S>, P: S -> bool) {
    && (forall s, fr :: P(s) && hk.direction(s, fr).Ok? ==> P(hk.direction(s, fr).value.state))
    && (forall s, fr, u :: P(s) && hk.stepSize(s, fr, u).Ok? ==> P(hk.stepSize(s, fr, u).value.state))
    && (forall s, fr, x :: P(s) && hk.updateCurrent(s, fr, x).Ok? ==> P(hk.updateCurrent(s, fr, x).value.state))
  }

  /** One pass keeps a strategy invariant, and a finished run's state is `finish` of a state satisfying it. */
  lemma PassKeeps<S(!new)>(hk: Hooks<S>, P: S -> bool, memSize: nat, maxIter: int, tol: real,
                           s: S, fr: Frame, steps: seq<Step>, grads: seq<Vec>, tests: seq<Test<S>>)
    requires Ready(hk, memSize, maxIter, fr, steps)
    requires |grads| == |steps| && |tests| == |steps|
    requires Keeps(hk, P) && P(s)
    ensures var r := Pass(hk, memSize, maxIter, tol, s, fr, steps, grads, tests);
      && (r.Ok? && r.value.Next? ==> P(r.value.state))
      && (r.Ok? && r.value.Stop? ==> exists s' :: P(s') && r.value.run.state == hk.finish(s'))
  {
    var r := Pass(hk, memSize, maxIter, tol, s, fr, steps, grads, tests);
    if r.Ok? {
      var d := hk.direction(s, fr).value;
      var cg := if d.grad.Some? then d.grad else fr.currentGrad;
      var fr1 := fr.(h := d.h, currentGrad := cg, gradMem := Fifo.Push(fr.gradMem, cg.value, memSize));
      if !hk.converged(d.state, fr1, tol).value {
        var anchor := fr.trajectory[0];
        var u := (x: Vec, a: real, h: Vec) => hk.updateNext(anchor, x, a, h);
        var st := hk.stepSize(d.state, fr1, u).value;
        var xn := hk.updateNext(anchor, fr.current, st.alpha, d.h);
        assert P(hk.updateCurrent(st.state, fr1, xn).value.state);
      }
    }
  }

  /** A strategy invariant holds of the state just before `_get_result_x`. */
  lemma {:induction false} IterateKeeps<S(!new)>(hk: Hooks<S>, P: S -> bool, memSize: nat, maxIter: int, tol: real,
                                                 s: S, fr: Frame, steps: seq<Step>, grads: seq<Vec>, tests: seq<Test<S>>)
    requires Ready(hk, memSize, maxIter, fr, steps)
    requires |grads| == |steps| && |tests| == |steps|
    requires Keeps(hk, P) && P(s)
    decreases Cap(maxIter) - |steps|
    ensures Iterate(hk, memSize, maxIter, tol, s, fr, steps, grads, tests).Ok? ==>
      exists s' :: P(s') && Iterate(hk, memSize, maxIter, tol, s, fr, steps, grads, tests).value.state == hk.finish(s')
  {
    PassKeeps(hk, P, memSize, maxIter, tol, s, fr, steps, grads, tests);
    var o := Pass(hk, memSize, maxIter, tol, s, fr, steps, grads, tests);
    if o.Ok? && o.value.Next? {
      IterateKeeps(hk, P, memSize, maxIter, tol, o.value.state, o.value.frame, o.value.steps, o.value.grads, o.value.tests);
    }
  }

  /** `IterateKeeps` for a whole solve. */
  lemma SolveKeeps<S(!new)>(hk: Hooks<S>, P: S -> bool, memSize: nat, s: S, gradMem: seq<Vec>, x0: Vec, maxIter: int, tol: real)
    requires |gradMem| <= memSize
    requires Keeps(hk, P) && P(s)
    ensures Solve(hk, memSize, s, gradMem, x0, maxIter, tol).Ok? ==>
      exists s' :: P(s') && Solve(hk, memSize, s, gradMem, x0, maxIter, tol).value.state == hk.finish(s')
  {
    IterateKeeps(hk, P, memSize, maxIter, tol, s, Start(x0, gradMem), [], [], []);
  }

  /**
   * A strategy whose first direction sets a gradient that is already small
   * enough, under the base class's convergence test, takes no step: the
   * trajectory stays [x0] and x0 is returned.
   */
  lemma ConvergedAtStart<S(!new)>(hk: Hooks<S>, memSize: nat, s: S, gradMem: seq<Vec>, x0: Vec, maxIter: int, tol: real)
    requires |gradMem| <= memSize
    requires forall t, fr :: hk.converged(t, fr, tol) == DefaultConverged(t, fr, tol)
    requires hk.direction(s, Start(x0, gradMem)).Ok?
    requires hk.direction(s, Start(x0, gradMem)).value.grad.Some?
    requires NormLess(hk.direction(s, Start(x0, gradMem)).value.grad.value, tol)
    ensures
      var d := hk.direction(s, Start(x0, gradMem)).value;
      var fr1 := Start(x0, gradMem).(h := d.h, currentGrad := d.grad, gradMem := Fifo.Push(gradMem, d.grad.value, memSize));
      Solve(hk, memSize, s, gradMem, x0, maxIter, tol)
        == Ok(Run(x0, [x0], [], [d.grad.value], Fifo.Keep(gradMem + [d.grad.value], memSize), true, hk.finish(d.state),
                  [Test(d.state, fr1)]))
  {
    var d := hk.direction(s, Start(x0, gradMem)).value;
    var fr1 := Start(x0, gradMem).(h := d.h, currentGrad := d.grad, gradMem := Fifo.Push(gradMem, d.grad.value, memSize));
    assert hk.converged(d.state, fr1, tol) == Ok(true);
    assert Pass(hk, memSize, maxIter, tol, s, Start(x0, gradMem), [], [], []).value.Stop?;
  }

  /** Under the base class's convergence test and a tolerance that is not positive, every run takes max(max_iter, 1) steps. */
  lemma RunsToCap<S(!new)>(hk: Hooks<S>, memSize: nat, s: S, gradMem: seq<Vec>, x0: Vec, maxIter: int, tol: real)
    requires |gradMem| <= memSize
    requires forall t, fr, tl :: hk.converged(t, fr, tl) == DefaultConverged(t, fr, tl)
    requires tol <= 0.0
    ensures Solve(hk, memSize, s, gradMem, x0, maxIter, tol).Ok? ==>
      && |Solve(hk, memSize, s, gradMem, x0, maxIter, tol).value.steps| == Cap(maxIter)
      && |Solve(hk, memSize, s, gradMem, x0, maxIter, tol).value.trajectory| == Cap(maxIter) + 1
  {
    DefaultNeverConverges(hk, tol);
  }

  /** A finished run is the first pass's run, or begins with the first pass's step. */
  lemma FirstPass<S(!new)>(hk: Hooks<S>, memSize: nat, s: S, gradMem: seq<Vec>, x0: Vec, maxIter: int, tol: real)
    requires |gradMem| <= memSize
    ensures
      var r := Solve(hk, memSize, s, gradMem, x0, maxIter, tol);
      var o := Pass(hk, memSize, maxIter, tol, s, Start(x0, gradMem), [], [], []);
      r.Ok? ==>
        && o.Ok?
        && (o.value.Stop? ==> r.value == o.value.run)
        && (o.value.Next? ==> |o.value.steps| == 1 && |r.value.steps| >= 1 && r.value.steps[0] == o.value.steps[0])
  {
    var o := Pass(hk, memSize, maxIter, tol, s, Start(x0, gradMem), [], [], []);
    var r := Iterate(hk, memSize, maxIter, tol, s, Start(x0, gradMem), [], [], []);
    if r.Ok? && o.Ok? && o.value.Next? {
      assert r.value.steps[..1] == o.value.steps;
    }
  }
}

=== FILE: dual_average.dfy ===
/**
 * Dual averaging of liboptpy/unconstr_solvers/fo/_dual_average.py under the
 * check-before-step driver.
 *
 * Each pass evaluates the (sub)gradient g at the current point, asks the dual
 * step-size object for a weight λ, and folds g into the running weighted
 * average s ← (Σλ·s + λ·g)/(Σλ + λ), Σλ ← Σλ + λ. The direction is −s, and
 * the next point is taken from the initial point, not the current one:
 * x_next = convergence[0] + α·h.
 *
 * Σλ is set to 0 only by the constructor, while s is reset to zeros on the
 * first pass of every solve, so a second solve on the same object keeps
 * accumulating Σλ and s is then no longer the mean of that solve's
 * gradients.
 */
module DualAverage {
  import opened Vectors
  import opened Errors
  import StepSizes
  import Driver

  /** One weight λ and the gradient it was applied to. */
  datatype Weighted = Weighted(lam: real, g: Vec)

  /**
   * The object's own fields: the primal and dual step-size objects, `_s`
   * (unset until the first pass), and `_sum_lam`. `log` and `since` are
   * model-only bookkeeping: every (λ, g) folded in since construction, and
   * where in that record the current solve began.
   */
  datatype DaState = DaState(
    primal: StepSizes.StepSize,
    dual: StepSizes.StepSize,
    s: Option<Vec>,
    sumLam: real,
    log: seq<Weighted>,
    since: nat)

  /** `DualAveraging(f, subgrad, primal_step_size, dual_step_size)`. */
  function Construct(primal: StepSizes.StepSize, dual: StepSizes.StepSize): (r: DaState)
    ensures r.sumLam == 0.0 && r.s.None? && r.log == []
  {
    DaState(primal, dual, None, 0.0, [], 0)
  }

  /** Σ λᵢ over a record. */
  function Total(ps: seq<Weighted>): real {
    if |ps| == 0 then 0.0 else Total(ps[..|ps| - 1]) + ps[|ps| - 1].lam
  }

  /** Σ λᵢ·gᵢ over a record. */
  function WeightedSum(ps: seq<Weighted>): Vec {
    if |ps| == 0 then [] else Add(WeightedSum(ps[..|ps| - 1]), Scale(ps[|ps| - 1].lam, ps[|ps| - 1].g))
  }

  /** numpy's `v / d` for a nonzero scalar d. */
  function DivBy(v: Vec, d: real): (r: Vec)
    requires d != 0.0
    ensures |r| == |v|
    ensures forall i: nat :: At(r, i) == At(v, i) / d
  {
    seq(|v|, i requires 0 <= i < |v| => v[i] / d)
  }

  /**
   * The dual step-size call `get_stepsize(x, g, len(convergence))` as
   * `get_direction` consumes it: the point is passed where the direction is
   * expected. The driver hands f, grad and its update rule only to the
   * primal step size; the dual object is taken to be a separate one, never
   * given them. A backtracking dual object therefore gets through its
   * parameter reads and assertions and then fails on the missing `_grad`,
   * except that a Goldstein object returns None (the weighted sum then
   * multiplies None, a TypeError) and an unknown rule raises
   * NotImplementedError. The other
   * classes do not consult the missing attributes.
   */
  function DualWeight(dual: StepSizes.StepSize, x: Vec, g: Vec, k: nat): (r: Result<real>)
    ensures dual.Backtracking? ==> r.Err?
    ensures dual.Backtracking? && StepSizes.Preamble(dual).Err? ==> r == Err(StepSizes.Preamble(dual).error)
    ensures dual.Backtracking? && StepSizes.Preamble(dual).Ok? ==>
      && (dual.rule == StepSizes.Goldstein ==> r == Err(TypeError))
      && (dual.rule.Unknown? ==> r == Err(NotImplementedError(StepSizes.UnknownRuleMsg)))
      && (dual.rule != StepSizes.Goldstein && !dual.rule.Unknown? ==> r == Err(AttributeError))
    ensures dual.Constant? ==> r == Ok(dual.stepsize)
    ensures dual.InvIter? && k >= 1 ==> r.Ok? && r.value * (k as real) == 1.0
    ensures dual.InvIter? && k == 0 ==> r == Err(ZeroDivisionError)
    ensures dual.ExactQuad? && r.Ok? ==>
      Dot(Sub(MatVec(dual.A, Add(g, Scale(r.value, x))), dual.b), x) == 0.0
  {
    if dual.Backtracking? then
      var _ :- StepSizes.Preamble(dual);
      if dual.rule == StepSizes.Goldstein then Err(TypeError)
      else if dual.rule.Unknown? then Err(NotImplementedError(StepSizes.UnknownRuleMsg))
      else Err(AttributeError)
    else
      var t :- StepSizes.Take(dual, (v: Vec) => None, (v: Vec) => v, (v: Vec, a: real, d: Vec) => v, x, g, k);
      Ok(t.alpha)
  }

  /**
   * `(Σλ·s + λ·g)/(Σλ + λ)`. With Σλ + λ = 0 numpy divides into inf or nan.
   */
  function Average(s: Vec, sumLam: real, lam: real, g: Vec): (r: Result<Vec>)
    ensures r.Err? <==> sumLam + lam == 0.0
    ensures r.Err? ==> r.error == NonFinite
    ensures r.Ok? ==> forall i: nat :: (sumLam + lam) * At(r.value, i) == sumLam * At(s, i) + lam * At(g, i)
  {
    if sumLam + lam == 0.0 then Err(NonFinite)
    else
      var r := DivBy(Add(Scale(sumLam, s), Scale(lam, g)), sumLam + lam);
      forall i: nat ensures (sumLam + lam) * At(r, i) == sumLam * At(s, i) + lam * At(g, i) {
        Cancel(sumLam + lam, sumLam * At(s, i) + lam * At(g, i));
      }
      Ok(r)
  }

  lemma Cancel(d: real, n: real)
    requires d != 0.0
    ensures d * (n / d) == n
  {
  }

  /**
   * `get_direction(x)`: set the current gradient to g = ∇f(x), reset s to
   * zeros on the first pass, weigh g with the dual step, fold it into the
   * average, and return −s. The dual step is taken before `_s` is read, so
   * its error comes first.
   */
  function Direction(grad: Vec -> Vec, st: DaState, fr: Driver.Frame): (r: Result<Driver.Directed<DaState>>)
    ensures DualWeight(st.dual, fr.current, grad(fr.current), |fr.trajectory|).Err? ==>
      r == Err(DualWeight(st.dual, fr.current, grad(fr.current), |fr.trajectory|).error)
    ensures DualWeight(st.dual, fr.current, grad(fr.current), |fr.trajectory|).Ok? ==>
      (|fr.trajectory| != 1 && st.s.None? ==> r == Err(AttributeError))
    ensures r.Ok? ==> |r.value.state.log| == |st.log| + 1
    ensures r.Ok? ==>
      var g := grad(fr.current);
      var lam := r.value.state.log[|st.log|].lam;
      && r.value.grad == Some(g)
      && r.value.state.s.Some?
      && r.value.h == Neg(r.value.state.s.value)
      && r.value.state.log == st.log + [Weighted(lam, g)]
      && DualWeight(st.dual, fr.current, g, |fr.trajectory|) == Ok(lam)
      && r.value.state.sumLam == st.sumLam + lam
      && r.value.state.since == (if |fr.trajectory| == 1 then |st.log| else st.since)
      && r.value.state.primal == st.primal && r.value.state.dual == st.dual
      && var s := if |fr.trajectory| == 1 then Zeros(|fr.current|) else st.s.value;
         Average(s, st.sumLam, lam, g) == Ok(r.value.state.s.value)
  {
    var x := fr.current;
    var g := grad(x);
    var reset := |fr.trajectory| == 1;
    var lam :- DualWeight(st.dual, x, g, |fr.trajectory|);
    var s :- if reset then Ok(Zeros(|x|)) else if st.s.None? then Err(AttributeError) else Ok(st.s.value);
    var s' :- Average(s, st.sumLam, lam, g);
    var log := st.log + [Weighted(lam, g)];
    var st' := st.(s := Some(s'), sumLam := st.sumLam + lam, log := log,
                   since := if reset then |st.log| else st.since);
    Ok(Driver.Directed(st', Neg(s'), Some(g)))
  }

  /** `get_stepsize()`: the primal step along `_h` from `_x_current`, at the 1-based iteration index. */
  function StepLength(f: StepSizes.Objective, grad: Vec -> Vec, st: DaState, fr: Driver.Frame,
                      u: StepSizes.Update): (r: Result<Driver.Sized<DaState>>)
    ensures r.Ok? <==> StepSizes.Take(st.primal, f, grad, u, fr.h, fr.current, |fr.trajectory|).Ok?
    ensures r.Ok? ==>
      var t := StepSizes.Take(st.primal, f, grad, u, fr.h, fr.current, |fr.trajectory|).value;
      r.value == Driver.Sized(st.(primal := t.next), t.alpha)
  {
    var t :- StepSizes.Take(st.primal, f, grad, u, fr.h, fr.current, |fr.trajectory|);
    Ok(Driver.Sized(st.(primal := t.next), t.alpha))
  }

  /** `_f_update_x_next(x, alpha, h)`: convergence[0] + alpha*h, whatever x is. */
  function Anchored(anchor: Vec, x: Vec, alpha: real, h: Vec): (r: Vec)
    ensures forall i: nat :: At(r, i) == At(anchor, i) + alpha * At(h, i)
  {
    Add(anchor, Scale(alpha, h))
  }

  /**
   * The strategy as the driver sees it. `_append_conv` appends `_x_current`
   * after `_update_x_current` set it to `_x_next`, which is what the driver
   * appends.
   */
  function Hooks(f: StepSizes.Objective, grad: Vec -> Vec): Driver.Hooks<DaState> {
    Driver.Hooks(
      (st: DaState, fr: Driver.Frame) => Direction(grad, st, fr),
      (st: DaState, fr: Driver.Frame, tol: real) => Driver.DefaultConverged(st, fr, tol),
      (st: DaState, fr: Driver.Frame, u: StepSizes.Update) => StepLength(f, grad, st, fr, u),
      Anchored,
      (st: DaState, fr: Driver.Frame, xn: Vec) => Ok(Driver.Moved(st, None)),
      Driver.NoFinish)
  }

  /**
   * What every hook keeps: Σλ is the total weight since construction, and
   * Σλ·s is the weighted sum of the gradients of the current solve.
   */
  ghost predicate Averaging(st: DaState) {
    && st.sumLam == Total(st.log)
    && st.since <= |st.log|
    && (st.s.Some? ==> Equiv(Scale(st.sumLam, st.s.value), WeightedSum(st.log[st.since..])))
  }

  /** The weighted sum of a record extended by one entry. */
  lemma WeightedSumSnoc(log: seq<Weighted>, since: nat, w: Weighted)
    requires since <= |log|
    ensures WeightedSum((log + [w])[since..]) == Add(WeightedSum(log[since..]), Scale(w.lam, w.g))
    ensures Total(log + [w]) == Total(log) + w.lam
  {
    var ps := (log + [w])[since..];
    assert ps[..|ps| - 1] == log[since..];
    assert ps[|ps| - 1] == w;
    assert (log + [w])[..|log|] == log;
  }

  /** One averaging step keeps Σλ·s equal to the weighted sum. */
  lemma {:induction false} AverageKeepsSum(s: Vec, sumLam: real, lam: real, g: Vec, w: Vec)
    requires Equiv(Scale(sumLam, s), w)
    requires Average(s, sumLam, lam, g).Ok?
    ensures Equiv(Scale(sumLam + lam, Average(s, sumLam, lam, g).value), Add(w, Scale(lam, g)))
  {
    var s' := Average(s, sumLam, lam, g).value;
    forall i: nat ensures At(Scale(sumLam + lam, s'), i) == At(Add(w, Scale(lam, g)), i) {
      assert At(Scale(sumLam, s), i) == At(w, i);
    }
  }

  lemma DirectionKeeps(grad: Vec -> Vec, st: DaState, fr: Driver.Frame)
    requires Averaging(st)
    ensures Direction(grad, st, fr).Ok? ==> Averaging(Direction(grad, st, fr).value.state)
  {
    var r := Direction(grad, st, fr);
    if r.Ok? {
      var st' := r.value.state;
      var g := grad(fr.current);
      var lam := st'.log[|st.log|].lam;
      var w := Weighted(lam, g);
      var s := if |fr.trajectory| == 1 then Zeros(|fr.current|) else st.s.value;
      var ws := WeightedSum(st.log[st'.since..]);
      WeightedSumSnoc(st.log, st'.since, w);
      if |fr.trajectory| == 1 {
        assert st.log[|st.log|..] == [];
        assert Equiv(Scale(st.sumLam, s), ws);
      }
      AverageKeepsSum(s, st.sumLam, lam, g, ws);
    }
  }

  /** Every hook preserves `Averaging`. */
  lemma HooksKeepAveraging(f: StepSizes.Objective, grad: Vec -> Vec)
    ensures Driver.Keeps(Hooks(f, grad), Averaging)
  {
    var hk := Hooks(f, grad);
    forall st, fr | Averaging(st) && hk.direction(st, fr).Ok?
      ensures Averaging(hk.direction(st, fr).value.state)
    {
      DirectionKeeps(grad, st, fr);
    }
  }

  /**
   * After any solve from a state that keeps the invariant (a freshly
   * constructed object does), Σλ is the total weight of every pass since
   * construction and Σλ·s the weighted sum of this solve's gradients.
   */
  lemma SolveKeepsAveraging(f: StepSizes.Objective, grad: Vec -> Vec, memSize: nat, st: DaState,
                            gradMem: seq<Vec>, x0: Vec, maxIter: int, tol: real)
    requires |gradMem| <= memSize
    requires Averaging(st)
    ensures var r := Driver.Solve(Hooks(f, grad), memSize, st, gradMem, x0, maxIter, tol);
      r.Ok? ==> Averaging(r.value.state)
  {
    HooksKeepAveraging(f, grad);
    Driver.SolveKeeps(Hooks(f, grad), Averaging, memSize, st, gradMem, x0, maxIter, tol);
  }

  /** A freshly constructed object keeps the invariant. */
  lemma ConstructAverages(primal: StepSizes.StepSize, dual: StepSizes.StepSize)
    ensures Averaging(Construct(primal, dual))
  {
  }

  /**
   * When the record of the current solve is everything since construction
   * (the first solve), s is the λ-weighted mean Σλᵢgᵢ / Σλᵢ.
   */
  lemma WeightedMean(st: DaState)
    requires Averaging(st) && st.since == 0 && st.s.Some? && st.sumLam != 0.0
    ensures Equiv(st.s.value, DivBy(WeightedSum(st.log), Total(st.log)))
  {
    assert st.log[0..] == st.log;
    forall i: nat ensures At(st.s.value, i) == At(DivBy(WeightedSum(st.log), Total(st.log)), i) {
      assert st.sumLam * At(st.s.value, i) == At(WeightedSum(st.log), i);
      Divide(st.sumLam, At(st.s.value, i), At(WeightedSum(st.log), i));
    }
  }

  lemma Divide(d: real, a: real, n: real)
    requires d != 0.0 && d * a == n
    ensures a == n / d
  {
  }

  /**
   * On the first pass of a later solve, Σλ still holds the earlier weight
   * L, so the new s is λ·g/(L + λ) rather than g.
   */
  lemma CarriedWeight(grad: Vec -> Vec, st: DaState, fr: Driver.Frame)
    requires |fr.trajectory| == 1
    ensures Direction(grad, st, fr).Ok? ==>
      var st' := Direction(grad, st, fr).value.state;
      var lam := st'.log[|st.log|].lam;
      && st'.sumLam == st.sumLam + lam
      && Equiv(Scale(st.sumLam + lam, st'.s.value), Scale(lam, grad(fr.current)))
  {
    if Direction(grad, st, fr).Ok? {
      var st' := Direction(grad, st, fr).value.state;
      var lam := st'.log[|st.log|].lam;
      var g := grad(fr.current);
      assert Average(Zeros(|fr.current|), st.sumLam, lam, g) == Ok(st'.s.value);
      AverageFromZero(|fr.current|, st.sumLam, lam, g);
    }
  }

  /** Averaging into a zero vector leaves only the new weight's share of g. */
  lemma AverageFromZero(n: nat, sumLam: real, lam: real, g: Vec)
    requires Average(Zeros(n), sumLam, lam, g).Ok?
    ensures Equiv(Scale(sumLam + lam, Average(Zeros(n), sumLam, lam, g).value), Scale(lam, g))
  {
    var z := Zeros(n);
    var r := Average(z, sumLam, lam, g).value;
    forall i: nat ensures At(Scale(sumLam + lam, r), i) == At(Scale(lam, g), i) {
      assert At(z, i) == 0.0;
    }
  }

  /**
   * Every point after the first is x0 + αᵢ·hᵢ: the steps are not
   * accumulated but all taken from the initial point.
   */
  lemma AnchoredTrajectory(f: StepSizes.Objective, grad: Vec -> Vec, memSize: nat, st: DaState,
                           gradMem: seq<Vec>, x0: Vec, maxIter: int, tol: real)
    requires |gradMem| <= memSize
    ensures var r := Driver.Solve(Hooks(f, grad), memSize, st, gradMem, x0, maxIter, tol);
      r.Ok? ==> forall i | 0 <= i < |r.value.steps| ::
        r.value.trajectory[i + 1] == Add(x0, Scale(r.value.steps[i].alpha, r.value.steps[i].h))
  {
  }
}

=== FILE: errors.dfy ===
/**
 * Outcomes of the optimiser's operations. Python exceptions become `Err`
 * values; a NaN objective value becomes `None`.
 */
module Errors {

  datatype Option<+T> = None | Some(value: T)

  datatype Error =
    | ValueError(msg: string)
    | KeyError(key: string)
    | AssertionError(msg: string)
    | NotImplementedError(msg: string)
    /** An operation applied to `None`, or a call with the wrong arguments. */
    | TypeError
    /** `seq[-1]` or `seq[-2]` on a sequence that is too short. */
    | IndexError
    /** Division by zero on Python floats. */
    | ZeroDivisionError
    /** A local read before any branch assigned it. */
    | UnboundLocalError
    /** An attribute read before any method assigned it. */
    | AttributeError
    /** Division by zero on numpy values: numpy yields inf or nan, not a number. */
    | NonFinite
    /** `from module import name` for a name the module does not define. */
    | ImportError(name: string)
    /** A search loop used up the trial budget the model gives it. */
    | OutOfFuel

  datatype Result<+T> = Ok(value: T) | Err(error: Error) {
    predicate IsFailure() {
      Err?
    }

    function PropagateFailure<U>(): Result<U>
      requires Err?
    {
      Err(error)
    }

    function Extract(): T
      requires Ok?
    {
      value
    }
  }

  const StepTooSmall: string := "Step size is too small!"
}

=== FILE: fifo.dfy ===
/**
 * A bounded FIFO buffer, `collections.deque(maxlen=cap)`, oldest entry first.
 */
module Fifo {

  /** The newest `cap` entries of s (all of s if it is shorter). */
  function Keep<T>(s: seq<T>, cap: nat): seq<T> {
    if |s| <= cap then s else s[|s| - cap..]
  }

  /** `append` on a deque with `maxlen=cap`: the oldest entry is dropped on overflow. */
  function Push<T>(q: seq<T>, x: T, cap: nat): (r: seq<T>)
    requires |q| <= cap
    ensures |r| <= cap
    ensures r == Keep(q + [x], cap)
    ensures cap > 0 ==> |r| > 0 && r[|r| - 1] == x
  {
    if |q| < cap then q + [x]
    else if cap == 0 then []
    else q[1..] + [x]
  }

  /** Appends xs one after another. */
  function PushAll<T>(q: seq<T>, xs: seq<T>, cap: nat): (r: seq<T>)
    requires |q| <= cap
    ensures |r| <= cap
    decreases |xs|
  {
    if |xs| == 0 then q else PushAll(Push(q, xs[0], cap), xs[1..], cap)
  }

  lemma KeepKeep<T>(s: seq<T>, t: seq<T>, cap: nat)
    ensures Keep(Keep(s, cap) + t, cap) == Keep(s + t, cap)
  {
    if |s| > cap {
      var k := Keep(s, cap);
      if |k + t| > cap {
        assert (k + t)[|k + t| - cap..] == (s + t)[|s + t| - cap..];
      }
    }
  }

  /**
   * The buffer holds exactly the newest `cap` of everything ever appended,
   * including what it held before: nothing is cleared in between.
   */
  lemma {:induction false} PushAllKeepsNewest<T>(q: seq<T>, xs: seq<T>, cap: nat)
    requires |q| <= cap
    ensures PushAll(q, xs, cap) == Keep(q + xs, cap)
    decreases |xs|
  {
    if |xs| == 0 {
      assert q + xs == q;
    } else {
      var x, rest := xs[0], xs[1..];
      var q1 := Push(q, x, cap);
      assert PushAll(q, xs, cap) == PushAll(q1, rest, cap);
      PushAllKeepsNewest(q1, rest, cap);
      KeepKeep(q + [x], rest, cap);
      assert q + [x] + rest == q + xs;
    }
  }
}

=== FILE: lbfgs.dfy ===
/**
 * L-BFGS of liboptpy/unconstr_solvers/fo/_quasi_newton.py: the two-loop
 * recursion over a bounded history of steps s and gradient changes y.
 *
 * The source keeps s and y in two deques of the same `maxlen` that are
 * always appended together; here they are one deque of pairs, so the two
 * histories have equal length by construction.
 */
module LimitedMemory {
  import opened Vectors
  import opened Errors
  import Fifo
  import StepSizes
  import Driver
  import QuasiNewton

  /** One entry of `_s_hist` together with the entry of `_y_hist` at the same index. */
  datatype Pair = Pair(s: Vec, y: Vec)

  /**
   * The fields of an L-BFGS optimiser besides the driver's own: the
   * constructor's H, the current scalar H, the history with its `hist_size`,
   * and the step-size object.
   */
  datatype LbState = LbState(H0: Option<real>, H: Option<real>, hist: seq<Pair>, histSize: nat, ss: StepSizes.StepSize)

  /** Every pair of the first n has a finite ρ = 1/(s·y). */
  predicate Curved(hist: seq<Pair>, n: nat)
    requires n <= |hist|
  {
    forall i | 0 <= i < n :: Dot(hist[i].s, hist[i].y) != 0.0
  }

  /** What the backward loop leaves: the alpha and rho arrays and the final q. */
  datatype Backtrace = Backtrace(alphas: seq<real>, rhos: seq<real>, q: Vec)

  /** `rho[i] = 1. / s.dot(y)` for one pair. */
  function Rho(p: Pair): (r: real)
    requires Dot(p.s, p.y) != 0.0
    ensures r * Dot(p.s, p.y) == 1.0
  {
    1.0 / Dot(p.s, p.y)
  }

  /** `alpha[i] = s.dot(q) * rho[i]`: the α with α·(s·y) = s·q. */
  function Alpha(p: Pair, q: Vec): (r: real)
    requires Dot(p.s, p.y) != 0.0
    ensures r * Dot(p.s, p.y) == Dot(p.s, q)
  {
    Dot(p.s, q) * Rho(p)
  }

  /**
   * The first loop of `get_direction`, over indices n−1 down to 0:
   * ρ_i = 1/(s_i·y_i), α_i = (s_i·q)·ρ_i, q := q − α_i·y_i.
   */
  function Backward(hist: seq<Pair>, q: Vec, n: nat): (r: Backtrace)
    requires n <= |hist| && Curved(hist, n)
    decreases n
    ensures |r.alphas| == n && |r.rhos| == n && Inverses(hist, r.rhos)
  {
    if n == 0 then Backtrace([], [], q)
    else
      var p := hist[n - 1];
      var a := Alpha(p, q);
      var t := Backward(hist, Sub(q, Scale(a, p.y)), n - 1);
      InversesSnoc(hist, t.rhos);
      Backtrace(t.alphas + [a], t.rhos + [Rho(p)], t.q)
  }

  /** rhos[i] is 1/(s_i·y_i) for every pair it covers. */
  predicate Inverses(hist: seq<Pair>, rhos: seq<real>) {
    && |rhos| <= |hist|
    && forall i | 0 <= i < |rhos| :: rhos[i] * Dot(hist[i].s, hist[i].y) == 1.0
  }

  lemma InversesSnoc(hist: seq<Pair>, rhos: seq<real>)
    requires Inverses(hist, rhos) && |rhos| < |hist| && Dot(hist[|rhos|].s, hist[|rhos|].y) != 0.0
    ensures Inverses(hist, rhos + [Rho(hist[|rhos|])])
  {
  }

  /** The second loop, from index i up: β = ρ_i·(y_i·r), r := r + s_i·(α_i − β). */
  function Forward(hist: seq<Pair>, alphas: seq<real>, rhos: seq<real>, r: Vec, i: nat): Vec
    requires |alphas| == |hist| && |rhos| == |hist| && i <= |hist|
    decreases |hist| - i
  {
    if i == |hist| then r
    else
      var beta := rhos[i] * Dot(hist[i].y, r);
      Forward(hist, alphas, rhos, Add(r, Scale(alphas[i] - beta, hist[i].s)), i + 1)
  }

  /**
   * The vector r of `get_direction` for gradient g and scalar H; the
   * direction is −r. A pair with s·y = 0 makes ρ, and so r, non-finite.
   */
  function TwoLoop(hist: seq<Pair>, H: real, g: Vec): (r: Result<Vec>)
    ensures r.Ok? <==> Curved(hist, |hist|)
    ensures r.Err? ==> r.error == NonFinite
  {
    if !Curved(hist, |hist|) then Err(NonFinite)
    else
      var t := Backward(hist, g, |hist|);
      Ok(Forward(hist, t.alphas, t.rhos, Scale(H, t.q), 0))
  }

  /** v is the zero vector, whatever its length. */
  ghost predicate Zero(v: Vec) {
    Equiv(v, [])
  }

  /** α is determined by α·(s·y) = s·q. */
  lemma AlphaUnique(p: Pair, q: Vec, a: real)
    requires Dot(p.s, p.y) != 0.0 && a * Dot(p.s, p.y) == Dot(p.s, q)
    ensures Alpha(p, q) == a
  {
    Cancel(a, Alpha(p, q), Dot(p.s, p.y));
  }

  /** For a pair's own y, α = 1. */
  lemma AlphaOfOwnY(p: Pair)
    requires Dot(p.s, p.y) != 0.0
    ensures Alpha(p, p.y) == 1.0
  {
    AlphaUnique(p, p.y, 1.0);
  }

  lemma Cancel(a: real, b: real, c: real)
    requires c != 0.0 && a * c == b * c
    ensures a == b
  {
    assert (a - b) * c == 0.0;
  }

  /** Subtracting no multiple of y from a zero vector leaves it zero. */
  lemma ZeroMinusNothing(q: Vec, y: Vec)
    requires Zero(q)
    ensures Zero(Sub(q, Scale(0.0, y)))
  {
  }

  /** y − 1·y is zero. */
  lemma SelfMinusSelf(y: Vec)
    ensures Zero(Sub(y, Scale(1.0, y)))
  {
  }

  /** From a zero q the backward loop keeps q zero and every alpha zero. */
  lemma {:induction false} BackwardFromZero(hist: seq<Pair>, q: Vec, n: nat)
    requires n <= |hist| && Curved(hist, n) && Zero(q)
    decreases n
    ensures Zero(Backward(hist, q, n).q)
    ensures forall i | 0 <= i < n :: Backward(hist, q, n).alphas[i] == 0.0
  {
    if n > 0 {
      var p := hist[n - 1];
      DotZeroRight(p.s, q);
      AlphaUnique(p, q, 0.0);
      ZeroMinusNothing(q, p.y);
      BackwardFromZero(hist, Sub(q, Scale(0.0, p.y)), n - 1);
    }
  }

  /** Started on the newest y, the backward loop gives α = 1 for the newest pair, then zeros, and q = 0. */
  lemma BackwardOnNewest(hist: seq<Pair>)
    requires |hist| > 0 && Curved(hist, |hist|)
    ensures
      var t := Backward(hist, hist[|hist| - 1].y, |hist|);
      && Zero(t.q)
      && t.alphas[|hist| - 1] == 1.0
      && forall i | 0 <= i < |hist| - 1 :: t.alphas[i] == 0.0
  {
    var n := |hist|;
    var p := hist[n - 1];
    AlphaOfOwnY(p);
    SelfMinusSelf(p.y);
    BackwardPeel(hist, p.y, n);
  }

  /** When the newest pair's pass zeroes q, every older α is zero and q stays zero. */
  lemma BackwardPeel(hist: seq<Pair>, q: Vec, n: nat)
    requires 0 < n <= |hist| && Curved(hist, n)
    requires Zero(Sub(q, Scale(Alpha(hist[n - 1], q), hist[n - 1].y)))
    ensures Zero(Backward(hist, q, n).q)
    ensures Backward(hist, q, n).alphas[n - 1] == Alpha(hist[n - 1], q)
    ensures forall i | 0 <= i < n - 1 :: Backward(hist, q, n).alphas[i] == 0.0
  {
    BackwardFromZero(hist, Sub(q, Scale(Alpha(hist[n - 1], q), hist[n - 1].y)), n - 1);
  }

  /**
   * From a zero r, with alphas zero before the newest pair and one at it,
   * the forward loop yields the newest s.
   */
  lemma {:induction false} ForwardToNewest(hist: seq<Pair>, alphas: seq<real>, rhos: seq<real>, r: Vec, i: nat)
    requires |alphas| == |hist| && |rhos| == |hist| && i < |hist|
    requires Zero(r)
    requires alphas[|hist| - 1] == 1.0
    requires forall j | i <= j < |hist| - 1 :: alphas[j] == 0.0
    decreases |hist| - i
    ensures Equiv(Forward(hist, alphas, rhos, r, i), hist[|hist| - 1].s)
  {
    var p := hist[i];
    DotZeroRight(p.y, r);
    var beta := rhos[i] * Dot(p.y, r);
    assert beta == 0.0;
    var r' := Add(r, Scale(alphas[i] - beta, p.s));
    if i < |hist| - 1 {
      assert Zero(r');
      ForwardToNewest(hist, alphas, rhos, r', i + 1);
    } else {
      assert Forward(hist, alphas, rhos, r', i + 1) == r';
      assert Equiv(r', p.s);
    }
  }

  /**
   * The implied inverse-Hessian estimate satisfies the secant equation for
   * the newest pair: applied to y it gives s, for any H and any history.
   */
  lemma TwoLoopSecant(hist: seq<Pair>, H: real)
    requires |hist| > 0 && Curved(hist, |hist|)
    ensures TwoLoop(hist, H, hist[|hist| - 1].y).Ok?
    ensures Equiv(TwoLoop(hist, H, hist[|hist| - 1].y).value, hist[|hist| - 1].s)
  {
    var t := Backward(hist, hist[|hist| - 1].y, |hist|);
    BackwardOnNewest(hist);
    assert Zero(Scale(H, t.q));
    ForwardToNewest(hist, t.alphas, t.rhos, Scale(H, t.q), 0);
  }

  /**
   * `get_direction(x)`: without an H it sets the current gradient to ∇f(x)
   * and returns −∇f(x); with one it returns −r of the two-loop recursion on
   * current_grad, a TypeError while current_grad is still None.
   */
  function Direction(grad: Vec -> Vec, st: LbState, fr: Driver.Frame): (r: Result<Driver.Directed<LbState>>)
    ensures r.Ok? ==> r.value.state == st
    ensures st.H.None? ==> r.Ok? && r.value.grad == Some(grad(fr.current)) && r.value.h == Neg(grad(fr.current))
    ensures st.H.Some? && fr.currentGrad.None? ==> r == Err(TypeError)
    ensures st.H.Some? && fr.currentGrad.Some? ==>
      && (r.Ok? <==> Curved(st.hist, |st.hist|))
      && (r.Ok? ==> r.value.grad.None? && r.value.h == Neg(TwoLoop(st.hist, st.H.value, fr.currentGrad.value).value))
  {
    if st.H.None? then
      var g := grad(fr.current);
      Ok(Driver.Directed(st, Neg(g), Some(g)))
    else if fr.currentGrad.None? then Err(TypeError)
    else
      var r :- TwoLoop(st.hist, st.H.value, fr.currentGrad.value);
      Ok(Driver.Directed(st, Neg(r), None))
  }

  /**
   * `_update_x_current`: the current gradient becomes ∇f(x_next); the pair
   * (x_next − x, ∇f(x_next) − grad_mem[-1]) is appended to the history,
   * evicting the oldest pair when it is full; H becomes (y·s)/(y·y).
   */
  function Move(grad: Vec -> Vec, st: LbState, fr: Driver.Frame, xn: Vec): (r: Result<Driver.Moved<LbState>>)
    ensures |fr.gradMem| == 0 ==> r == Err(IndexError)
    ensures r.Ok? ==>
      var s := Sub(xn, fr.current);
      var y := Sub(grad(xn), Last(fr.gradMem));
      && r.value.grad == Some(grad(xn))
      && r.value.state.H0 == st.H0 && r.value.state.histSize == st.histSize && r.value.state.ss == st.ss
      && r.value.state.H.Some? && r.value.state.H.value * Dot(y, y) == Dot(y, s)
      && (|st.hist| < st.histSize ==> r.value.state.hist == st.hist + [Pair(s, y)])
      && (0 < |st.hist| == st.histSize ==> r.value.state.hist == st.hist[1..] + [Pair(s, y)])
      && (st.histSize == 0 ==> r.value.state.hist == [])
    ensures |fr.gradMem| > 0 ==> (r.Err? <==> Dot(Sub(grad(xn), Last(fr.gradMem)), Sub(grad(xn), Last(fr.gradMem))) == 0.0)
  {
    var prev :- Driver.NewestGrad(fr);
    var g := grad(xn);
    var s := Sub(xn, fr.current);
    var y := Sub(g, prev);
    var hist := Fifo.Keep(st.hist + [Pair(s, y)], st.histSize);
    if Dot(y, y) == 0.0 then Err(NonFinite)
    else Ok(Driver.Moved(st.(hist := hist, H := Some(Dot(y, s) / Dot(y, y))), Some(g)))
  }

  /** `_get_result_x`: H goes back to the constructor's; the history stays. */
  function Reset(st: LbState): (r: LbState)
    ensures r.H == st.H0 && r.hist == st.hist && r.histSize == st.histSize && r.H0 == st.H0
  {
    st.(H := st.H0)
  }

  /** L-BFGS as driver hooks. */
  function Hooks(f: StepSizes.Objective, grad: Vec -> Vec): Driver.Hooks<LbState> {
    Driver.Hooks(
      (st: LbState, fr: Driver.Frame) => Direction(grad, st, fr),
      (st: LbState, fr: Driver.Frame, tol: real) => Driver.DefaultConverged(st, fr, tol),
      (st: LbState, fr: Driver.Frame, u: StepSizes.Update) =>
        var t :- QuasiNewton.StepAlong(f, grad, st.ss, fr, u);
        Ok(Driver.Sized(st.(ss := t.next), t.alpha)),
      Driver.DefaultUpdate,
      (st: LbState, fr: Driver.Frame, xn: Vec) => Move(grad, st, fr, xn),
      Reset)
  }

  /** The history never exceeds `hist_size`, which, like the constructor's H, never changes. */
  ghost predicate Bounded(st: LbState, histSize: nat, H0: Option<real>) {
    && st.histSize == histSize && st.H0 == H0
    && |st.hist| <= histSize
  }

  lemma HooksKeepBound(f: StepSizes.Objective, grad: Vec -> Vec, histSize: nat, H0: Option<real>)
    ensures Driver.Keeps(Hooks(f, grad), (st: LbState) => Bounded(st, histSize, H0))
  {
  }

  /**
   * After `solve` H is the constructor's again, and the history, which the
   * reset leaves alone, still holds at most `hist_size` pairs.
   */
  lemma SolveKeepsHistoryBounded(f: StepSizes.Objective, grad: Vec -> Vec, st: LbState,
                                 gradMem: seq<Vec>, x0: Vec, maxIter: int, tol: real)
    requires |gradMem| <= 1 && |st.hist| <= st.histSize
    ensures
      var r := Driver.Solve(Hooks(f, grad), 1, st, gradMem, x0, maxIter, tol);
      r.Ok? ==> r.value.state.H == st.H0 && |r.value.state.hist| <= st.histSize
  {
    var P := (t: LbState) => Bounded(t, st.histSize, st.H0);
    HooksKeepBound(f, grad, st.histSize, st.H0);
    Driver.SolveKeeps(Hooks(f, grad), P, 1, st, gradMem, x0, maxIter, tol);
  }
}

=== FILE: legacy_solvers.dfy ===
/**
 * The solvers of the top-level unconstr_solvers.py and unconstr_methods.py,
 * run by the check-after-step loop of `OlderDriver`: gradient descent,
 * linear conjugate gradients for ½xᵀAx − bᵀx and Fletcher–Reeves. The
 * Barzilai–Borwein solvers of both files are `BarzilaiBorwein.Solver`.
 *
 * `DescentMethod.get_stepsize(h)` forwards the solver's own keyword
 * arguments to a step-size object of the top-level step_size.py, which
 * takes none; `extra` counts them.
 */
module LegacySolvers {
  import opened Vectors
  import opened Errors
  import StepSizes
  import OlderDriver
  import LegacyStepSize
  import ConjugateGradient
  import Restarts

  /**
   * `DescentMethod.get_stepsize(h)`: the step-size object's
   * `get_stepsize(h, convergence[-1], **kwargs)`. A solver built without a
   * step-size object has None there (AttributeError), and a None step
   * fails in `x + alpha * h` (TypeError).
   */
  function StepCall(ss: Option<LegacyStepSize.StepSize>, f: StepSizes.Objective, grad: Vec -> Vec,
                    extra: nat, h: Vec, traj: seq<Vec>): (r: Result<real>)
    ensures ss.None? ==> r == Err(AttributeError)
    ensures ss.Some? && |traj| == 0 ==> r == Err(IndexError)
    ensures ss.Some? && |traj| > 0 ==>
      var g := LegacyStepSize.GetStepsize(ss.value, f, grad, h, Last(traj), extra);
      && (r.Ok? <==> g.Ok? && g.value.Some?)
      && (r.Ok? ==> r.value == g.value.value)
      && (g.Ok? && g.value.None? ==> r == Err(TypeError))
  {
    if ss.None? then Err(AttributeError)
    else if |traj| == 0 then Err(IndexError)
    else
      var a :- LegacyStepSize.GetStepsize(ss.value, f, grad, h, Last(traj), extra);
      if a.None? then Err(TypeError) else Ok(a.value)
  }

  // ---------------------------------------------------------------- gradient descent

  /** `GradientDescent(f, grad, step_size, **kwargs)`: direction −∇f(x), no state of its own. */
  function GradientDescent(f: StepSizes.Objective, grad: Vec -> Vec, ss: Option<LegacyStepSize.StepSize>, extra: nat): OlderDriver.Older<()> {
    OlderDriver.Older(
      (u: (), x: Vec, traj: seq<Vec>) => Ok(OlderDriver.Directed((), Neg(grad(x)))),
      (u: (), h: Vec, traj: seq<Vec>) =>
        var a :- StepCall(ss, f, grad, extra, h, traj);
        Ok(OlderDriver.Sized((), a)))
  }

  /** Every step so far went along −∇f at the point it started from. */
  ghost predicate Steepest(grad: Vec -> Vec, traj: seq<Vec>, steps: seq<OlderDriver.Step>) {
    && |traj| == |steps| + 1
    && forall i | 0 <= i < |steps| :: steps[i].h == Neg(grad(traj[i]))
  }

  lemma SteepestStep(grad: Vec -> Vec, traj: seq<Vec>, steps: seq<OlderDriver.Step>, xn: Vec, alpha: real)
    requires Steepest(grad, traj, steps)
    ensures Steepest(grad, traj + [xn], steps + [OlderDriver.Step(Neg(grad(Last(traj))), alpha)])
  {
    var traj2 := traj + [xn];
    var steps2 := steps + [OlderDriver.Step(Neg(grad(Last(traj))), alpha)];
    forall i | 0 <= i < |steps2| ensures steps2[i].h == Neg(grad(traj2[i])) {
      if i < |steps| {
        assert steps2[i] == steps[i] && traj2[i] == traj[i];
      }
    }
  }

  /** Every step of a gradient-descent run is a steepest-descent step from the point it left. */
  lemma GradientDescentSteepest(f: StepSizes.Objective, grad: Vec -> Vec, ss: Option<LegacyStepSize.StepSize>, extra: nat,
                                tol: real, maxIter: int, x0: Vec)
    ensures var r := OlderDriver.Solve(GradientDescent(f, grad, ss, extra), grad, tol, maxIter, (), x0);
      r.Ok? ==> forall i | 0 <= i < |r.value.steps| :: r.value.steps[i].h == Neg(grad(r.value.trajectory[i]))
  {
    var o := GradientDescent(f, grad, ss, extra);
    var inv := (u: (), traj: seq<Vec>, steps: seq<OlderDriver.Step>) => Steepest(grad, traj, steps);
    forall u: (), traj: seq<Vec>, steps: seq<OlderDriver.Step> | inv(u, traj, steps) && |traj| > 0
      ensures var d := o.direction(u, Last(traj), traj);
        d.Ok? && o.stepSize(d.value.state, d.value.h, traj).Ok? ==>
          var z := o.stepSize(d.value.state, d.value.h, traj).value;
          inv(z.state, traj + [Add(Last(traj), Scale(z.alpha, d.value.h))], steps + [OlderDriver.Step(d.value.h, z.alpha)])
    {
      var d := o.direction(u, Last(traj), traj);
      if o.stepSize(d.value.state, d.value.h, traj).Ok? {
        var z := o.stepSize(d.value.state, d.value.h, traj).value;
        SteepestStep(grad, traj, steps, Add(Last(traj), Scale(z.alpha, d.value.h)), z.alpha);
      }
    }
    OlderDriver.SolveKeeps(o, inv, grad, tol, maxIter, (), x0);
  }

  /** Keyword arguments given to the solver make every solve fail on its first step with TypeError. */
  lemma KeywordsRejected(f: StepSizes.Objective, grad: Vec -> Vec, ss: LegacyStepSize.StepSize, extra: nat,
                         tol: real, maxIter: int, x0: Vec)
    requires extra > 0
    ensures OlderDriver.Solve(GradientDescent(f, grad, Some(ss), extra), grad, tol, maxIter, (), x0) == Err(TypeError)
  {
  }

  // ---------------------------------------------------------------- linear CG for quadratics

  /** `ConjugateGradientQuad.get_stepsize(h)`: α = (r·r)/(h·Ah) along the direction itself; α is stored. */
  function QuadStep(A: Mat, st: ConjugateGradient.QuadState, h: Vec): (res: Result<OlderDriver.Sized<ConjugateGradient.QuadState>>)
    ensures st.r.None? ==> res == Err(AttributeError)
    ensures st.r.Some? ==>
      && (res.Ok? <==> Dot(h, MatVec(A, h)) != 0.0)
      && (res.Err? ==> res.error == NonFinite)
      && (res.Ok? ==>
            && res.value.state == st.(alpha := Some(res.value.alpha))
            && res.value.alpha * Dot(h, MatVec(A, h)) == Dot(st.r.value, st.r.value))
  {
    var r :- ConjugateGradient.Field(st.r);
    var alpha :- ConjugateGradient.QuadAlpha(A, r, h);
    Ok(OlderDriver.Sized(st.(alpha := Some(alpha)), alpha))
  }

  /** `ConjugateGradientQuad(A, b)` of unconstr_solvers.py; the direction is the one _cg.py shares. */
  function QuadSolver(A: Mat, b: Vec): OlderDriver.Older<ConjugateGradient.QuadState> {
    OlderDriver.Older(
      (st: ConjugateGradient.QuadState, x: Vec, traj: seq<Vec>) =>
        var d :- ConjugateGradient.QuadDirection(A, b, st, traj, x);
        Ok(OlderDriver.Directed(d.state, d.h)),
      (st: ConjugateGradient.QuadState, h: Vec, traj: seq<Vec>) => QuadStep(A, st, h))
  }

  /**
   * The stored r, h and α after a step: h descends along r (r·h = −r·r),
   * and the residual r + α·A·h at the new point is orthogonal to h.
   */
  ghost predicate Conjugate(A: Mat, st: ConjugateGradient.QuadState) {
    && st.r.Some? && st.h.Some? && st.alpha.Some?
    && Dot(st.r.value, st.h.value) == - Dot(st.r.value, st.r.value)
    && Dot(Add(st.r.value, Scale(st.alpha.value, MatVec(A, st.h.value))), st.h.value) == 0.0
  }

  /** The stored r advanced by α·A·h is exactly the residual A·x − b at x. */
  ghost predicate Tracks(A: Mat, b: Vec, st: ConjugateGradient.QuadState, x: Vec) {
    && st.r.Some? && st.h.Some? && st.alpha.Some?
    && Add(st.r.value, Scale(st.alpha.value, MatVec(A, st.h.value))) == Sub(MatVec(A, x), b)
  }

  /** What linear CG keeps after its first step. */
  ghost predicate QuadInv(A: Mat, b: Vec, st: ConjugateGradient.QuadState, traj: seq<Vec>) {
    && |traj| >= 1
    && (|traj| >= 2 ==> Conjugate(A, st) && Tracks(A, b, st, Last(traj)))
  }

  /** The exact step along a direction with r·h = −r·r leaves the next residual orthogonal to it. */
  lemma StepOrthogonal(A: Mat, s: ConjugateGradient.QuadState, h: Vec)
    requires s.r.Some? && Dot(s.r.value, h) == - Dot(s.r.value, s.r.value)
    ensures QuadStep(A, s, h).Ok? ==>
      Dot(Add(s.r.value, Scale(QuadStep(A, s, h).value.alpha, MatVec(A, h))), h) == 0.0
  {
    if QuadStep(A, s, h).Ok? {
      ConjugateGradient.NextResidualOrthogonal(A, s.r.value, h, QuadStep(A, s, h).value.alpha);
    }
  }

  /** Every direction linear CG computes descends along the residual it computes with it. */
  lemma DirectionDescends(A: Mat, b: Vec, st: ConjugateGradient.QuadState, traj: seq<Vec>, x: Vec)
    requires |traj| == 1 || Conjugate(A, st)
    ensures var d := ConjugateGradient.QuadDirection(A, b, st, traj, x);
      d.Ok? ==> Dot(d.value.state.r.value, d.value.h) == - Dot(d.value.state.r.value, d.value.state.r.value)
  {
    var d := ConjugateGradient.QuadDirection(A, b, st, traj, x);
    if d.Ok? {
      var r := d.value.state.r.value;
      if |traj| == 1 {
        DotNeg(r, r);
      } else {
        ConjugateGradient.NextDirectionAligned(r, ConjugateGradient.QuadBeta(r, st.r.value).value, st.h.value);
      }
    }
  }

  /** The residual a pass of linear CG stores is exactly A·x − b at the point it starts from. */
  lemma PassTracks(A: Mat, b: Vec, st: ConjugateGradient.QuadState, traj: seq<Vec>, x: Vec)
    requires |traj| != 1 ==> Tracks(A, b, st, x)
    ensures var d := ConjugateGradient.QuadDirection(A, b, st, traj, x);
      d.Ok? && QuadStep(A, d.value.state, d.value.h).Ok? ==>
        var z := QuadStep(A, d.value.state, d.value.h).value;
        && z.state.r == Some(Sub(MatVec(A, x), b))
        && z.state.h == Some(d.value.h)
        && z.state.alpha == Some(z.alpha)
  {
  }

  /** One pass of linear CG keeps `QuadInv`. */
  lemma QuadPassKeeps(A: Mat, b: Vec, st: ConjugateGradient.QuadState, traj: seq<Vec>)
    requires QuadInv(A, b, st, traj)
    ensures var d := ConjugateGradient.QuadDirection(A, b, st, traj, Last(traj));
      d.Ok? && QuadStep(A, d.value.state, d.value.h).Ok? ==>
        var z := QuadStep(A, d.value.state, d.value.h).value;
        QuadInv(A, b, z.state, traj + [Add(Last(traj), Scale(z.alpha, d.value.h))])
  {
    var x := Last(traj);
    PassConjugate(A, b, st, traj, x);
    PassTracks(A, b, st, traj, x);
    var d := ConjugateGradient.QuadDirection(A, b, st, traj, x);
    if d.Ok? && QuadStep(A, d.value.state, d.value.h).Ok? {
      var z := QuadStep(A, d.value.state, d.value.h).value;
      Tracked(A, b, z.state, traj + [Add(x, Scale(z.alpha, d.value.h))], x);
    }
  }

  /** After a pass of linear CG the stored r, h and α are `Conjugate`. */
  lemma PassConjugate(A: Mat, b: Vec, st: ConjugateGradient.QuadState, traj: seq<Vec>, x: Vec)
    requires |traj| == 1 || Conjugate(A, st)
    ensures var d := ConjugateGradient.QuadDirection(A, b, st, traj, x);
      d.Ok? && QuadStep(A, d.value.state, d.value.h).Ok? ==>
        Conjugate(A, QuadStep(A, d.value.state, d.value.h).value.state)
  {
    DirectionDescends(A, b, st, traj, x);
    var d := ConjugateGradient.QuadDirection(A, b, st, traj, x);
    if d.Ok? {
      StepOrthogonal(A, d.value.state, d.value.h);
    }
  }

  /** A residual exactly at x and a conjugate step from it give `QuadInv` one step on. */
  lemma Tracked(A: Mat, b: Vec, s: ConjugateGradient.QuadState, t: seq<Vec>, x: Vec)
    requires Conjugate(A, s)
    requires s.r.value == Sub(MatVec(A, x), b)
    requires |t| >= 1 && Last(t) == Add(x, Scale(s.alpha.value, s.h.value))
    ensures QuadInv(A, b, s, t)
  {
    ConjugateGradient.ResidualAdvance(A, b, x, s.r.value, s.h.value, s.alpha.value);
  }

  /**
   * Every finished linear-CG run ends with the stored residual, advanced by
   * the last step, equal to A·x − b at the returned point; the last
   * direction descended along the stored residual, and the residual at the
   * returned point is orthogonal to it.
   */
  lemma QuadSolveKeepsResidual(A: Mat, b: Vec, tol: real, maxIter: int, st: ConjugateGradient.QuadState, x0: Vec)
    ensures var r := OlderDriver.Solve(QuadSolver(A, b), ConjugateGradient.Residual(A, b), tol, maxIter, st, x0);
      r.Ok? ==>
        var s := r.value.state;
        && s.r.Some? && s.h.Some? && s.alpha.Some?
        && Add(s.r.value, Scale(s.alpha.value, MatVec(A, s.h.value))) == ConjugateGradient.Residual(A, b)(r.value.x)
        && Dot(s.r.value, s.h.value) == - Dot(s.r.value, s.r.value)
        && Dot(ConjugateGradient.Residual(A, b)(r.value.x), s.h.value) == 0.0
  {
    var o := QuadSolver(A, b);
    var inv := (s: ConjugateGradient.QuadState, traj: seq<Vec>, steps: seq<OlderDriver.Step>) => QuadInv(A, b, s, traj);
    forall s: ConjugateGradient.QuadState, traj: seq<Vec>, steps: seq<OlderDriver.Step> | inv(s, traj, steps) && |traj| > 0
      ensures var d := o.direction(s, Last(traj), traj);
        d.Ok? && o.stepSize(d.value.state, d.value.h, traj).Ok? ==>
          var z := o.stepSize(d.value.state, d.value.h, traj).value;
          inv(z.state, traj + [Add(Last(traj), Scale(z.alpha, d.value.h))], steps + [OlderDriver.Step(d.value.h, z.alpha)])
    {
      QuadPassKeeps(A, b, s, traj);
    }
    OlderDriver.SolveKeeps(o, inv, ConjugateGradient.Residual(A, b), tol, maxIter, st, x0);
  }

  // ---------------------------------------------------------------- Fletcher–Reeves

  /** `ConjugateGradientFR` keeps the last direction in `self._h`; None until first assigned. */
  datatype FrState = FrState(h: Option<Vec>)

  /**
   * `get_descent_direction(x)`: −∇f(x) when restarted; otherwise `self._h`
   * is read (AttributeError while unset) and combined as in _cg.py.
   */
  function FrDirection(grad: Vec -> Vec, restart: Option<Restarts.Restart>, st: FrState, traj: seq<Vec>, x: Vec): (r: Result<OlderDriver.Directed<FrState>>)
    ensures ConjugateGradient.Restarted(restart, traj, x) == Ok(true) ==>
      r == Ok(OlderDriver.Directed(FrState(Some(Neg(grad(x)))), Neg(grad(x))))
    ensures ConjugateGradient.Restarted(restart, traj, x) == Ok(false) && st.h.None? ==> r == Err(AttributeError)
    ensures ConjugateGradient.Restarted(restart, traj, x) == Ok(false) && st.h.Some? ==>
      var c := ConjugateGradient.FrDirection(grad, restart, traj, x, st.h.value);
      && (r.Ok? <==> c.Ok?)
      && (r.Ok? ==> r.value == OlderDriver.Directed(FrState(Some(c.value)), c.value))
    ensures ConjugateGradient.Restarted(restart, traj, x).Err? ==> r.Err?
  {
    var anew :- ConjugateGradient.Restarted(restart, traj, x);
    if anew then Ok(OlderDriver.Directed(FrState(Some(Neg(grad(x)))), Neg(grad(x))))
    else
      var hPrev :- ConjugateGradient.Field(st.h);
      var h :- ConjugateGradient.FrDirection(grad, restart, traj, x, hPrev);
      Ok(OlderDriver.Directed(FrState(Some(h)), h))
  }

  /** `ConjugateGradientFR(f, grad, step_size, restart, **kwargs)` of unconstr_solvers.py. */
  function FrSolver(f: StepSizes.Objective, grad: Vec -> Vec, ss: Option<LegacyStepSize.StepSize>,
                    restart: Option<Restarts.Restart>, extra: nat): OlderDriver.Older<FrState> {
    OlderDriver.Older(
      (st: FrState, x: Vec, traj: seq<Vec>) => FrDirection(grad, restart, st, traj, x),
      (st: FrState, h: Vec, traj: seq<Vec>) =>
        var a :- StepCall(ss, f, grad, extra, h, traj);
        Ok(OlderDriver.Sized(st, a)))
  }

  /**
   * Steps 0, d−1, 2d−1, ... of the run (those taken at trajectory lengths 1
   * and multiples of the restart period d) go along −∇f.
   */
  ghost predicate RestartsSteepest(grad: Vec -> Vec, d: int, traj: seq<Vec>, steps: seq<OlderDriver.Step>) {
    && |traj| == |steps| + 1
    && forall i | 0 <= i < |steps| && (i == 0 || (d != 0 && (i + 1) % d == 0)) :: steps[i].h == Neg(grad(traj[i]))
  }

  lemma RestartsSteepestStep(grad: Vec -> Vec, d: int, traj: seq<Vec>, steps: seq<OlderDriver.Step>, st: OlderDriver.Step, xn: Vec)
    requires RestartsSteepest(grad, d, traj, steps)
    requires |steps| == 0 || (d != 0 && |traj| % d == 0) ==> st.h == Neg(grad(Last(traj)))
    ensures RestartsSteepest(grad, d, traj + [xn], steps + [st])
  {
    var traj2 := traj + [xn];
    var steps2 := steps + [st];
    forall i | 0 <= i < |steps2| && (i == 0 || (d != 0 && (i + 1) % d == 0)) ensures steps2[i].h == Neg(grad(traj2[i])) {
      if i < |steps| {
        assert steps2[i] == steps[i] && traj2[i] == traj[i];
      }
    }
  }

  /** With a restart object of period d, a Fletcher–Reeves run restarts from −∇f at every multiple of d. */
  lemma FrRunRestarts(f: StepSizes.Objective, grad: Vec -> Vec, ss: Option<LegacyStepSize.StepSize>,
                      restart: Restarts.Restart, extra: nat, tol: real, maxIter: int, st: FrState, x0: Vec)
    requires restart.limitDim.Some? && restart.limitDim.value != 0
    ensures var r := OlderDriver.Solve(FrSolver(f, grad, ss, Some(restart), extra), grad, tol, maxIter, st, x0);
      r.Ok? ==> RestartsSteepest(grad, restart.limitDim.value, r.value.trajectory, r.value.steps)
  {
    var d := restart.limitDim.value;
    var o := FrSolver(f, grad, ss, Some(restart), extra);
    var inv := (s: FrState, traj: seq<Vec>, steps: seq<OlderDriver.Step>) => RestartsSteepest(grad, d, traj, steps);
    forall s: FrState, traj: seq<Vec>, steps: seq<OlderDriver.Step> | inv(s, traj, steps) && |traj| > 0
      ensures var dd := o.direction(s, Last(traj), traj);
        dd.Ok? && o.stepSize(dd.value.state, dd.value.h, traj).Ok? ==>
          var z := o.stepSize(dd.value.state, dd.value.h, traj).value;
          inv(z.state, traj + [Add(Last(traj), Scale(z.alpha, dd.value.h))], steps + [OlderDriver.Step(dd.value.h, z.alpha)])
    {
      var dd := o.direction(s, Last(traj), traj);
      if dd.Ok? && o.stepSize(dd.value.state, dd.value.h, traj).Ok? {
        var z := o.stepSize(dd.value.state, dd.value.h, traj).value;
        RestartsSteepestStep(grad, d, traj, steps, OlderDriver.Step(dd.value.h, z.alpha),
                             Add(Last(traj), Scale(z.alpha, dd.value.h)));
      }
    }
    OlderDriver.SolveKeeps(o, inv, grad, tol, maxIter, st, x0);
  }
}

=== FILE: legacy_step_size.dfy ===
/**
 * The step sizes of the top-level step_size.py, used by the solvers of
 * unconstr_solvers.py and unconstr_methods.py: a constant step, an Armijo
 * backtracking that stops quietly below 1e-16 instead of raising, and an
 * exact line search for ½xᵀAx clamped at 0.
 *
 * `get_stepsize(h, x)` takes no keyword arguments, while those solvers call
 * it with their own `**kwargs`; `extra` counts them, and any at all is a
 * TypeError.
 */
module LegacyStepSize {
  import opened Vectors
  import opened Errors
  import StepSizes
  import Bilinear

  /** The keyword parameters of `Backtracking`; `None` is a missing key. */
  datatype Params = Params(initAlpha: Option<real>, rho: Option<real>, beta: Option<real>)

  datatype StepSize =
    | Constant(stepsize: real)
      /** The rule is kept as given; only "Armijo" has a body. */
    | Backtracking(rule: string, par: Params, budget: nat)
    | ExactQuad(A: Mat)

  /** Armijo keeps shrinking while f(x + αh) is NaN or not sufficiently below f(x); a NaN f(x) fails only the first test. */
  predicate Insufficient(f: StepSizes.Objective, x: Vec, h: Vec, fx: Option<real>, gh: real, beta: real, alpha: real) {
    var fa := f(Add(x, Scale(alpha, h)));
    fa.None? || (fx.Some? && fa.value >= fx.value + beta * alpha * gh)
  }

  /**
   * The `while` loop of the Armijo branch: α ← ρα while insufficient,
   * leaving the loop as soon as α < 1e-16.
   */
  function ArmijoShrink(f: StepSizes.Objective, x: Vec, h: Vec, fx: Option<real>, gh: real,
                        rho: real, beta: real, alpha: real, fuel: nat): (r: Result<real>)
    ensures !Insufficient(f, x, h, fx, gh, beta, alpha) ==> r == Ok(alpha)
    ensures Insufficient(f, x, h, fx, gh, beta, alpha) && alpha * rho < StepSizes.Tiny ==> r == Ok(alpha * rho)
    ensures r.Ok? ==> !Insufficient(f, x, h, fx, gh, beta, r.value) || r.value < StepSizes.Tiny
    ensures r.Ok? ==> StepSizes.ShrunkFrom(r.value, alpha, rho)
    ensures r.Ok? ==> StepSizes.FirstShrunk(a => !Insufficient(f, x, h, fx, gh, beta, a), r.value, alpha, rho)
    ensures r.Err? ==> r.error == OutOfFuel
    decreases fuel
  {
    if !Insufficient(f, x, h, fx, gh, beta, alpha) then
      StepSizes.ShrunkNone(alpha, rho);
      StepSizes.FirstAtStart(a => !Insufficient(f, x, h, fx, gh, beta, a), alpha, rho);
      Ok(alpha)
    else
      var a := alpha * rho;
      if a < StepSizes.Tiny then
        StepSizes.ShrunkNone(a, rho);
        StepSizes.ShrunkOnce(a, alpha, rho);
        ShrinkOnceBelow(a => !Insufficient(f, x, h, fx, gh, beta, a), alpha, rho);
        Ok(a)
      else if fuel == 0 then Err(OutOfFuel)
      else
        var r := ArmijoShrink(f, x, h, fx, gh, rho, beta, a, fuel - 1);
        if r.Ok? then
          StepSizes.ShrunkOnce(r.value, alpha, rho);
          StepSizes.FirstBack(a => !Insufficient(f, x, h, fx, gh, beta, a), r.value, alpha, rho);
          r
        else r
  }

  /** The loop returns the first sufficient trial when the budget reaches it. */
  lemma {:induction false} ArmijoShrinkFinds(f: StepSizes.Objective, x: Vec, h: Vec, fx: Option<real>, gh: real,
                                             rho: real, beta: real, alpha: real, fuel: nat, k: nat)
    ensures k <= fuel && StepSizes.FirstAccepted(a => !Insufficient(f, x, h, fx, gh, beta, a), alpha, rho, k) ==>
      ArmijoShrink(f, x, h, fx, gh, rho, beta, alpha, fuel) == Ok(StepSizes.Trial(alpha, rho, k))
    decreases fuel
  {
    var accepts := a => !Insufficient(f, x, h, fx, gh, beta, a);
    if 1 <= k <= fuel && StepSizes.FirstAccepted(accepts, alpha, rho, k) {
      StepSizes.FirstAcceptedStep(accepts, alpha, rho, k);
      StepSizes.TrialShift(alpha, rho, k - 1);
      ArmijoShrinkFinds(f, x, h, fx, gh, rho, beta, alpha * rho, fuel - 1, k - 1);
    }
  }

  /** Where the source's loop breaks below 1e-16 without raising, the model returns that shrink. */
  lemma {:induction false} ArmijoShrinkUnderflows(f: StepSizes.Objective, x: Vec, h: Vec, fx: Option<real>, gh: real,
                                                  rho: real, beta: real, alpha: real, fuel: nat, k: nat)
    ensures k <= fuel + 1 && StepSizes.UnderflowsAt(a => !Insufficient(f, x, h, fx, gh, beta, a), alpha, rho, k) ==>
      ArmijoShrink(f, x, h, fx, gh, rho, beta, alpha, fuel) == Ok(StepSizes.Trial(alpha, rho, k))
    decreases fuel
  {
    var accepts := a => !Insufficient(f, x, h, fx, gh, beta, a);
    if k <= fuel + 1 && StepSizes.UnderflowsAt(accepts, alpha, rho, k) {
      StepSizes.UnderflowsAtStep(accepts, alpha, rho, k);
      StepSizes.TrialShift(alpha, rho, k - 1);
      if k >= 2 {
        ArmijoShrinkUnderflows(f, x, h, fx, gh, rho, beta, alpha * rho, fuel - 1, k - 1);
      }
    }
  }

  /** The trial budget runs out exactly when fuel + 1 trials are insufficient without an underflow. */
  lemma {:induction false} ArmijoShrinkRunsOut(f: StepSizes.Objective, x: Vec, h: Vec, fx: Option<real>, gh: real,
                                               rho: real, beta: real, alpha: real, fuel: nat)
    ensures StepSizes.RanOut(a => !Insufficient(f, x, h, fx, gh, beta, a), alpha, rho, fuel) <==>
      ArmijoShrink(f, x, h, fx, gh, rho, beta, alpha, fuel) == Err(OutOfFuel)
    decreases fuel
  {
    var accepts := a => !Insufficient(f, x, h, fx, gh, beta, a);
    if fuel == 0 {
      StepSizes.RanOutStep(accepts, alpha, rho, 0);
    } else {
      StepSizes.RanOutStep(accepts, alpha, rho, fuel - 1);
      ArmijoShrinkRunsOut(f, x, h, fx, gh, rho, beta, alpha * rho, fuel - 1);
    }
  }

  /** One rejected trial, then the shrink that leaves the loop below 1e-16. */
  lemma ShrinkOnceBelow(accepts: real -> bool, alpha: real, rho: real)
    requires !accepts(alpha)
    ensures StepSizes.FirstShrunk(accepts, alpha * rho, alpha, rho)
  {
    assert alpha * rho == StepSizes.Trial(alpha, rho, 1);
    assert forall j: nat | j < 1 :: !accepts(StepSizes.Trial(alpha, rho, j)) && (j == 0 || StepSizes.Trial(alpha, rho, j) >= StepSizes.Tiny);
  }

  /**
   * `ExactLineSearch4Quad.get_stepsize(h, x)`: max(0, −x·Ah / h·Ah). When
   * h·Ah = 0 numpy divides into ±inf or nan; `max(0, ·)` keeps 0 for −inf
   * and nan and returns +inf, a non-finite step, when x·Ah < 0.
   */
  function ClampedStep(A: Mat, h: Vec, x: Vec): (r: Result<real>)
    ensures r.Err? <==> Quad(h, A, h) == 0.0 && Quad(x, A, h) < 0.0
    ensures r.Err? ==> r.error == NonFinite
    ensures r.Ok? ==> r.value >= 0.0
    ensures r.Ok? && r.value > 0.0 ==> r.value * Quad(h, A, h) == - Quad(x, A, h)
    ensures r.Ok? && r.value == 0.0 && Quad(h, A, h) > 0.0 ==> Quad(x, A, h) >= 0.0
  {
    var n := - Quad(x, A, h);
    var d := Quad(h, A, h);
    if d == 0.0 then
      if n > 0.0 then Err(NonFinite) else Ok(0.0)
    else
      var q := n / d;
      StepSizes.QuotientTimes(n, d, q);
      if q > 0.0 then Ok(q) else Ok(0.0)
  }

  /** ½(x + αh)ᵀA(x + αh), the quadratic the exact search minimises along h. */
  function Energy(A: Mat, x: Vec, h: Vec, alpha: real): real {
    var p := Add(x, Scale(alpha, h));
    0.5 * Quad(p, A, p)
  }

  /** (x + αh)·(u + αv) expanded. */
  lemma DotOfSums(x: Vec, h: Vec, u: Vec, v: Vec, a: real)
    ensures Dot(Add(x, Scale(a, h)), Add(u, Scale(a, v)))
         == Dot(x, u) + a * Dot(x, v) + a * Dot(h, u) + a * (a * Dot(h, v))
  {
    var w := Add(u, Scale(a, v));
    DotAddLeft(x, Scale(a, h), w);
    DotScaleLeft(a, h, w);
    DotAddRight(x, u, Scale(a, v));
    DotScaleRight(a, x, v);
    DotAddRight(h, u, Scale(a, v));
    DotScaleRight(a, h, v);
    Collect(a, Dot(x, u), Dot(x, v), Dot(h, u), Dot(h, v), Dot(x, w), Dot(h, w));
  }

  lemma Collect(a: real, xu: real, xv: real, hu: real, hv: real, xw: real, hw: real)
    requires xw == xu + a * xv && hw == hu + a * hv
    ensures xw + a * hw == xu + a * xv + a * hu + a * (a * hv)
  {
  }

  /** For symmetric A the energy along h is a parabola in α with linear coefficient x·Ah. */
  lemma EnergyParabola(A: Mat, x: Vec, h: Vec, a: real)
    requires Symmetric(A)
    ensures 2.0 * Energy(A, x, h, a) == Quad(x, A, x) + 2.0 * a * Quad(x, A, h) + a * (a * Quad(h, A, h))
  {
    Bilinear.QuadSymmetric(h, A, x);
    EnergyWithSymmetricCross(A, x, h, a);
  }

  lemma EnergyWithSymmetricCross(A: Mat, x: Vec, h: Vec, a: real)
    requires Quad(h, A, x) == Quad(x, A, h)
    ensures 2.0 * Energy(A, x, h, a) == Quad(x, A, x) + 2.0 * a * Quad(x, A, h) + a * (a * Quad(h, A, h))
  {
    var p := Add(x, Scale(a, h));
    QuadAlongLine(A, x, h, a);
    Parabola(Quad(p, A, p), Quad(x, A, x), Quad(x, A, h), Quad(h, A, x), Quad(h, A, h), a);
  }

  /** (x + αh)ᵀA(x + αh) expanded, without symmetry. */
  lemma QuadAlongLine(A: Mat, x: Vec, h: Vec, a: real)
    ensures var p := Add(x, Scale(a, h));
      Quad(p, A, p) == Quad(x, A, x) + a * Quad(x, A, h) + a * Quad(h, A, x) + a * (a * Quad(h, A, h))
  {
    var p := Add(x, Scale(a, h));
    var u, v := MatVec(A, x), MatVec(A, h);
    MatVecAlongLine(A, x, h, a);
    DotOfSums(x, h, u, v, a);
    Relabel(Dot(p, Add(u, Scale(a, v))), Dot(x, u), Dot(x, v), Dot(h, u), Dot(h, v),
            Quad(p, A, p), Quad(x, A, x), Quad(x, A, h), Quad(h, A, x), Quad(h, A, h), a);
  }

  lemma Relabel(pp: real, xx: real, xh: real, hx: real, hh: real,
                pp': real, xx': real, xh': real, hx': real, hh': real, a: real)
    requires pp == xx + a * xh + a * hx + a * (a * hh)
    requires pp' == pp && xx' == xx && xh' == xh && hx' == hx && hh' == hh
    ensures pp' == xx' + a * xh' + a * hx' + a * (a * hh')
  {
  }

  lemma Parabola(pp: real, xx: real, xh: real, hx: real, hh: real, a: real)
    requires pp == xx + a * xh + a * hx + a * (a * hh) && hx == xh
    ensures 2.0 * (0.5 * pp) == xx + 2.0 * a * xh + a * (a * hh)
  {
  }

  /** The clamped vertex max(0, c) of d·α² − 2dc·α minimises it over α ≥ 0 when d > 0. */
  lemma ClampedVertex(d: real, p: real, s: real, a: real)
    requires d > 0.0 && a >= 0.0 && s >= 0.0
    requires s > 0.0 ==> s * d == - p
    requires s == 0.0 ==> p >= 0.0
    ensures 2.0 * s * p + s * (s * d) <= 2.0 * a * p + a * (a * d)
  {
    if s > 0.0 {
      assert p == - (s * d);
      assert 2.0 * a * p + a * (a * d) - (2.0 * s * p + s * (s * d)) == d * ((a - s) * (a - s));
      SquareScaled(d, a - s);
    } else {
      assert a * p >= 0.0;
      assert a * (a * d) >= 0.0;
    }
  }

  lemma SquareScaled(d: real, t: real)
    requires d > 0.0
    ensures d * (t * t) >= 0.0
  {
    assert t * t >= 0.0;
  }

  /**
   * For symmetric A with h·Ah > 0 the clamped exact step minimises
   * ½(x + αh)ᵀA(x + αh) over all α ≥ 0.
   */
  lemma ClampedStepMinimises(A: Mat, x: Vec, h: Vec, a: real)
    requires Symmetric(A) && Quad(h, A, h) > 0.0 && a >= 0.0
    ensures ClampedStep(A, h, x).Ok?
    ensures Energy(A, x, h, ClampedStep(A, h, x).value) <= Energy(A, x, h, a)
  {
    Bilinear.QuadSymmetric(h, A, x);
    MinimisesWithSymmetricCross(A, x, h, a);
  }

  lemma MinimisesWithSymmetricCross(A: Mat, x: Vec, h: Vec, a: real)
    requires Quad(h, A, x) == Quad(x, A, h) && Quad(h, A, h) > 0.0 && a >= 0.0
    ensures ClampedStep(A, h, x).Ok?
    ensures Energy(A, x, h, ClampedStep(A, h, x).value) <= Energy(A, x, h, a)
  {
    EnergyWithSymmetricCross(A, x, h, ClampedStep(A, h, x).value);
    EnergyWithSymmetricCross(A, x, h, a);
    MinCore(Energy(A, x, h, ClampedStep(A, h, x).value), Energy(A, x, h, a),
            Quad(x, A, x), Quad(x, A, h), Quad(h, A, h), ClampedStep(A, h, x).value, a);
  }

  /** The scalar core of the minimiser argument. */
  lemma MinCore(es: real, ea: real, xx: real, p: real, d: real, s: real, a: real)
    requires d > 0.0 && a >= 0.0 && s >= 0.0
    requires s > 0.0 ==> s * d == - p
    requires s == 0.0 ==> p >= 0.0
    requires 2.0 * es == xx + 2.0 * s * p + s * (s * d)
    requires 2.0 * ea == xx + 2.0 * a * p + a * (a * d)
    ensures es <= ea
  {
    ClampedVertex(d, p, s, a);
    CompareEnergies(es, ea, xx, p, d, s, a);
  }

  lemma CompareEnergies(es: real, ea: real, xx: real, p: real, d: real, s: real, a: real)
    requires 2.0 * es == xx + 2.0 * s * p + s * (s * d)
    requires 2.0 * ea == xx + 2.0 * a * p + a * (a * d)
    requires 2.0 * s * p + s * (s * d) <= 2.0 * a * p + a * (a * d)
    ensures es <= ea
  {
  }

  /** `get_stepsize(h, x, **kwargs)` of the legacy classes; `Ok(None)` is Python's None. */
  function GetStepsize(ss: StepSize, f: StepSizes.Objective, grad: Vec -> Vec, h: Vec, x: Vec, extra: nat): (r: Result<Option<real>>)
    ensures extra > 0 ==> r == Err(TypeError)
    ensures extra == 0 && ss.Constant? ==> r == Ok(Some(ss.stepsize))
    ensures extra == 0 && ss.Backtracking? && ss.par.initAlpha.None? ==> r == Err(KeyError("init_alpha"))
    ensures extra == 0 && ss.Backtracking? && ss.par.initAlpha.Some? && ss.rule != "Armijo" ==> r == Ok(None)
    ensures r.Ok? && ss.Backtracking? && ss.rule == "Armijo" ==>
      && ss.par.initAlpha.Some? && ss.par.rho.Some? && ss.par.beta.Some? && r.value.Some?
      && StepSizes.ShrunkFrom(r.value.value, ss.par.initAlpha.value, ss.par.rho.value)
      && (!Insufficient(f, x, h, f(x), Dot(grad(x), h), ss.par.beta.value, r.value.value)
          || r.value.value < StepSizes.Tiny)
      && StepSizes.FirstShrunk(a => !Insufficient(f, x, h, f(x), Dot(grad(x), h), ss.par.beta.value, a),
                               r.value.value, ss.par.initAlpha.value, ss.par.rho.value)
    ensures r.Err? && ss.Backtracking? && extra == 0 ==> r.error.KeyError? || r.error == OutOfFuel
    ensures extra == 0 && ss.ExactQuad? ==>
      && (r.Ok? <==> ClampedStep(ss.A, h, x).Ok?)
      && (r.Ok? ==> r.value == Some(ClampedStep(ss.A, h, x).value))
  {
    if extra > 0 then Err(TypeError)
    else
      match ss
      case Constant(c) => Ok(Some(c))
      case Backtracking(rule, par, budget) =>
        var alpha :- StepSizes.Need(par.initAlpha, "init_alpha");
        if rule == "Armijo" then
          var rho :- StepSizes.Need(par.rho, "rho");
          var beta :- StepSizes.Need(par.beta, "beta");
          var a :- ArmijoShrink(f, x, h, f(x), Dot(grad(x), h), rho, beta, alpha, budget);
          Ok(Some(a))
        else Ok(None)
      case ExactQuad(A) =>
        var a :- ClampedStep(A, h, x);
        Ok(Some(a))
  }

  /**
   * The Armijo branch returns the first sufficient shrink of init_alpha, or
   * the first shrink below 1e-16, and exhausts the budget only when neither
   * comes within it.
   */
  lemma GetStepsizeArmijo(ss: StepSize, f: StepSizes.Objective, grad: Vec -> Vec, h: Vec, x: Vec, k: nat)
    ensures ss.Backtracking? && ss.rule == "Armijo" &&
            ss.par.initAlpha.Some? && ss.par.rho.Some? && ss.par.beta.Some? ==>
      var a0, rho, beta := ss.par.initAlpha.value, ss.par.rho.value, ss.par.beta.value;
      var accepts := a => !Insufficient(f, x, h, f(x), Dot(grad(x), h), beta, a);
      var r := GetStepsize(ss, f, grad, h, x, 0);
      && (k <= ss.budget && StepSizes.FirstAccepted(accepts, a0, rho, k) ==> r == Ok(Some(StepSizes.Trial(a0, rho, k))))
      && (k <= ss.budget + 1 && StepSizes.UnderflowsAt(accepts, a0, rho, k) ==> r == Ok(Some(StepSizes.Trial(a0, rho, k))))
      && (StepSizes.RanOut(accepts, a0, rho, ss.budget) <==> r == Err(OutOfFuel))
  {
    if ss.Backtracking? && ss.rule == "Armijo" && ss.par.initAlpha.Some? && ss.par.rho.Some? && ss.par.beta.Some? {
      var a0, rho, beta := ss.par.initAlpha.value, ss.par.rho.value, ss.par.beta.value;
      ArmijoShrinkFinds(f, x, h, f(x), Dot(grad(x), h), rho, beta, a0, ss.budget, k);
      ArmijoShrinkUnderflows(f, x, h, f(x), Dot(grad(x), h), rho, beta, a0, ss.budget, k);
      ArmijoShrinkRunsOut(f, x, h, f(x), Dot(grad(x), h), rho, beta, a0, ss.budget);
    }
  }

  /** A legacy constant step ignores the direction and the point. */
  lemma ConstantIgnoresInputs(c: real, f: StepSizes.Objective, grad: Vec -> Vec, h: Vec, x: Vec, h': Vec, x': Vec)
    ensures GetStepsize(Constant(c), f, grad, h, x, 0) == GetStepsize(Constant(c), f, grad, h', x', 0) == Ok(Some(c))
  {
  }
}

=== FILE: older_driver.dfy ===
/**
 * The check-after-step drivers: `LineSearchOptimizer.solve` of
 * liboptpy/unconstr_solvers/base_optimizer.py and `DescentMethod.solve` of
 * unconstr_solvers.py and unconstr_methods.py. The three loops are the same;
 * they differ only in the arguments their `get_stepsize(h)` forwards to the
 * step-size object, so the loop is written once over an `Older` record of
 * the two overridable methods.
 *
 * Unlike the driver of liboptpy/base_optimizer.py, these loops step first and
 * test convergence afterwards, so every solve takes at least one step.
 */
module OlderDriver {
  import opened Vectors
  import opened Errors
  import Driver
  import StepSizes

  /** What `get_direction(x)` returns, with the strategy state after the call. */
  datatype Directed<S> = Directed(state: S, h: Vec)

  /** What `get_stepsize(h)` returns, with the strategy state after the call. */
  datatype Sized<S> = Sized(state: S, alpha: real)

  /**
   * The overridable methods; both may read the trajectory `self.convergence`,
   * and the direction is asked at the current point.
   */
  datatype Older<!S> = Older(
    direction: (S, Vec, seq<Vec>) -> Result<Directed<S>>,
    stepSize: (S, Vec, seq<Vec>) -> Result<Sized<S>>)

  /** One completed iteration: the direction and the step length used. */
  datatype Step = Step(h: Vec, alpha: real)

  /** A finished `solve`: the returned point, the trajectory, the steps and the strategy state. */
  datatype Run<S> = Run(x: Vec, trajectory: seq<Vec>, steps: seq<Step>, state: S)

  /** `check_convergence(tol)`: ‖∇f(convergence[-1])‖ < tol. */
  predicate Converged(grad: Vec -> Vec, tol: real, x: Vec) {
    NormLess(grad(x), tol)
  }

  /** Every point after the first is its predecessor plus alpha*h. */
  ghost predicate Generated(traj: seq<Vec>, steps: seq<Step>) {
    && |traj| == |steps| + 1
    && forall i | 0 <= i < |steps| :: traj[i + 1] == Add(traj[i], Scale(steps[i].alpha, steps[i].h))
  }

  lemma GeneratedStep(traj: seq<Vec>, steps: seq<Step>, st: Step)
    requires Generated(traj, steps)
    ensures Generated(traj + [Add(Last(traj), Scale(st.alpha, st.h))], steps + [st])
  {
    var traj2 := traj + [Add(Last(traj), Scale(st.alpha, st.h))];
    forall i | 0 <= i < |steps| + 1
      ensures traj2[i + 1] == Add(traj2[i], Scale((steps + [st])[i].alpha, (steps + [st])[i].h))
    {
      if i < |steps| {
        assert traj2[i + 1] == traj[i + 1];
      }
    }
  }

  /**
   * The `while True` loop from the top of one pass: direction, step,
   * x := x + alpha*h, append, count, then stop at convergence or the cap.
   */
  function Loop<S(!new)>(o: Older<S>, grad: Vec -> Vec, tol: real, maxIter: int,
                         s: S, traj: seq<Vec>, steps: seq<Step>): (r: Result<Run<S>>)
    requires Generated(traj, steps) && |steps| < Driver.Cap(maxIter)
    decreases Driver.Cap(maxIter) - |steps|
    ensures r.Ok? ==>
      && Generated(r.value.trajectory, r.value.steps)
      && |steps| < |r.value.steps| <= Driver.Cap(maxIter)
      && r.value.trajectory[..|traj|] == traj
      && r.value.steps[..|steps|] == steps
      && r.value.x == Last(r.value.trajectory)
      && (|r.value.steps| < Driver.Cap(maxIter) ==> Converged(grad, tol, r.value.x))
      && (forall j | |traj| <= j < |r.value.trajectory| - 1 :: !Converged(grad, tol, r.value.trajectory[j]))
  {
    var d :- o.direction(s, Last(traj), traj);
    var z :- o.stepSize(d.state, d.h, traj);
    var xn := Add(Last(traj), Scale(z.alpha, d.h));
    var traj2 := traj + [xn];
    var steps2 := steps + [Step(d.h, z.alpha)];
    GeneratedStep(traj, steps, Step(d.h, z.alpha));
    if Converged(grad, tol, xn) || |steps2| >= maxIter then
      Ok(Run(xn, traj2, steps2, z.state))
    else
      var r :- Loop(o, grad, tol, maxIter, z.state, traj2, steps2);
      assert r.trajectory[..|traj|] == r.trajectory[..|traj2|][..|traj|];
      assert r.steps[..|steps|] == r.steps[..|steps2|][..|steps|];
      assert r.trajectory[|traj|] == xn;
      Ok(r)
  }

  /**
   * `solve(x0, max_iter, tol)`: the trajectory restarts at [x0]; at least one
   * and at most max(max_iter, 1) steps are taken, and the loop stops at the
   * first point whose gradient is small enough.
   */
  function Solve<S(!new)>(o: Older<S>, grad: Vec -> Vec, tol: real, maxIter: int, s: S, x0: Vec): (r: Result<Run<S>>)
    ensures r.Ok? ==>
      && Generated(r.value.trajectory, r.value.steps)
      && r.value.trajectory[0] == x0
      && 1 <= |r.value.steps| <= Driver.Cap(maxIter)
      && r.value.x == Last(r.value.trajectory)
      && (|r.value.steps| < Driver.Cap(maxIter) ==> Converged(grad, tol, r.value.x))
      && (forall j | 1 <= j < |r.value.trajectory| - 1 :: !Converged(grad, tol, r.value.trajectory[j]))
  {
    var r := Loop(o, grad, tol, maxIter, s, [x0], []);
    if r.Ok? then
      assert r.value.trajectory[..1] == [x0];
      r
    else r
  }

  /**
   * A property of the strategy state, the trajectory and the steps taken
   * that one pass of the loop preserves: direction, step, then the new
   * point x + alpha*h appended.
   */
  ghost predicate Preserves<S(!new)>(o: Older<S>, Inv: (S, seq<Vec>, seq<Step>) -> bool) {
    forall s, traj, steps | Inv(s, traj, steps) && |traj| > 0 ::
      var d := o.direction(s, Last(traj), traj);
      d.Ok? && o.stepSize(d.value.state, d.value.h, traj).Ok? ==>
        var z := o.stepSize(d.value.state, d.value.h, traj).value;
        Inv(z.state, traj + [Add(Last(traj), Scale(z.alpha, d.value.h))], steps + [Step(d.value.h, z.alpha)])
  }

  /** A preserved property holds of the finished run. */
  lemma {:induction false} LoopKeeps<S(!new)>(o: Older<S>, Inv: (S, seq<Vec>, seq<Step>) -> bool, grad: Vec -> Vec,
                                              tol: real, maxIter: int, s: S, traj: seq<Vec>, steps: seq<Step>)
    requires Generated(traj, steps) && |steps| < Driver.Cap(maxIter)
    requires Preserves(o, Inv) && Inv(s, traj, steps)
    decreases Driver.Cap(maxIter) - |steps|
    ensures var r := Loop(o, grad, tol, maxIter, s, traj, steps);
      r.Ok? ==> Inv(r.value.state, r.value.trajectory, r.value.steps)
  {
    var d := o.direction(s, Last(traj), traj);
    if d.Ok? {
      var z := o.stepSize(d.value.state, d.value.h, traj);
      if z.Ok? {
        var xn := Add(Last(traj), Scale(z.value.alpha, d.value.h));
        var steps2 := steps + [Step(d.value.h, z.value.alpha)];
        GeneratedStep(traj, steps, Step(d.value.h, z.value.alpha));
        if !(Converged(grad, tol, xn) || |steps2| >= maxIter) {
          LoopKeeps(o, Inv, grad, tol, maxIter, z.value.state, traj + [xn], steps2);
        }
      }
    }
  }

  /** `LoopKeeps` for a whole solve. */
  lemma SolveKeeps<S(!new)>(o: Older<S>, Inv: (S, seq<Vec>, seq<Step>) -> bool, grad: Vec -> Vec,
                            tol: real, maxIter: int, s: S, x0: Vec)
    requires Preserves(o, Inv) && Inv(s, [x0], [])
    ensures var r := Solve(o, grad, tol, maxIter, s, x0);
      r.Ok? ==> Inv(r.value.state, r.value.trajectory, r.value.steps)
  {
    LoopKeeps(o, Inv, grad, tol, maxIter, s, [x0], []);
  }

  /** With a tolerance that is not positive nothing converges, so the cap decides. */
  lemma SolveRunsToCap<S(!new)>(o: Older<S>, grad: Vec -> Vec, tol: real, maxIter: int, s: S, x0: Vec)
    requires tol <= 0.0
    ensures Solve(o, grad, tol, maxIter, s, x0).Ok? ==>
      |Solve(o, grad, tol, maxIter, s, x0).value.steps| == Driver.Cap(maxIter)
  {
  }

  // ------------------------------------------- liboptpy/unconstr_solvers/base_optimizer.py

  /**
   * The step-size object of this driver generation: the constructor calls
   * `assign_function(f, grad)` with two arguments, which `Backtracking`
   * (whose `assign_function` also wants the update function) rejects.
   */
  function Construct(ss: StepSizes.StepSize): (r: Result<StepSizes.StepSize>)
    ensures r.Err? <==> ss.Backtracking?
    ensures r.Err? ==> r.error == TypeError
    ensures r.Ok? ==> r.value == ss
  {
    if ss.Backtracking? then Err(TypeError) else Ok(ss)
  }

  /**
   * The base class's `get_stepsize(h)`: `get_stepsize(h, convergence[-1],
   * len(convergence))`, the 1-based iteration index.
   */
  function BaseStepSize(ss: StepSizes.StepSize, f: StepSizes.Objective, grad: Vec -> Vec,
                        h: Vec, traj: seq<Vec>): Result<StepSizes.Taken>
    requires |traj| > 0
  {
    StepSizes.Take(ss, f, grad, PlainUpdate, h, Last(traj), |traj|)
  }

  /** A constant rule returns its constant and keeps its state. */
  lemma BaseConstant(ss: StepSizes.StepSize, f: StepSizes.Objective, grad: Vec -> Vec, h: Vec, traj: seq<Vec>)
    requires |traj| > 0 && ss.Constant?
    ensures BaseStepSize(ss, f, grad, h, traj) == Ok(StepSizes.Taken(ss, ss.stepsize))
  {
    assert StepSizes.GetStepsize(ss, f, grad, PlainUpdate, h, Last(traj), |traj|) == Ok(StepSizes.Stepped(ss, Some(ss.stepsize)));
  }

  /** The 1/k rule uses the number of recorded points as k. */
  lemma BaseInvIter(ss: StepSizes.StepSize, f: StepSizes.Objective, grad: Vec -> Vec, h: Vec, traj: seq<Vec>)
    requires |traj| > 0 && ss.InvIter?
    ensures BaseStepSize(ss, f, grad, h, traj) == Ok(StepSizes.Taken(ss, 1.0 / (|traj| as real)))
  {
    assert StepSizes.GetStepsize(ss, f, grad, PlainUpdate, h, Last(traj), |traj|)
        == Ok(StepSizes.Stepped(ss, Some(1.0 / (|traj| as real))));
  }

  /** The exact rule for a quadratic is exact along h from `convergence[-1]`. */
  lemma BaseExact(ss: StepSizes.StepSize, f: StepSizes.Objective, grad: Vec -> Vec, h: Vec, traj: seq<Vec>)
    requires |traj| > 0 && ss.ExactQuad?
    ensures var r := BaseStepSize(ss, f, grad, h, traj);
      r.Ok? ==> Dot(Sub(MatVec(ss.A, Add(Last(traj), Scale(r.value.alpha, h))), ss.b), h) == 0.0
  {
    var g := StepSizes.GetStepsize(ss, f, grad, PlainUpdate, h, Last(traj), |traj|);
    assert g.Ok? ==> g.value.alpha.Some?;
  }

  /** The update a step-size object of this generation would search along: x + a*d. */
  function PlainUpdate(x: Vec, a: real, d: Vec): Vec {
    Add(x, Scale(a, d))
  }

  const TrustRegionMsg: string := "Trust region methods are not implemented yet"

  /** `TrustRegionOptimizer()`: the constructor always raises. */
  function ConstructTrustRegion(): (r: Result<bool>)
    ensures r.Err? && r.error.NotImplementedError?
    ensures r.error.msg == TrustRegionMsg
  {
    Err(NotImplementedError(TrustRegionMsg))
  }
}

=== FILE: quasi_newton.dfy ===
/**
 * The quasi-Newton strategies BFGS and DFP and the gradient-memory
 * Barzilai–Borwein method of liboptpy/unconstr_solvers/fo/_quasi_newton.py,
 * as hooks of the check-before-step driver.
 *
 * The inverse-Hessian estimate H is `None` until the first update. numpy
 * turns a division by zero into inf or nan without raising; the model stops
 * there with `NonFinite`.
 */
module QuasiNewton {
  import opened Vectors
  import opened Errors
  import StepSizes
  import Driver
  import BarzilaiBorwein

  // ------------------------------------------------------------ the updates

  /** `rho = 1. / y.dot(s)`. */
  function Curvature(s: Vec, y: Vec): (r: Result<real>)
    ensures r.Err? <==> Dot(y, s) == 0.0
    ensures r.Err? ==> r.error == NonFinite
    ensures r.Ok? ==> r.value * Dot(y, s) == 1.0
  {
    if Dot(y, s) == 0.0 then Err(NonFinite) else Ok(1.0 / Dot(y, s))
  }

  /** `np.eye(n) / y.dot(y) / rho`: the identity scaled by (y·s)/(y·y). */
  function InitialEstimate(n: nat, s: Vec, y: Vec): (r: Result<Mat>)
    ensures r.Err? <==> Dot(y, y) == 0.0
    ensures r.Err? ==> r.error == NonFinite
    ensures r.Ok? ==> Symmetric(r.value)
    ensures r.Ok? ==> forall i: nat, j: nat ::
      At2(r.value, i, j) * Dot(y, y) == if i == j && i < n then Dot(y, s) else 0.0
  {
    if Dot(y, y) == 0.0 then Err(NonFinite)
    else
      var c := Dot(y, s) / Dot(y, y);
      var m := MScale(c, Identity(n));
      assert forall i: nat, j: nat :: At2(m, i, j) == c * (if i == j && i < n then 1.0 else 0.0);
      Ok(m)
  }

  /**
   * The BFGS formula ρ·ssᵀ + H − ρ·p sᵀ − ρ·s pᵀ + c·ssᵀ, where the source
   * has p = Hy and c = ρ²·(y·Hy); `Hys.T` is the outer product s pᵀ.
   */
  function BfgsFormula(H: Mat, s: Vec, p: Vec, rho: real, c: real): Mat {
    MAdd(MSub(MSub(MAdd(MScale(rho, Outer(s, s)), H), MScale(rho, Outer(p, s))), MScale(rho, Outer(s, p))),
         MScale(c, Outer(s, s)))
  }

  /** The DFP formula H − k·p pᵀ + ρ·ssᵀ, where the source has p = Hy and k = 1/(y·Hy). */
  function DfpFormula(H: Mat, s: Vec, p: Vec, rho: real, k: real): Mat {
    MAdd(MSub(H, MScale(k, Outer(p, p))), MScale(rho, Outer(s, s)))
  }

  lemma AddAt2(a: Mat, b: Mat, i: nat, j: nat)
    ensures At2(MAdd(a, b), i, j) == At2(a, i, j) + At2(b, i, j)
  {
  }

  lemma SubAt2(a: Mat, b: Mat, i: nat, j: nat)
    ensures At2(MSub(a, b), i, j) == At2(a, i, j) - At2(b, i, j)
  {
  }

  lemma ScaledOuterAt2(c: real, u: Vec, v: Vec, i: nat, j: nat)
    ensures At2(MScale(c, Outer(u, v)), i, j) == c * (At(u, i) * At(v, j))
  {
  }

  lemma BfgsEntry(H: Mat, s: Vec, p: Vec, rho: real, c: real, i: nat, j: nat)
    ensures At2(BfgsFormula(H, s, p, rho, c), i, j)
      == rho * (At(s, i) * At(s, j)) + At2(H, i, j) - rho * (At(p, i) * At(s, j))
         - rho * (At(s, i) * At(p, j)) + c * (At(s, i) * At(s, j))
  {
    var M1 := MAdd(MScale(rho, Outer(s, s)), H);
    var M2 := MSub(M1, MScale(rho, Outer(p, s)));
    var M3 := MSub(M2, MScale(rho, Outer(s, p)));
    AddAt2(M3, MScale(c, Outer(s, s)), i, j);
    SubAt2(M2, MScale(rho, Outer(s, p)), i, j);
    SubAt2(M1, MScale(rho, Outer(p, s)), i, j);
    AddAt2(MScale(rho, Outer(s, s)), H, i, j);
    ScaledOuterAt2(rho, s, s, i, j);
    ScaledOuterAt2(rho, p, s, i, j);
    ScaledOuterAt2(rho, s, p, i, j);
    ScaledOuterAt2(c, s, s, i, j);
  }

  /** The BFGS update keeps a symmetric estimate symmetric. */
  lemma BfgsSymmetric(H: Mat, s: Vec, p: Vec, rho: real, c: real)
    ensures Symmetric(H) ==> Symmetric(BfgsFormula(H, s, p, rho, c))
  {
    if Symmetric(H) {
      forall i: nat, j: nat
        ensures At2(BfgsFormula(H, s, p, rho, c), i, j) == At2(BfgsFormula(H, s, p, rho, c), j, i)
      {
        BfgsEntry(H, s, p, rho, c, i, j);
        BfgsEntry(H, s, p, rho, c, j, i);
      }
    }
  }

  /** The DFP update keeps a symmetric estimate symmetric. */
  lemma DfpSymmetric(H: Mat, s: Vec, p: Vec, rho: real, k: real)
    ensures Symmetric(H) ==> Symmetric(DfpFormula(H, s, p, rho, k))
  {
    if !Symmetric(H) {
      return;
    }
    SymmetricOuterSelf(p);
    SymmetricOuterSelf(s);
    SymmetricScale(k, Outer(p, p));
    SymmetricScale(rho, Outer(s, s));
    SymmetricSub(H, MScale(k, Outer(p, p)));
    SymmetricAdd(MSub(H, MScale(k, Outer(p, p))), MScale(rho, Outer(s, s)));
  }

  lemma ScaledOuterApplied(c: real, u: Vec, v: Vec, y: Vec, i: nat)
    ensures At(MatVec(MScale(c, Outer(u, v)), y), i) == c * (Dot(y, v) * At(u, i))
  {
    ScaledApplied(c, Outer(u, v), y, i);
    OuterApplied(u, v, y, i);
  }

  /** Entry i of (c·m)·y is c times entry i of m·y. */
  lemma ScaledApplied(c: real, m: Mat, y: Vec, i: nat)
    ensures At(MatVec(MScale(c, m), y), i) == c * At(MatVec(m, y), i)
  {
    MatVecScaleMat(c, m, y);
    assert At(MatVec(MScale(c, m), y), i) == At(Scale(c, MatVec(m, y)), i);
  }

  /** Entry i of (u vᵀ)·y is (y·v) times entry i of u. */
  lemma OuterApplied(u: Vec, v: Vec, y: Vec, i: nat)
    ensures At(MatVec(Outer(u, v), y), i) == Dot(y, v) * At(u, i)
  {
    MatVecOuter(u, v, y);
    assert At(MatVec(Outer(u, v), y), i) == At(Scale(Dot(v, y), u), i);
    DotComm(v, y);
  }


  lemma MatVecAddAt(a: Mat, b: Mat, y: Vec, i: nat)
    ensures At(MatVec(MAdd(a, b), y), i) == At(MatVec(a, y), i) + At(MatVec(b, y), i)
  {
    MatVecAddMat(a, b, y);
  }

  lemma MatVecSubAt(a: Mat, b: Mat, y: Vec, i: nat)
    ensures At(MatVec(MSub(a, b), y), i) == At(MatVec(a, y), i) - At(MatVec(b, y), i)
  {
    MatVecSubMat(a, b, y);
  }

  /** Entry i of the BFGS formula applied to y. */
  lemma BfgsApplied(H: Mat, s: Vec, p: Vec, rho: real, c: real, y: Vec, i: nat)
    ensures At(MatVec(BfgsFormula(H, s, p, rho, c), y), i)
      == rho * (Dot(y, s) * At(s, i)) + At(MatVec(H, y), i) - rho * (Dot(y, s) * At(p, i))
         - rho * (Dot(y, p) * At(s, i)) + c * (Dot(y, s) * At(s, i))
  {
    var M1 := MAdd(MScale(rho, Outer(s, s)), H);
    var M2 := MSub(M1, MScale(rho, Outer(p, s)));
    var M3 := MSub(M2, MScale(rho, Outer(s, p)));
    MatVecAddAt(M3, MScale(c, Outer(s, s)), y, i);
    MatVecSubAt(M2, MScale(rho, Outer(s, p)), y, i);
    MatVecSubAt(M1, MScale(rho, Outer(p, s)), y, i);
    MatVecAddAt(MScale(rho, Outer(s, s)), H, y, i);
    ScaledOuterApplied(rho, s, s, y, i);
    ScaledOuterApplied(rho, p, s, y, i);
    ScaledOuterApplied(rho, s, p, y, i);
    ScaledOuterApplied(c, s, s, y, i);
  }

  lemma BfgsCancel(e: real, rho: real, sy: real, a: real, b: real, hy: real, d: real, c: real)
    requires rho * sy == 1.0 && hy == b && c == rho * rho * d
    requires e == rho * (sy * a) + hy - rho * (sy * b) - rho * (d * a) + c * (sy * a)
    ensures e == a
  {
    assert rho * (sy * a) == a;
    assert rho * (sy * b) == b;
    assert c * (sy * a) == rho * d * a;
  }

  lemma BfgsSecantAt(H: Mat, s: Vec, y: Vec, rho: real, p: Vec, c: real, i: nat)
    requires p == MatVec(H, y) && c == rho * rho * Dot(y, p)
    requires rho * Dot(y, s) == 1.0
    ensures At(MatVec(BfgsFormula(H, s, p, rho, c), y), i) == At(s, i)
  {
    BfgsApplied(H, s, p, rho, c, y, i);
    BfgsCancel(At(MatVec(BfgsFormula(H, s, p, rho, c), y), i), rho, Dot(y, s), At(s, i), At(p, i),
               At(MatVec(H, y), i), Dot(y, p), c);
  }

  /** With ρ·(y·s) = 1, p = Hy and c = ρ²·(y·Hy), the BFGS estimate maps y to s: the secant equation. */
  lemma BfgsSecant(H: Mat, s: Vec, y: Vec, rho: real, p: Vec, c: real)
    requires p == MatVec(H, y) && c == rho * rho * Dot(y, p)
    requires rho * Dot(y, s) == 1.0
    ensures Equiv(MatVec(BfgsFormula(H, s, p, rho, c), y), s)
  {
    forall i: nat ensures At(MatVec(BfgsFormula(H, s, p, rho, c), y), i) == At(s, i) {
      BfgsSecantAt(H, s, y, rho, p, c, i);
    }
  }

  /** Entry i of the DFP formula applied to y. */
  lemma DfpApplied(H: Mat, s: Vec, p: Vec, rho: real, k: real, y: Vec, i: nat)
    ensures At(MatVec(DfpFormula(H, s, p, rho, k), y), i)
      == At(MatVec(H, y), i) - k * (Dot(y, p) * At(p, i)) + rho * (Dot(y, s) * At(s, i))
  {
    MatVecAddAt(MSub(H, MScale(k, Outer(p, p))), MScale(rho, Outer(s, s)), y, i);
    MatVecSubAt(H, MScale(k, Outer(p, p)), y, i);
    ScaledOuterApplied(k, p, p, y, i);
    ScaledOuterApplied(rho, s, s, y, i);
  }

  lemma DfpCancel(e: real, rho: real, sy: real, a: real, b: real, hy: real, k: real, py: real)
    requires rho * sy == 1.0 && hy == b && k * py == 1.0
    requires e == hy - k * (py * b) + rho * (sy * a)
    ensures e == a
  {
    assert k * (py * b) == b;
    assert rho * (sy * a) == a;
  }

  lemma DfpSecantAt(H: Mat, s: Vec, y: Vec, rho: real, p: Vec, k: real, i: nat)
    requires p == MatVec(H, y)
    requires rho * Dot(y, s) == 1.0 && k * Dot(y, p) == 1.0
    ensures At(MatVec(DfpFormula(H, s, p, rho, k), y), i) == At(s, i)
  {
    DfpApplied(H, s, p, rho, k, y, i);
    DfpCancel(At(MatVec(DfpFormula(H, s, p, rho, k), y), i), rho, Dot(y, s), At(s, i), At(p, i),
              At(MatVec(H, y), i), k, Dot(y, p));
  }

  /** With ρ·(y·s) = 1, p = Hy and k·(y·Hy) = 1, the DFP estimate maps y to s: the secant equation. */
  lemma DfpSecant(H: Mat, s: Vec, y: Vec, rho: real, p: Vec, k: real)
    requires p == MatVec(H, y)
    requires rho * Dot(y, s) == 1.0 && k * Dot(y, p) == 1.0
    ensures Equiv(MatVec(DfpFormula(H, s, p, rho, k), y), s)
  {
    forall i: nat ensures At(MatVec(DfpFormula(H, s, p, rho, k), y), i) == At(s, i) {
      DfpSecantAt(H, s, y, rho, p, k, i);
    }
  }

  /** The estimate the update starts from: H, or the scaled identity on the first update. */
  function Estimate(H: Option<Mat>, n: nat, s: Vec, y: Vec): (r: Result<Mat>)
    ensures H.Some? ==> r == Ok(H.value)
    ensures H.None? ==> r == InitialEstimate(n, s, y)
  {
    if H.None? then InitialEstimate(n, s, y) else Ok(H.value)
  }

  /**
   * The new estimate computed in BFGS `_update_x_current` from the step s
   * and the gradient change y; n is the dimension of x.
   */
  function BfgsUpdate(H: Option<Mat>, n: nat, s: Vec, y: Vec): (r: Result<Mat>)
    ensures r.Err? ==> r.error == NonFinite
    ensures r.Ok? <==> Dot(y, s) != 0.0 && (H.None? ==> Dot(y, y) != 0.0)
    ensures r.Ok? ==> Equiv(MatVec(r.value, y), s)
    ensures r.Ok? && (H.None? || Symmetric(H.value)) ==> Symmetric(r.value)
  {
    var rho :- Curvature(s, y);
    var H0 :- Estimate(H, n, s, y);
    var p := MatVec(H0, y);
    var c := rho * rho * Dot(y, p);
    BfgsSecant(H0, s, y, rho, p, c);
    BfgsSymmetric(H0, s, p, rho, c);
    Ok(BfgsFormula(H0, s, p, rho, c))
  }

  /** The new estimate computed in DFP `_update_x_current`. */
  function DfpUpdate(H: Option<Mat>, n: nat, s: Vec, y: Vec): (r: Result<Mat>)
    ensures r.Err? ==> r.error == NonFinite
    ensures Dot(y, s) == 0.0 || (H.None? && Dot(y, y) == 0.0) ==> r.Err?
    ensures H.Some? && Dot(y, s) != 0.0 ==> (r.Ok? <==> Dot(y, MatVec(H.value, y)) != 0.0)
    ensures r.Ok? ==> Equiv(MatVec(r.value, y), s)
    ensures r.Ok? && (H.None? || Symmetric(H.value)) ==> Symmetric(r.value)
  {
    var rho :- Curvature(s, y);
    var H0 :- Estimate(H, n, s, y);
    var p := MatVec(H0, y);
    if Dot(y, p) == 0.0 then Err(NonFinite)
    else
      var k := 1.0 / Dot(y, p);
      DfpSecant(H0, s, y, rho, p, k);
      DfpSymmetric(H0, s, p, rho, k);
      Ok(DfpFormula(H0, s, p, rho, k))
  }

  // ------------------------------------------------------------- the hooks

  /**
   * The fields of a BFGS or DFP optimiser besides the driver's own: the
   * constructor's H, the current estimate and the step-size object.
   */
  datatype QnState = QnState(H0: Option<Mat>, H: Option<Mat>, ss: StepSizes.StepSize)

  /** Whether the estimate is unset or symmetric. */
  ghost predicate SymmetricOrUnset(st: QnState) {
    st.H.None? || Symmetric(st.H.value)
  }

  /**
   * `get_direction(x)`: without an estimate it sets the current gradient to
   * ∇f(x) and returns −∇f(x); with one it returns −H·current_grad, which is a
   * TypeError while current_grad is still None.
   */
  function Direction(grad: Vec -> Vec, st: QnState, fr: Driver.Frame): (r: Result<Driver.Directed<QnState>>)
    ensures r.Ok? ==> r.value.state == st
    ensures st.H.None? ==> r.Ok? && r.value.grad == Some(grad(fr.current)) && r.value.h == Neg(grad(fr.current))
    ensures st.H.Some? ==> (r.Ok? <==> fr.currentGrad.Some?)
    ensures st.H.Some? && r.Ok? ==> r.value.grad.None?
    ensures st.H.Some? && r.Ok? ==> Dot(fr.currentGrad.value, r.value.h) == - Quad(fr.currentGrad.value, st.H.value, fr.currentGrad.value)
    ensures r.Err? ==> r.error == TypeError
  {
    if st.H.None? then
      var g := grad(fr.current);
      Ok(Driver.Directed(st, Neg(g), Some(g)))
    else if fr.currentGrad.None? then Err(TypeError)
    else
      var g := fr.currentGrad.value;
      var Hg := MatVec(st.H.value, g);
      DotNeg(g, Hg);
      Ok(Driver.Directed(st, Neg(Hg), None))
  }

  /** With a positive-definite estimate, −H·g is a descent direction. */
  lemma DirectionDescends(grad: Vec -> Vec, st: QnState, fr: Driver.Frame)
    requires st.H.Some? && fr.currentGrad.Some?
    requires Quad(fr.currentGrad.value, st.H.value, fr.currentGrad.value) > 0.0
    ensures Direction(grad, st, fr).Ok?
    ensures Dot(fr.currentGrad.value, Direction(grad, st, fr).value.h) < 0.0
  {
  }

  /**
   * `get_stepsize()`: `get_stepsize(self._h, self.convergence[-1],
   * len(self.convergence))` on the step-size object, which keeps its state.
   */
  function StepAlong(f: StepSizes.Objective, grad: Vec -> Vec, ss: StepSizes.StepSize, fr: Driver.Frame,
                     update: StepSizes.Update): (r: Result<StepSizes.Taken>)
    ensures |fr.trajectory| == 0 ==> r == Err(IndexError)
    ensures |fr.trajectory| > 0 ==>
      r == StepSizes.Take(ss, f, grad, update, fr.h, Last(fr.trajectory), |fr.trajectory|)
  {
    var x :- Driver.NewestPoint(fr);
    StepSizes.Take(ss, f, grad, update, fr.h, x, |fr.trajectory|)
  }

  /**
   * `_update_x_current` of BFGS (`dfp` false) or DFP (`dfp` true): the
   * current gradient becomes ∇f(x_next), s = x_next − x, y = ∇f(x_next) −
   * grad_mem[-1], and the estimate is updated from s and y.
   */
  function Move(dfp: bool, grad: Vec -> Vec, st: QnState, fr: Driver.Frame, xn: Vec): (r: Result<Driver.Moved<QnState>>)
    ensures |fr.gradMem| == 0 ==> r == Err(IndexError)
    ensures r.Ok? ==>
      && r.value.grad == Some(grad(xn))
      && r.value.state.H0 == st.H0 && r.value.state.ss == st.ss
      && r.value.state.H.Some?
      && Equiv(MatVec(r.value.state.H.value, Sub(grad(xn), Last(fr.gradMem))), Sub(xn, fr.current))
    ensures r.Ok? && SymmetricOrUnset(st) ==> SymmetricOrUnset(r.value.state)
    ensures |fr.gradMem| > 0 && Dot(Sub(grad(xn), Last(fr.gradMem)), Sub(xn, fr.current)) == 0.0 ==> r == Err(NonFinite)
  {
    var prev :- Driver.NewestGrad(fr);
    var g := grad(xn);
    var s := Sub(xn, fr.current);
    var y := Sub(g, prev);
    var H :- if dfp then DfpUpdate(st.H, |fr.current|, s, y) else BfgsUpdate(st.H, |fr.current|, s, y);
    Ok(Driver.Moved(st.(H := Some(H)), Some(g)))
  }

  /** `_get_result_x`: the estimate goes back to the constructor's H. */
  function Reset(st: QnState): (r: QnState)
    ensures r.H == st.H0 && r.H0 == st.H0 && r.ss == st.ss
  {
    st.(H := st.H0)
  }

  /** The BFGS (`dfp` false) or DFP (`dfp` true) optimiser as driver hooks. */
  function Hooks(dfp: bool, f: StepSizes.Objective, grad: Vec -> Vec): Driver.Hooks<QnState> {
    Driver.Hooks(
      (st: QnState, fr: Driver.Frame) => Direction(grad, st, fr),
      (st: QnState, fr: Driver.Frame, tol: real) => Driver.DefaultConverged(st, fr, tol),
      (st: QnState, fr: Driver.Frame, u: StepSizes.Update) =>
        var t :- StepAlong(f, grad, st.ss, fr, u);
        Ok(Driver.Sized(st.(ss := t.next), t.alpha)),
      Driver.DefaultUpdate,
      (st: QnState, fr: Driver.Frame, xn: Vec) => Move(dfp, grad, st, fr, xn),
      Reset)
  }

  /** BFGS and L-BFGS keep one gradient; DFP keeps two. */
  function MemorySize(dfp: bool): nat {
    if dfp then 2 else 1
  }

  /** The default step-size object: Wolfe backtracking with ρ = 0.5, β1 = 1e-3, β2 = 0.9, init_alpha = 1. */
  function DefaultStepSize(budget: nat): StepSizes.StepSize {
    StepSizes.MakeBacktracking("Wolfe",
      StepSizes.Params(Some(1.0), Some(0.5), None, Some(0.001), Some(0.9), None), budget)
  }

  /** Every estimate a run builds is symmetric when the run starts from none or a symmetric one. */
  lemma HooksKeepSymmetry(dfp: bool, f: StepSizes.Objective, grad: Vec -> Vec)
    ensures Driver.Keeps(Hooks(dfp, f, grad), SymmetricOrUnset)
  {
  }

  /** After `solve` the estimate is the constructor's H again, whatever the run did. */
  lemma SolveResetsEstimate(dfp: bool, f: StepSizes.Objective, grad: Vec -> Vec, st: QnState,
                            gradMem: seq<Vec>, x0: Vec, maxIter: int, tol: real)
    requires |gradMem| <= MemorySize(dfp)
    ensures
      var r := Driver.Solve(Hooks(dfp, f, grad), MemorySize(dfp), st, gradMem, x0, maxIter, tol);
      r.Ok? ==> r.value.state.H == st.H0
  {
    var P := (t: QnState) => t.H0 == st.H0;
    Driver.SolveKeeps(Hooks(dfp, f, grad), P, MemorySize(dfp), st, gradMem, x0, maxIter, tol);
  }

  /**
   * An optimiser constructed with an H, or one whose estimate is otherwise
   * set when `solve` starts, fails on its first direction: current_grad is
   * still None there.
   */
  lemma SuppliedEstimateFails(dfp: bool, f: StepSizes.Objective, grad: Vec -> Vec, st: QnState,
                              gradMem: seq<Vec>, x0: Vec, maxIter: int, tol: real)
    requires |gradMem| <= MemorySize(dfp)
    requires st.H.Some?
    ensures Driver.Solve(Hooks(dfp, f, grad), MemorySize(dfp), st, gradMem, x0, maxIter, tol) == Err(TypeError)
  {
    var hk := Hooks(dfp, f, grad);
    assert hk.direction(st, Driver.Start(x0, gradMem)) == Err(TypeError);
    assert Driver.Pass(hk, MemorySize(dfp), maxIter, tol, st, Driver.Start(x0, gradMem), [], [], []) == Err(TypeError);
  }

  /** Without an estimate and with ‖∇f(x0)‖ < tol, `solve` takes no step and returns x0. */
  lemma ConvergedAtStart(dfp: bool, f: StepSizes.Objective, grad: Vec -> Vec, st: QnState,
                         gradMem: seq<Vec>, x0: Vec, maxIter: int, tol: real)
    requires |gradMem| <= MemorySize(dfp)
    requires st.H.None? && NormLess(grad(x0), tol)
    ensures
      var r := Driver.Solve(Hooks(dfp, f, grad), MemorySize(dfp), st, gradMem, x0, maxIter, tol);
      && r.Ok? && r.value.x == x0 && r.value.trajectory == [x0] && r.value.steps == []
      && r.value.state == Reset(st)
  {
    Driver.ConvergedAtStart(Hooks(dfp, f, grad), MemorySize(dfp), st, gradMem, x0, maxIter, tol);
  }

  // ------------------------------------------- BarzilaiBorweinMethod

  /** The keyword arguments `init_alpha` and `type` of `BarzilaiBorweinMethod`. */
  datatype BbPar = BbPar(initAlpha: Option<real>, kind: Option<int>)

  /**
   * `BarzilaiBorweinMethod.get_stepsize()`: init_alpha while the trajectory
   * is [x0]; afterwards the BB formula on g = grad_mem[-1] − grad_mem[-2]
   * and s = convergence[-1] − convergence[-2].
   */
  function BbMemoryStep(par: BbPar, fr: Driver.Frame): (r: Result<real>)
    ensures |fr.trajectory| == 1 ==> (r.Ok? <==> par.initAlpha.Some?)
    ensures |fr.trajectory| == 1 && r.Ok? ==> r.value == par.initAlpha.value
    ensures |fr.trajectory| == 1 && par.initAlpha.None? ==> r == Err(KeyError(BarzilaiBorwein.InitAlphaKey))
    ensures |fr.trajectory| != 1 && (|fr.gradMem| < 2 || |fr.trajectory| < 2) ==> r == Err(IndexError)
    ensures |fr.trajectory| >= 2 && |fr.gradMem| >= 2 ==>
      var s := Sub(Last(fr.trajectory), fr.trajectory[|fr.trajectory| - 2]);
      var g := Sub(Last(fr.gradMem), fr.gradMem[|fr.gradMem| - 2]);
      && (par.kind == Some(1) && r.Ok? ==> r.value * Dot(g, g) == Dot(g, s))
      && (par.kind == Some(2) && r.Ok? ==> r.value * Dot(g, s) == Dot(s, s))
      && (par.kind.None? ==> r == Err(KeyError("type")))
      && (Dot(g, s) > 0.0 && par.kind == Some(1) ==>
            r.Ok? && 0.0 < r.value <= BarzilaiBorwein.BbStep(s, g, Some(2)).value)
  {
    if |fr.trajectory| == 1 then
      if par.initAlpha.None? then Err(KeyError(BarzilaiBorwein.InitAlphaKey)) else Ok(par.initAlpha.value)
    else if |fr.gradMem| < 2 || |fr.trajectory| < 2 then Err(IndexError)
    else
      var g := Sub(Last(fr.gradMem), fr.gradMem[|fr.gradMem| - 2]);
      var s := Sub(Last(fr.trajectory), fr.trajectory[|fr.trajectory| - 2]);
      if Dot(g, s) > 0.0 then BarzilaiBorwein.ShortStepNotLonger(s, g); BarzilaiBorwein.BbStep(s, g, par.kind)
      else BarzilaiBorwein.BbStep(s, g, par.kind)
  }

  /** `BarzilaiBorweinMethod` as driver hooks: the direction is −∇f(x) and sets the current gradient. */
  function BbHooks(grad: Vec -> Vec): Driver.Hooks<BbPar> {
    Driver.Hooks(
      (par: BbPar, fr: Driver.Frame) => Ok(Driver.Directed(par, Neg(grad(fr.current)), Some(grad(fr.current)))),
      (par: BbPar, fr: Driver.Frame, tol: real) => Driver.DefaultConverged(par, fr, tol),
      (par: BbPar, fr: Driver.Frame, u: StepSizes.Update) =>
        var a :- BbMemoryStep(par, fr);
        Ok(Driver.Sized(par, a)),
      Driver.DefaultUpdate,
      (par: BbPar, fr: Driver.Frame, xn: Vec) => Ok(Driver.Moved(par, None)),
      Driver.NoFinish)
  }

  /** The BB method under the main driver: the first step, if any, has length init_alpha along −∇f(x0). */
  lemma BbFirstStep(grad: Vec -> Vec, par: BbPar, gradMem: seq<Vec>, x0: Vec, maxIter: int, tol: real)
    requires |gradMem| <= 2
    ensures
      var r := Driver.Solve(BbHooks(grad), 2, par, gradMem, x0, maxIter, tol);
      r.Ok? && |r.value.steps| > 0 ==>
        par.initAlpha.Some? && r.value.steps[0] == Driver.Step(Neg(grad(x0)), par.initAlpha.value)
  {
    Driver.FirstPass(BbHooks(grad), 2, par, gradMem, x0, maxIter, tol);
  }
}

=== FILE: restarts.dfy ===
/**
 * The periodic restart predicate of liboptpy/restarts.py, consulted by the
 * Fletcher–Reeves conjugate-gradient directions.
 */
module Restarts {
  import opened Vectors
  import opened Errors

  /** `Restart(limit_dim=None)`. */
  datatype Restart = Restart(limitDim: Option<int>)

  /** `Restart()` with its default argument. */
  const DefaultRestart: Restart := Restart(None)

  /**
   * `restart(num_iter, x)`: `num_iter % limit_dim == 0`. Python raises when
   * limit_dim is None (no number to divide by) or zero.
   */
  function Fires(r: Restart, numIter: int, x: Vec): (res: Result<bool>)
    ensures r.limitDim.None? <==> res == Err(TypeError)
    ensures r.limitDim == Some(0) <==> res == Err(ZeroDivisionError)
    ensures res.Ok? <==> r.limitDim.Some? && r.limitDim.value != 0
  {
    if r.limitDim.None? then Err(TypeError)
    else if r.limitDim.value == 0 then Err(ZeroDivisionError)
    else Ok(numIter % r.limitDim.value == 0)
  }

  /** The point is never consulted: only the iteration index and limit_dim matter. */
  lemma FiresIgnoresPoint(r: Restart, n: int, x: Vec, x': Vec)
    ensures Fires(r, n, x) == Fires(r, n, x')
  {
  }

  /** The default restart object raises on every call. */
  lemma DefaultRestartRaises(n: int, x: Vec)
    ensures Fires(DefaultRestart, n, x) == Err(TypeError)
  {
  }

  /** Shifting the index by limit_dim does not change the answer. */
  lemma FiresPeriodic(r: Restart, n: int, x: Vec)
    requires r.limitDim.Some? && r.limitDim.value != 0
    ensures Fires(r, n + r.limitDim.value, x) == Fires(r, n, x)
  {
    var d := r.limitDim.value;
    var q := (n + d) / d;
    var q0 := n / d;
    assert n == d * q0 + n % d;
    assert n + d == d * (q0 + 1) + n % d;
    LemmaModUnique(n + d, d, q0 + 1, n % d);
  }

  /** Euclidean remainder is determined by any quotient-remainder decomposition. */
  lemma LemmaModUnique(m: int, d: int, q: int, rem: int)
    requires d != 0
    requires m == d * q + rem
    requires 0 <= rem < if d < 0 then -d else d
    ensures m % d == rem
  {
    var q' := m / d;
    var r' := m % d;
    var k := q - q';
    MulDistrib(d, q, q');
    assert d * k == r' - rem;
    if k != 0 {
      MulAbsBound(d, k);
    }
  }

  lemma MulDistrib(d: int, a: int, b: int)
    ensures d * (a - b) == d * a - d * b
  {
  }

  lemma MulAbsBound(d: int, k: int)
    requires d != 0 && k != 0
    ensures d * k >= (if d < 0 then -d else d) || d * k <= -(if d < 0 then -d else d)
  {
    if k > 0 {
      if d > 0 { MulMono(d, k); } else { MulMono(-d, k); }
    } else {
      if d > 0 { MulMono(d, -k); } else { MulMono(-d, -k); }
    }
  }

  lemma MulMono(a: int, k: int)
    requires a > 0 && k > 0
    ensures a * k >= a
  {
  }

  /** Every multiple of limit_dim fires, index 0 included. */
  lemma {:induction false} FiresOnMultiples(r: Restart, k: nat, x: Vec)
    requires r.limitDim.Some? && r.limitDim.value != 0
    ensures Fires(r, k * r.limitDim.value, x) == Ok(true)
  {
    var d := r.limitDim.value;
    if k == 0 {
      assert 0 % d == 0;
    } else {
      FiresOnMultiples(r, k - 1, x);
      FiresPeriodic(r, (k - 1) * d, x);
      assert (k - 1) * d + d == k * d;
    }
  }

  /** Indices strictly between 0 and limit_dim do not fire. */
  lemma NoFireBelowPeriod(r: Restart, n: int, x: Vec)
    requires r.limitDim.Some? && r.limitDim.value != 0
    requires 0 < n < (if r.limitDim.value < 0 then -r.limitDim.value else r.limitDim.value)
    ensures Fires(r, n, x) == Ok(false)
  {
    LemmaModUnique(n, r.limitDim.value, 0, n);
  }

  /** With limit_dim 1 every call fires. */
  lemma FiresAlwaysWithPeriodOne(r: Restart, n: int, x: Vec)
    requires r.limitDim == Some(1)
    ensures Fires(r, n, x) == Ok(true)
  {
  }
}

=== FILE: step_size.dfy ===
/**
 * Step-size strategies of liboptpy/step_size.py: constant and 1/k schedules,
 * backtracking under the Armijo, Wolfe, strong Wolfe and Lipschitz rules, and
 * the closed-form exact line search for quadratics.
 *
 * The objective returns `None` for NaN; every comparison with NaN is false, as
 * in Python. The search loops carry a trial budget (`budget`) that the source
 * does not have: running out of it is the model-only error `OutOfFuel`.
 */
module StepSizes {
  import opened Vectors
  import opened Errors

  /** The objective f; `None` is a NaN value. */
  type Objective = Vec -> Option<real>

  type Gradient = Vec -> Vec

  /** The owning optimiser's `_f_update_x_next(x, alpha, h)`. */
  type Update = (Vec, real, Vec) -> Vec

  /** The underflow floor `1e-16`. */
  const Tiny: real := 0.0000000000000001

  /** The keyword parameters of `Backtracking`; `None` is a missing key. */
  datatype Params = Params(
    initAlpha: Option<real>,
    rho: Option<real>,
    beta: Option<real>,
    beta1: Option<real>,
    beta2: Option<real>,
    eps: Option<real>)

  datatype Rule = Armijo | Wolfe | WolfeStrong | Goldstein | Lipschitz | Unknown(name: string)

  /** The rule names `get_stepsize` compares `rule_type` against. */
  function ParseRule(name: string): Rule {
    if name == "Armijo" then Armijo
    else if name == "Wolfe" then Wolfe
    else if name == "Wolfe strong" then WolfeStrong
    else if name == "Goldstein" then Goldstein
    else if name == "Lipschitz" then Lipschitz
    else Unknown(name)
  }

  datatype StepSize =
    | Constant(stepsize: real)
    | InvIter
      /** `lipAlpha` is the Lipschitz rule's `_alpha`, kept between calls. */
    | Backtracking(rule: Rule, par: Params, lipAlpha: Option<real>, budget: nat)
    | ExactQuad(A: Mat, b: Vec)

  /** The result of one `get_stepsize` call: the strategy after it and the step (`None` for Python's None). */
  datatype Stepped = Stepped(next: StepSize, alpha: Option<real>)

  function Pow(b: real, k: nat): real {
    if k == 0 then 1.0 else b * Pow(b, k - 1)
  }

  /** `Backtracking(rule_type, **kwargs)`: the Lipschitz rule gets `eps = 0` unless given. */
  function MakeBacktracking(name: string, par: Params, budget: nat): (r: StepSize)
    ensures r.Backtracking? && r.rule == ParseRule(name) && r.lipAlpha == None
    ensures r.rule == Lipschitz ==> r.par.eps.Some?
    ensures r.rule == Lipschitz && par.eps.None? ==> r.par.eps == Some(0.0)
    ensures r.par.(eps := par.eps) == par
    ensures par.eps.Some? ==> r.par.eps == par.eps
  {
    var rule := ParseRule(name);
    var par' := if rule == Lipschitz && par.eps.None? then par.(eps := Some(0.0)) else par;
    Backtracking(rule, par', None, budget)
  }

  /** `ExactLineSearch4Quad(A, b=None)`: b defaults to the zero vector. */
  function MakeExactQuad(A: Mat, b: Option<Vec>): (r: StepSize)
    ensures r.ExactQuad? && r.A == A
    ensures b.Some? ==> r.b == b.value
    ensures b.None? ==> |r.b| == |A| && forall i: nat :: At(r.b, i) == 0.0
  {
    ExactQuad(A, if b.Some? then b.value else Zeros(|A|))
  }

  /** `self.par[key]`. */
  function Need(v: Option<real>, key: string): (r: Result<real>)
    ensures v.Some? <==> r.Ok?
    ensures r.Ok? ==> r.value == v.value
    ensures r.Err? ==> r.error == KeyError(key)
  {
    if v.Some? then Ok(v.value) else Err(KeyError(key))
  }

  // ------------------------------------------------------------------ Armijo

  /** v is alpha shrunk by rho some number of times. */
  ghost predicate ShrunkFrom(v: real, alpha: real, rho: real) {
    exists k: nat :: v == alpha * Pow(rho, k)
  }

  lemma ShrunkNone(alpha: real, rho: real)
    ensures ShrunkFrom(alpha, alpha, rho)
  {
    assert alpha == alpha * Pow(rho, 0);
  }

  lemma ShrunkOnce(v: real, alpha: real, rho: real)
    requires ShrunkFrom(v, alpha * rho, rho)
    ensures ShrunkFrom(v, alpha, rho)
  {
    var k: nat :| v == (alpha * rho) * Pow(rho, k);
    assert v == alpha * Pow(rho, k + 1);
  }

  /** The k-th trial of a shrink loop started at alpha: alpha, alpha*rho, (alpha*rho)*rho, … */
  function Trial(alpha: real, rho: real, k: nat): real
    decreases k
  {
    if k == 0 then alpha else Trial(alpha * rho, rho, k - 1)
  }

  /**
   * v is the trial the loop leaves at: it is reached by shrinking alpha, every
   * earlier trial failed `accepts`, and no earlier shrink fell below 1e-16.
   */
  ghost predicate FirstShrunk(accepts: real -> bool, v: real, alpha: real, rho: real) {
    exists k: nat :: v == Trial(alpha, rho, k) &&
      forall j: nat | j < k :: !accepts(Trial(alpha, rho, j)) && (j == 0 || Trial(alpha, rho, j) >= Tiny)
  }

  /** The starting trial is the first one. */
  lemma FirstAtStart(accepts: real -> bool, alpha: real, rho: real)
    ensures FirstShrunk(accepts, alpha, alpha, rho)
  {
    assert alpha == Trial(alpha, rho, 0);
  }

  /** A rejected start followed by a shrink that does not underflow puts one more failed trial in front. */
  lemma {:induction false} FirstBack(accepts: real -> bool, v: real, alpha: real, rho: real)
    requires FirstShrunk(accepts, v, alpha * rho, rho)
    requires !accepts(alpha) && alpha * rho >= Tiny
    ensures FirstShrunk(accepts, v, alpha, rho)
  {
    var a1 := alpha * rho;
    var k: nat :| v == Trial(a1, rho, k) &&
      forall j: nat | j < k :: !accepts(Trial(a1, rho, j)) && (j == 0 || Trial(a1, rho, j) >= Tiny);
    assert v == Trial(alpha, rho, k + 1);
    forall j: nat | j < k + 1
      ensures !accepts(Trial(alpha, rho, j)) && (j == 0 || Trial(alpha, rho, j) >= Tiny)
    {
      if j > 0 {
        TrialShift(alpha, rho, j - 1);
      }
    }
  }

  /**
   * Trial k is the first one accepted: every earlier trial was rejected, and
   * no shrink up to trial k fell below 1e-16. A shrink loop with budget ≥ k
   * returns it.
   */
  ghost predicate FirstAccepted(accepts: real -> bool, alpha: real, rho: real, k: nat) {
    && accepts(Trial(alpha, rho, k))
    && (forall j: nat | j < k :: !accepts(Trial(alpha, rho, j)))
    && (forall j: nat | 1 <= j <= k :: Trial(alpha, rho, j) >= Tiny)
  }

  /** Shrink k ≥ 1 is the first to fall below 1e-16, and every trial before it was rejected. */
  ghost predicate UnderflowsAt(accepts: real -> bool, alpha: real, rho: real, k: nat) {
    && k >= 1
    && Trial(alpha, rho, k) < Tiny
    && (forall j: nat | j < k :: !accepts(Trial(alpha, rho, j)))
    && (forall j: nat | 1 <= j < k :: Trial(alpha, rho, j) >= Tiny)
  }

  /** Trials 0 … n were all rejected and shrinks 1 … n + 1 all stayed at or above 1e-16. */
  ghost predicate RanOut(accepts: real -> bool, alpha: real, rho: real, n: nat) {
    && (forall j: nat | j <= n :: !accepts(Trial(alpha, rho, j)))
    && (forall j: nat | 1 <= j <= n + 1 :: Trial(alpha, rho, j) >= Tiny)
  }

  /** Trial j + 1 from alpha is trial j from alpha·rho. */
  lemma TrialShift(alpha: real, rho: real, j: nat)
    ensures Trial(alpha, rho, j + 1) == Trial(alpha * rho, rho, j)
  {
  }

  /** Acceptance at k ≥ 1, seen from the start: the start is rejected and acceptance is at k − 1 from the next trial. */
  lemma FirstAcceptedStep(accepts: real -> bool, alpha: real, rho: real, k: nat)
    requires k >= 1 && FirstAccepted(accepts, alpha, rho, k)
    ensures !accepts(alpha) && alpha * rho >= Tiny && FirstAccepted(accepts, alpha * rho, rho, k - 1)
  {
    var a1 := alpha * rho;
    assert Trial(alpha, rho, 0) == alpha && Trial(alpha, rho, 1) == a1;
    assert Trial(alpha, rho, k) == Trial(a1, rho, k - 1);
    forall j: nat | j < k - 1 ensures !accepts(Trial(a1, rho, j)) {
      TrialShift(alpha, rho, j);
    }
    forall j: nat | 1 <= j <= k - 1 ensures Trial(a1, rho, j) >= Tiny {
      TrialShift(alpha, rho, j);
    }
  }

  /** Underflow at k ≥ 2, seen from the start: the start is rejected and underflow is at k − 1 from the next trial. */
  lemma UnderflowsAtStep(accepts: real -> bool, alpha: real, rho: real, k: nat)
    requires UnderflowsAt(accepts, alpha, rho, k)
    ensures !accepts(alpha)
    ensures k == 1 <==> alpha * rho < Tiny
    ensures k >= 2 ==> UnderflowsAt(accepts, alpha * rho, rho, k - 1)
  {
    var a1 := alpha * rho;
    assert Trial(alpha, rho, 0) == alpha && Trial(alpha, rho, 1) == a1;
    assert Trial(alpha, rho, k) == Trial(a1, rho, k - 1);
    if k >= 2 {
      forall j: nat | j < k - 1 ensures !accepts(Trial(a1, rho, j)) {
        TrialShift(alpha, rho, j);
      }
      forall j: nat | 1 <= j < k - 1 ensures Trial(a1, rho, j) >= Tiny {
        TrialShift(alpha, rho, j);
      }
    }
  }

  /** Running out after n + 1 trials is a rejected start, a shrink at or above 1e-16, and running out after n from there. */
  lemma RanOutStep(accepts: real -> bool, alpha: real, rho: real, n: nat)
    ensures RanOut(accepts, alpha, rho, 0) <==> !accepts(alpha) && alpha * rho >= Tiny
    ensures RanOut(accepts, alpha, rho, n + 1) <==>
      !accepts(alpha) && alpha * rho >= Tiny && RanOut(accepts, alpha * rho, rho, n)
  {
    var a1 := alpha * rho;
    assert Trial(alpha, rho, 0) == alpha && Trial(alpha, rho, 1) == a1;
    if RanOut(accepts, alpha, rho, n + 1) {
      forall j: nat | j <= n ensures !accepts(Trial(a1, rho, j)) {
        TrialShift(alpha, rho, j);
      }
      forall j: nat | 1 <= j <= n + 1 ensures Trial(a1, rho, j) >= Tiny {
        TrialShift(alpha, rho, j);
      }
    }
    if !accepts(alpha) && a1 >= Tiny && RanOut(accepts, a1, rho, n) {
      forall j: nat | j <= n + 1 ensures !accepts(Trial(alpha, rho, j)) {
        if j > 0 { TrialShift(alpha, rho, j - 1); }
      }
      forall j: nat | 1 <= j <= n + 2 ensures Trial(alpha, rho, j) >= Tiny {
        TrialShift(alpha, rho, j - 1);
      }
    }
  }

  /** Armijo's exit test at trial point xn: not NaN, and sufficient decrease unless f(x) is NaN. */
  predicate ArmijoAccepts(f: Objective, x: Vec, xn: Vec, fx: Option<real>, gx: Vec, beta: real) {
    f(xn).Some? && (fx.None? || f(xn).value < fx.value + beta * Dot(gx, Sub(xn, x)))
  }

  /** The Armijo shrink loop, trial points formed by `update`. */
  function ArmijoLoop(f: Objective, update: Update, x: Vec, h: Vec, fx: Option<real>, gx: Vec,
                      rho: real, beta: real, alpha: real, fuel: nat): (r: Result<real>)
    ensures r.Ok? ==> ArmijoAccepts(f, x, update(x, r.value, h), fx, gx, beta)
    ensures r.Ok? ==> ShrunkFrom(r.value, alpha, rho)
    ensures r.Ok? ==> FirstShrunk(a => ArmijoAccepts(f, x, update(x, a, h), fx, gx, beta), r.value, alpha, rho)
    ensures r.Ok? ==> r.value == alpha || r.value >= Tiny
    ensures r.Err? ==> r.error == ValueError(StepTooSmall) || r.error == OutOfFuel
    ensures ArmijoAccepts(f, x, update(x, alpha, h), fx, gx, beta) <==> r == Ok(alpha)
    ensures !ArmijoAccepts(f, x, update(x, alpha, h), fx, gx, beta) && alpha * rho < Tiny ==>
      r == Err(ValueError(StepTooSmall))
    decreases fuel
  {
    if ArmijoAccepts(f, x, update(x, alpha, h), fx, gx, beta) then
      ShrunkNone(alpha, rho);
      FirstAtStart(a => ArmijoAccepts(f, x, update(x, a, h), fx, gx, beta), alpha, rho);
      Ok(alpha)
    else
      var a := alpha * rho;
      if a < Tiny then Err(ValueError(StepTooSmall))
      else if fuel == 0 then Err(OutOfFuel)
      else
        var r := ArmijoLoop(f, update, x, h, fx, gx, rho, beta, a, fuel - 1);
        if r.Ok? then
          ShrunkOnce(r.value, alpha, rho);
          FirstBack(a => ArmijoAccepts(f, x, update(x, a, h), fx, gx, beta), r.value, alpha, rho);
          r
        else r
  }

  /** The Armijo loop returns the first accepted trial when the budget reaches it. */
  lemma {:induction false} ArmijoFinds(f: Objective, update: Update, x: Vec, h: Vec, fx: Option<real>, gx: Vec,
                                       rho: real, beta: real, alpha: real, fuel: nat, k: nat)
    ensures k <= fuel && FirstAccepted(a => ArmijoAccepts(f, x, update(x, a, h), fx, gx, beta), alpha, rho, k) ==>
      ArmijoLoop(f, update, x, h, fx, gx, rho, beta, alpha, fuel) == Ok(Trial(alpha, rho, k))
    decreases fuel
  {
    var accepts := a => ArmijoAccepts(f, x, update(x, a, h), fx, gx, beta);
    if 1 <= k <= fuel && FirstAccepted(accepts, alpha, rho, k) {
      FirstAcceptedStep(accepts, alpha, rho, k);
      TrialShift(alpha, rho, k - 1);
      ArmijoFinds(f, update, x, h, fx, gx, rho, beta, alpha * rho, fuel - 1, k - 1);
    }
  }

  /** The Armijo loop raises the ValueError at the first shrink below 1e-16 when the budget reaches it. */
  lemma {:induction false} ArmijoUnderflows(f: Objective, update: Update, x: Vec, h: Vec, fx: Option<real>, gx: Vec,
                                            rho: real, beta: real, alpha: real, fuel: nat, k: nat)
    ensures k <= fuel + 1 && UnderflowsAt(a => ArmijoAccepts(f, x, update(x, a, h), fx, gx, beta), alpha, rho, k) ==>
      ArmijoLoop(f, update, x, h, fx, gx, rho, beta, alpha, fuel) == Err(ValueError(StepTooSmall))
    decreases fuel
  {
    var accepts := a => ArmijoAccepts(f, x, update(x, a, h), fx, gx, beta);
    if k <= fuel + 1 && UnderflowsAt(accepts, alpha, rho, k) {
      UnderflowsAtStep(accepts, alpha, rho, k);
      if k >= 2 {
        ArmijoUnderflows(f, update, x, h, fx, gx, rho, beta, alpha * rho, fuel - 1, k - 1);
      }
    }
  }

  /** The trial budget runs out exactly when fuel + 1 trials are rejected without an underflow. */
  lemma {:induction false} ArmijoRunsOut(f: Objective, update: Update, x: Vec, h: Vec, fx: Option<real>, gx: Vec,
                                         rho: real, beta: real, alpha: real, fuel: nat)
    ensures RanOut(a => ArmijoAccepts(f, x, update(x, a, h), fx, gx, beta), alpha, rho, fuel) <==>
      ArmijoLoop(f, update, x, h, fx, gx, rho, beta, alpha, fuel) == Err(OutOfFuel)
    decreases fuel
  {
    var accepts := a => ArmijoAccepts(f, x, update(x, a, h), fx, gx, beta);
    if fuel == 0 {
      RanOutStep(accepts, alpha, rho, 0);
    } else {
      RanOutStep(accepts, alpha, rho, fuel - 1);
      ArmijoRunsOut(f, update, x, h, fx, gx, rho, beta, alpha * rho, fuel - 1);
    }
  }

  // ------------------------------------------------------------------ Wolfe

  /** The curvature test fails: plain Wolfe compares signed slopes, strong Wolfe their absolute values. */
  predicate CurvatureFails(strong: bool, h: Vec, ga: Vec, gx: Vec, beta2: real) {
    if strong then Abs(Dot(h, ga)) > beta2 * Abs(Dot(h, gx))
    else Dot(h, ga) < beta2 * Dot(h, gx)
  }

  function Abs(a: real): real {
    if a < 0.0 then -a else a
  }

  /** Wolfe's exit test at step a: not NaN, sufficient decrease unless f(x) is NaN, and curvature. */
  predicate WolfeAccepts(strong: bool, f: Objective, grad: Gradient, x: Vec, h: Vec, fx: Option<real>,
                         gx: Vec, beta1: real, beta2: real, a: real) {
    var xa := Add(x, Scale(a, h));
    && f(xa).Some?
    && (fx.None? || f(xa).value <= fx.value + beta1 * a * Dot(gx, h))
    && !CurvatureFails(strong, h, grad(xa), gx, beta2)
  }

  /** What one Wolfe search holds fixed: the rule, f, ∇f, x, h, f(x), ∇f(x), ρ, β1 and β2. */
  datatype WolfeCtx = WolfeCtx(strong: bool, f: Objective, grad: Gradient, x: Vec, h: Vec, fx: Option<real>,
                               gx: Vec, rho: real, beta1: real, beta2: real)

  /** A trial step and its bracket [lb, ub]; `ub == None` is `np.inf`. */
  datatype Bracket = Bracket(alpha: real, lb: real, ub: Option<real>)

  /**
   * One round of the Wolfe loop: None when the trial step is accepted, else
   * the next trial and bracket, before the underflow check. A NaN value
   * shrinks by ρ, too little decrease bisects towards lb, and a failed
   * curvature test raises lb and doubles or bisects towards ub.
   */
  function WolfeRound(w: WolfeCtx, b: Bracket): (r: Option<Bracket>)
    ensures r.None? <==> WolfeAccepts(w.strong, w.f, w.grad, w.x, w.h, w.fx, w.gx, w.beta1, w.beta2, b.alpha)
    ensures w.f(Add(w.x, Scale(b.alpha, w.h))).None? ==> r == Some(b.(alpha := b.alpha * w.rho))
    ensures r.Some? && w.f(Add(w.x, Scale(b.alpha, w.h))).Some? ==>
      (r.value.ub == Some(b.alpha) && r.value.lb == b.lb) || (r.value.lb == b.alpha && r.value.ub == b.ub)
  {
    var xa := Add(w.x, Scale(b.alpha, w.h));
    var fa := w.f(xa);
    if fa.None? then Some(b.(alpha := b.alpha * w.rho))
    else if w.fx.Some? && fa.value > w.fx.value + w.beta1 * b.alpha * Dot(w.gx, w.h) then
      Some(Bracket(0.5 * (b.lb + b.alpha), b.lb, Some(b.alpha)))
    else if CurvatureFails(w.strong, w.h, w.grad(xa), w.gx, w.beta2) then
      Some(Bracket(if b.ub.None? then 2.0 * b.alpha else 0.5 * (b.alpha + b.ub.value), b.alpha, b.ub))
    else None
  }

  /** The bracket after k rounds from b, or None once a round has accepted. */
  function WolfeAfter(w: WolfeCtx, b: Bracket, k: nat): Option<Bracket>
    decreases k
  {
    if k == 0 then Some(b)
    else match WolfeRound(w, b)
      case None => None
      case Some(c) => WolfeAfter(w, c, k - 1)
  }

  /**
   * The Wolfe bracketing loop over [lb, ub]; `ub == None` is `np.inf`.
   * It forms trial points as x + alpha*h, not through the optimiser's update.
   */
  function WolfeLoop(strong: bool, f: Objective, grad: Gradient, x: Vec, h: Vec, fx: Option<real>, gx: Vec,
                     rho: real, beta1: real, beta2: real, alpha: real, lb: real, ub: Option<real>,
                     fuel: nat): (r: Result<real>)
    ensures r.Ok? ==> WolfeAccepts(strong, f, grad, x, h, fx, gx, beta1, beta2, r.value)
    ensures r.Ok? ==> r.value == alpha || r.value >= Tiny
    ensures r.Err? ==> r.error == ValueError(StepTooSmall) || r.error == OutOfFuel
    ensures WolfeAccepts(strong, f, grad, x, h, fx, gx, beta1, beta2, alpha) ==> r == Ok(alpha)
    ensures f(Add(x, Scale(alpha, h))).None? && alpha * rho < Tiny ==> r == Err(ValueError(StepTooSmall))
    decreases fuel
  {
    match WolfeRound(WolfeCtx(strong, f, grad, x, h, fx, gx, rho, beta1, beta2), Bracket(alpha, lb, ub))
    case None => Ok(alpha)
    case Some(c) => WolfeRetry(strong, f, grad, x, h, fx, gx, rho, beta1, beta2, c.alpha, c.lb, c.ub, fuel)
  }

  /** The underflow check at the bottom of the Wolfe loop, then the next round. */
  function WolfeRetry(strong: bool, f: Objective, grad: Gradient, x: Vec, h: Vec, fx: Option<real>, gx: Vec,
                      rho: real, beta1: real, beta2: real, alpha: real, lb: real, ub: Option<real>,
                      fuel: nat): (r: Result<real>)
    ensures r.Ok? ==> WolfeAccepts(strong, f, grad, x, h, fx, gx, beta1, beta2, r.value)
    ensures r.Ok? ==> r.value >= Tiny
    ensures r.Err? ==> r.error == ValueError(StepTooSmall) || r.error == OutOfFuel
    ensures alpha < Tiny ==> r == Err(ValueError(StepTooSmall))
    decreases fuel, 0
  {
    if alpha < Tiny then Err(ValueError(StepTooSmall))
    else if fuel == 0 then Err(OutOfFuel)
    else WolfeLoop(strong, f, grad, x, h, fx, gx, rho, beta1, beta2, alpha, lb, ub, fuel - 1)
  }

  /** Round k accepts, and rounds 1 … k produced trials at or above 1e-16. */
  ghost predicate WolfeFindsAt(w: WolfeCtx, b: Bracket, k: nat) {
    && WolfeAfter(w, b, k).Some?
    && WolfeRound(w, WolfeAfter(w, b, k).value).None?
    && (forall j: nat | 1 <= j <= k :: WolfeAfter(w, b, j).Some? && WolfeAfter(w, b, j).value.alpha >= Tiny)
  }

  /** Round k ≥ 1 is the first to produce a trial below 1e-16. */
  ghost predicate WolfeUnderflowsAt(w: WolfeCtx, b: Bracket, k: nat) {
    && k >= 1
    && WolfeAfter(w, b, k).Some?
    && WolfeAfter(w, b, k).value.alpha < Tiny
    && (forall j: nat | 1 <= j < k :: WolfeAfter(w, b, j).Some? && WolfeAfter(w, b, j).value.alpha >= Tiny)
  }

  /** Rounds 0 … n all rejected, and rounds 1 … n + 1 produced trials at or above 1e-16. */
  ghost predicate WolfeRanOut(w: WolfeCtx, b: Bracket, n: nat) {
    forall j: nat | 1 <= j <= n + 1 :: WolfeAfter(w, b, j).Some? && WolfeAfter(w, b, j).value.alpha >= Tiny
  }

  /** After a rejecting first round, the rounds from b are the rounds from the next bracket, one later. */
  lemma WolfeAfterShift(w: WolfeCtx, b: Bracket, j: nat)
    requires WolfeRound(w, b).Some?
    ensures WolfeAfter(w, b, j + 1) == WolfeAfter(w, WolfeRound(w, b).value, j)
  {
  }

  lemma WolfeFindsStep(w: WolfeCtx, b: Bracket, k: nat)
    requires k >= 1 && WolfeFindsAt(w, b, k)
    ensures WolfeRound(w, b).Some? && WolfeRound(w, b).value.alpha >= Tiny
    ensures WolfeFindsAt(w, WolfeRound(w, b).value, k - 1)
    ensures WolfeAfter(w, b, k) == WolfeAfter(w, WolfeRound(w, b).value, k - 1)
  {
    assert WolfeAfter(w, b, 1).Some?;
    var c := WolfeRound(w, b).value;
    WolfeAfterShift(w, b, 0);
    WolfeAfterShift(w, b, k - 1);
    forall j: nat | 1 <= j <= k - 1 ensures WolfeAfter(w, c, j).Some? && WolfeAfter(w, c, j).value.alpha >= Tiny {
      WolfeAfterShift(w, b, j);
    }
  }

  lemma WolfeUnderflowsStep(w: WolfeCtx, b: Bracket, k: nat)
    requires WolfeUnderflowsAt(w, b, k)
    ensures WolfeRound(w, b).Some?
    ensures k == 1 <==> WolfeRound(w, b).value.alpha < Tiny
    ensures k >= 2 ==> WolfeUnderflowsAt(w, WolfeRound(w, b).value, k - 1)
  {
    assert WolfeRound(w, b).Some?;
    var c := WolfeRound(w, b).value;
    WolfeAfterShift(w, b, 0);
    WolfeAfterShift(w, b, k - 1);
    if k >= 2 {
      assert WolfeAfter(w, b, 1).value.alpha >= Tiny;
      forall j: nat | 1 <= j < k - 1 ensures WolfeAfter(w, c, j).Some? && WolfeAfter(w, c, j).value.alpha >= Tiny {
        WolfeAfterShift(w, b, j);
      }
    }
  }

  lemma WolfeRanOutStep(w: WolfeCtx, b: Bracket, n: nat)
    ensures WolfeRanOut(w, b, 0) <==> WolfeRound(w, b).Some? && WolfeRound(w, b).value.alpha >= Tiny
    ensures WolfeRanOut(w, b, n + 1) <==>
      WolfeRound(w, b).Some? && WolfeRound(w, b).value.alpha >= Tiny && WolfeRanOut(w, WolfeRound(w, b).value, n)
  {
    if WolfeRound(w, b).Some? {
      var c := WolfeRound(w, b).value;
      WolfeAfterShift(w, b, 0);
      if WolfeRanOut(w, b, n + 1) {
        forall j: nat | 1 <= j <= n + 1 ensures WolfeAfter(w, c, j).Some? && WolfeAfter(w, c, j).value.alpha >= Tiny {
          WolfeAfterShift(w, b, j);
        }
      }
      if c.alpha >= Tiny && WolfeRanOut(w, c, n) {
        forall j: nat | 1 <= j <= n + 2 ensures WolfeAfter(w, b, j).Some? && WolfeAfter(w, b, j).value.alpha >= Tiny {
          WolfeAfterShift(w, b, j - 1);
        }
      }
    } else {
      assert WolfeAfter(w, b, 1).None?;
    }
  }

  /** The Wolfe loop returns the trial of the first accepting round when the budget reaches it. */
  lemma {:induction false} WolfeFinds(strong: bool, f: Objective, grad: Gradient, x: Vec, h: Vec, fx: Option<real>, gx: Vec,
                                      rho: real, beta1: real, beta2: real, alpha: real, lb: real, ub: Option<real>,
                                      fuel: nat, k: nat)
    ensures var w, b := WolfeCtx(strong, f, grad, x, h, fx, gx, rho, beta1, beta2), Bracket(alpha, lb, ub);
      k <= fuel && WolfeFindsAt(w, b, k) ==>
        WolfeLoop(strong, f, grad, x, h, fx, gx, rho, beta1, beta2, alpha, lb, ub, fuel) == Ok(WolfeAfter(w, b, k).value.alpha)
    decreases fuel
  {
    var w, b := WolfeCtx(strong, f, grad, x, h, fx, gx, rho, beta1, beta2), Bracket(alpha, lb, ub);
    if 1 <= k <= fuel && WolfeFindsAt(w, b, k) {
      WolfeFindsStep(w, b, k);
      var c := WolfeRound(w, b).value;
      WolfeFinds(strong, f, grad, x, h, fx, gx, rho, beta1, beta2, c.alpha, c.lb, c.ub, fuel - 1, k - 1);
    }
  }

  /** The Wolfe loop raises the ValueError at the first round whose trial falls below 1e-16, when the budget reaches it. */
  lemma {:induction false} WolfeUnderflows(strong: bool, f: Objective, grad: Gradient, x: Vec, h: Vec, fx: Option<real>, gx: Vec,
                                           rho: real, beta1: real, beta2: real, alpha: real, lb: real, ub: Option<real>,
                                           fuel: nat, k: nat)
    ensures k <= fuel + 1 && WolfeUnderflowsAt(WolfeCtx(strong, f, grad, x, h, fx, gx, rho, beta1, beta2), Bracket(alpha, lb, ub), k) ==>
      WolfeLoop(strong, f, grad, x, h, fx, gx, rho, beta1, beta2, alpha, lb, ub, fuel) == Err(ValueError(StepTooSmall))
    decreases fuel
  {
    var w, b := WolfeCtx(strong, f, grad, x, h, fx, gx, rho, beta1, beta2), Bracket(alpha, lb, ub);
    if k <= fuel + 1 && WolfeUnderflowsAt(w, b, k) {
      WolfeUnderflowsStep(w, b, k);
      if k >= 2 {
        var c := WolfeRound(w, b).value;
        WolfeUnderflows(strong, f, grad, x, h, fx, gx, rho, beta1, beta2, c.alpha, c.lb, c.ub, fuel - 1, k - 1);
      }
    }
  }

  /** The round budget runs out exactly when fuel + 1 rounds reject without an underflow. */
  lemma {:induction false} WolfeRunsOut(strong: bool, f: Objective, grad: Gradient, x: Vec, h: Vec, fx: Option<real>, gx: Vec,
                                        rho: real, beta1: real, beta2: real, alpha: real, lb: real, ub: Option<real>,
                                        fuel: nat)
    ensures WolfeRanOut(WolfeCtx(strong, f, grad, x, h, fx, gx, rho, beta1, beta2), Bracket(alpha, lb, ub), fuel) <==>
      WolfeLoop(strong, f, grad, x, h, fx, gx, rho, beta1, beta2, alpha, lb, ub, fuel) == Err(OutOfFuel)
    decreases fuel
  {
    var w, b := WolfeCtx(strong, f, grad, x, h, fx, gx, rho, beta1, beta2), Bracket(alpha, lb, ub);
    if fuel == 0 {
      WolfeRanOutStep(w, b, 0);
    } else {
      WolfeRanOutStep(w, b, fuel - 1);
      if WolfeRound(w, b).Some? {
        var c := WolfeRound(w, b).value;
        WolfeRunsOut(strong, f, grad, x, h, fx, gx, rho, beta1, beta2, c.alpha, c.lb, c.ub, fuel - 1);
      }
    }
  }

  /**
   * A retry from a shrunk or bisected bracket c: below 1e-16 it raises at once;
   * otherwise it spends one trial and continues as the loop from c, so it returns
   * c's first accepting round, raises at c's first underflowing round, and runs
   * out exactly when the budget ends before either.
   */
  lemma WolfeRetryOutcome(strong: bool, f: Objective, grad: Gradient, x: Vec, h: Vec, fx: Option<real>, gx: Vec,
                          rho: real, beta1: real, beta2: real, alpha: real, lb: real, ub: Option<real>,
                          fuel: nat, k: nat)
    ensures var w, c := WolfeCtx(strong, f, grad, x, h, fx, gx, rho, beta1, beta2), Bracket(alpha, lb, ub);
      var r := WolfeRetry(strong, f, grad, x, h, fx, gx, rho, beta1, beta2, alpha, lb, ub, fuel);
      && (alpha >= Tiny && k < fuel && WolfeFindsAt(w, c, k) ==> r == Ok(WolfeAfter(w, c, k).value.alpha))
      && (alpha >= Tiny && k <= fuel && WolfeUnderflowsAt(w, c, k) ==> r == Err(ValueError(StepTooSmall)))
      && (r == Err(OutOfFuel) <==> alpha >= Tiny && (fuel == 0 || WolfeRanOut(w, c, fuel - 1)))
  {
    if alpha >= Tiny && fuel >= 1 {
      WolfeFinds(strong, f, grad, x, h, fx, gx, rho, beta1, beta2, alpha, lb, ub, fuel - 1, k);
      WolfeUnderflows(strong, f, grad, x, h, fx, gx, rho, beta1, beta2, alpha, lb, ub, fuel - 1, k);
      WolfeRunsOut(strong, f, grad, x, h, fx, gx, rho, beta1, beta2, alpha, lb, ub, fuel - 1);
    }
  }

  // ------------------------------------------------------------------ Lipschitz

  /**
   * The Lipschitz exit test at trial point xn with step a. The bound divides by 2a:
   * for a == 0 numpy yields inf or nan there and the comparison is false, so the
   * trial is accepted whenever its value is not NaN.
   */
  predicate LipschitzAccepts(f: Objective, x: Vec, xn: Vec, fx: Option<real>, gx: Vec, eps: real, a: real) {
    f(xn).Some? && !(fx.Some? && a != 0.0 && f(xn).value > LipschitzBound(x, xn, fx.value, gx, eps, a))
  }

  /** f(x) + ∇f(x)·(xn − x) + ‖xn − x‖²/(2a) + eps. */
  function LipschitzBound(x: Vec, xn: Vec, fx: real, gx: Vec, eps: real, a: real): real
    requires a != 0.0
  {
    fx + Dot(gx, Sub(xn, x)) + NormSq(Sub(xn, x)) / (2.0 * a) + eps
  }

  function LipschitzLoop(f: Objective, update: Update, x: Vec, h: Vec, fx: Option<real>, gx: Vec,
                         rho: real, eps: real, alpha: real, fuel: nat): (r: Result<real>)
    ensures r.Ok? ==> LipschitzAccepts(f, x, update(x, r.value, h), fx, gx, eps, r.value)
    ensures r.Ok? ==> ShrunkFrom(r.value, alpha, rho)
    ensures r.Ok? ==> FirstShrunk(a => LipschitzAccepts(f, x, update(x, a, h), fx, gx, eps, a), r.value, alpha, rho)
    ensures r.Ok? ==> r.value == alpha || r.value >= Tiny
    ensures r.Err? ==> r.error == ValueError(StepTooSmall) || r.error == OutOfFuel
    ensures LipschitzAccepts(f, x, update(x, alpha, h), fx, gx, eps, alpha) <==> r == Ok(alpha)
    ensures !LipschitzAccepts(f, x, update(x, alpha, h), fx, gx, eps, alpha) && alpha * rho < Tiny ==>
      r == Err(ValueError(StepTooSmall))
    decreases fuel
  {
    if LipschitzAccepts(f, x, update(x, alpha, h), fx, gx, eps, alpha) then
      ShrunkNone(alpha, rho);
      FirstAtStart(a => LipschitzAccepts(f, x, update(x, a, h), fx, gx, eps, a), alpha, rho);
      Ok(alpha)
    else
      var a := alpha * rho;
      if a < Tiny then Err(ValueError(StepTooSmall))
      else if fuel == 0 then Err(OutOfFuel)
      else
        var r := LipschitzLoop(f, update, x, h, fx, gx, rho, eps, a, fuel - 1);
        if r.Ok? then
          ShrunkOnce(r.value, alpha, rho);
          FirstBack(a => LipschitzAccepts(f, x, update(x, a, h), fx, gx, eps, a), r.value, alpha, rho);
          r
        else r
  }

  /** The Lipschitz loop returns the first accepted trial when the budget reaches it. */
  lemma {:induction false} LipschitzFinds(f: Objective, update: Update, x: Vec, h: Vec, fx: Option<real>, gx: Vec,
                                          rho: real, eps: real, alpha: real, fuel: nat, k: nat)
    ensures k <= fuel && FirstAccepted(a => LipschitzAccepts(f, x, update(x, a, h), fx, gx, eps, a), alpha, rho, k) ==>
      LipschitzLoop(f, update, x, h, fx, gx, rho, eps, alpha, fuel) == Ok(Trial(alpha, rho, k))
    decreases fuel
  {
    var accepts := a => LipschitzAccepts(f, x, update(x, a, h), fx, gx, eps, a);
    if 1 <= k <= fuel && FirstAccepted(accepts, alpha, rho, k) {
      FirstAcceptedStep(accepts, alpha, rho, k);
      TrialShift(alpha, rho, k - 1);
      LipschitzFinds(f, update, x, h, fx, gx, rho, eps, alpha * rho, fuel - 1, k - 1);
    }
  }

  /** The Lipschitz loop raises the ValueError at the first shrink below 1e-16 when the budget reaches it. */
  lemma {:induction false} LipschitzUnderflows(f: Objective, update: Update, x: Vec, h: Vec, fx: Option<real>, gx: Vec,
                                               rho: real, eps: real, alpha: real, fuel: nat, k: nat)
    ensures k <= fuel + 1 && UnderflowsAt(a => LipschitzAccepts(f, x, update(x, a, h), fx, gx, eps, a), alpha, rho, k) ==>
      LipschitzLoop(f, update, x, h, fx, gx, rho, eps, alpha, fuel) == Err(ValueError(StepTooSmall))
    decreases fuel
  {
    var accepts := a => LipschitzAccepts(f, x, update(x, a, h), fx, gx, eps, a);
    if k <= fuel + 1 && UnderflowsAt(accepts, alpha, rho, k) {
      UnderflowsAtStep(accepts, alpha, rho, k);
      if k >= 2 {
        LipschitzUnderflows(f, update, x, h, fx, gx, rho, eps, alpha * rho, fuel - 1, k - 1);
      }
    }
  }

  /** The trial budget runs out exactly when fuel + 1 trials are rejected without an underflow. */
  lemma {:induction false} LipschitzRunsOut(f: Objective, update: Update, x: Vec, h: Vec, fx: Option<real>, gx: Vec,
                                            rho: real, eps: real, alpha: real, fuel: nat)
    ensures RanOut(a => LipschitzAccepts(f, x, update(x, a, h), fx, gx, eps, a), alpha, rho, fuel) <==>
      LipschitzLoop(f, update, x, h, fx, gx, rho, eps, alpha, fuel) == Err(OutOfFuel)
    decreases fuel
  {
    var accepts := a => LipschitzAccepts(f, x, update(x, a, h), fx, gx, eps, a);
    if fuel == 0 {
      RanOutStep(accepts, alpha, rho, 0);
    } else {
      RanOutStep(accepts, alpha, rho, fuel - 1);
      LipschitzRunsOut(f, update, x, h, fx, gx, rho, eps, alpha * rho, fuel - 1);
    }
  }

  /** Where a Lipschitz search starts: init_alpha on the first call, else the last step divided by rho. */
  function LipschitzStart(lipAlpha: Option<real>, initAlpha: real, rho: real): (r: Result<real>)
    ensures lipAlpha.None? ==> r == Ok(initAlpha)
    ensures lipAlpha.Some? && rho != 0.0 ==> r.Ok? && r.value * rho == lipAlpha.value
    ensures lipAlpha.Some? && rho == 0.0 ==> r == Err(ZeroDivisionError)
  {
    if lipAlpha.None? then Ok(initAlpha)
    else if rho == 0.0 then Err(ZeroDivisionError)
    else Ok(lipAlpha.value / rho)
  }

  // ------------------------------------------------------------------ dispatch

  const ArmijoBetaMsg: string := "Armijo rule is applicable for beta less than 0.5"
  const DecayMsg: string := "Decay factor has to be less than 1"
  const WolfeBetaMsg: string := "Wolfe rule is applicable for betas such that 0 < beta1 < beta2 < 1"
  const UnknownRuleMsg: string := "Available rules for backtracking are 'Armijo', 'Goldstein', 'Wolfe', 'Wolfe strong' and 'Lipschitz'"

  /** `Backtracking.get_stepsize(h, x, num_iter)`. */
  function Backtrack(ss: StepSize, f: Objective, grad: Gradient, update: Update, h: Vec, x: Vec): (r: Result<Stepped>)
    requires ss.Backtracking?
    ensures ss.par.initAlpha.None? ==> r == Err(KeyError("init_alpha"))
    ensures r.Ok? && ss.rule != Lipschitz ==> r.value.next == ss
    ensures r.Ok? && ss.rule == Armijo ==>
      && ss.par.beta.Some? && ss.par.rho.Some? && ss.par.initAlpha.Some?
      && ss.par.beta.value < 0.5 && ss.par.rho.value < 1.0
      && r.value.alpha.Some?
      && ArmijoAccepts(f, x, update(x, r.value.alpha.value, h), f(x), grad(x), ss.par.beta.value)
      && ShrunkFrom(r.value.alpha.value, ss.par.initAlpha.value, ss.par.rho.value)
      && FirstShrunk(a => ArmijoAccepts(f, x, update(x, a, h), f(x), grad(x), ss.par.beta.value),
                     r.value.alpha.value, ss.par.initAlpha.value, ss.par.rho.value)
    ensures r.Ok? && (ss.rule == Wolfe || ss.rule == WolfeStrong) ==>
      && ss.par.beta1.Some? && ss.par.beta2.Some? && ss.par.rho.Some?
      && 0.0 < ss.par.beta1.value < ss.par.beta2.value < 1.0 && ss.par.rho.value < 1.0
      && r.value.alpha.Some?
      && WolfeAccepts(ss.rule == WolfeStrong, f, grad, x, h, f(x), grad(x),
                      ss.par.beta1.value, ss.par.beta2.value, r.value.alpha.value)
    ensures r.Ok? && ss.rule == Lipschitz ==>
      && ss.par.rho.Some? && ss.par.rho.value < 1.0 && ss.par.eps.Some?
      && r.value.alpha.Some?
      && r.value.next == ss.(lipAlpha := r.value.alpha)
      && LipschitzAccepts(f, x, update(x, r.value.alpha.value, h), f(x), grad(x),
                          ss.par.eps.value, r.value.alpha.value)
      && ss.par.initAlpha.Some? && LipschitzStart(ss.lipAlpha, ss.par.initAlpha.value, ss.par.rho.value).Ok?
      && FirstShrunk(a => LipschitzAccepts(f, x, update(x, a, h), f(x), grad(x), ss.par.eps.value, a),
                     r.value.alpha.value, LipschitzStart(ss.lipAlpha, ss.par.initAlpha.value, ss.par.rho.value).value,
                     ss.par.rho.value)
    ensures r.Ok? && ss.rule != Goldstein ==> r.value.alpha.Some?
    ensures r.Ok? && r.value.alpha.Some? ==>
      r.value.alpha.value >= Tiny || r.value.alpha == ss.par.initAlpha ||
      (ss.rule == Lipschitz && ss.lipAlpha.Some?)
    ensures ss.par.initAlpha.Some? && ss.rule == Goldstein ==> r == Ok(Stepped(ss, None))
    ensures ss.par.initAlpha.Some? && ss.rule.Unknown? ==> r == Err(NotImplementedError(UnknownRuleMsg))
  {
    var alpha :- Need(ss.par.initAlpha, "init_alpha");
    match ss.rule
    case Armijo =>
      var rho :- Need(ss.par.rho, "rho");
      var beta :- Need(ss.par.beta, "beta");
      if !(beta < 0.5) then Err(AssertionError(ArmijoBetaMsg))
      else if !(rho < 1.0) then Err(AssertionError(DecayMsg))
      else
        var a :- ArmijoLoop(f, update, x, h, f(x), grad(x), rho, beta, alpha, ss.budget);
        Ok(Stepped(ss, Some(a)))
    case Wolfe =>
      var a :- WolfeSearch(false, ss, f, grad, h, x, alpha);
      Ok(Stepped(ss, Some(a)))
    case WolfeStrong =>
      var a :- WolfeSearch(true, ss, f, grad, h, x, alpha);
      Ok(Stepped(ss, Some(a)))
    case Goldstein =>
      Ok(Stepped(ss, None))
    case Lipschitz =>
      var rho :- Need(ss.par.rho, "rho");
      if !(rho < 1.0) then Err(AssertionError(DecayMsg))
      else
        var eps :- Need(ss.par.eps, "eps");
        var start :- LipschitzStart(ss.lipAlpha, alpha, rho);
        var a :- LipschitzLoop(f, update, x, h, f(x), grad(x), rho, eps, start, ss.budget);
        Ok(Stepped(ss.(lipAlpha := Some(a)), Some(a)))
    case Unknown(_) =>
      Err(NotImplementedError(UnknownRuleMsg))
  }

  /**
   * The reads and assertions `Backtracking.get_stepsize` performs before it
   * first calls the gradient: init_alpha, then the rule's own keys and
   * assertions in source order. Goldstein and unknown rules read nothing
   * more. On success it yields init_alpha.
   */
  function Preamble(ss: StepSize): (r: Result<real>)
    requires ss.Backtracking?
    ensures ss.par.initAlpha.None? ==> r == Err(KeyError("init_alpha"))
    ensures r.Ok? ==> ss.par.initAlpha == Some(r.value)
    ensures r.Err? ==> r.error.KeyError? || r.error.AssertionError?
    ensures r.Ok? && ss.rule == Armijo ==>
      ss.par.rho.Some? && ss.par.beta.Some? && ss.par.beta.value < 0.5 && ss.par.rho.value < 1.0
    ensures r.Ok? && (ss.rule == Wolfe || ss.rule == WolfeStrong) ==>
      && ss.par.rho.Some? && ss.par.rho.value < 1.0 && ss.par.beta1.Some? && ss.par.beta2.Some?
      && 0.0 < ss.par.beta1.value < ss.par.beta2.value < 1.0
    ensures r.Ok? && ss.rule == Lipschitz ==> ss.par.rho.Some? && ss.par.rho.value < 1.0
    ensures ss.par.initAlpha.Some? && (ss.rule == Goldstein || ss.rule.Unknown?) ==> r.Ok?
  {
    var alpha :- Need(ss.par.initAlpha, "init_alpha");
    match ss.rule
    case Armijo =>
      var rho :- Need(ss.par.rho, "rho");
      var beta :- Need(ss.par.beta, "beta");
      if !(beta < 0.5) then Err(AssertionError(ArmijoBetaMsg))
      else if !(rho < 1.0) then Err(AssertionError(DecayMsg))
      else Ok(alpha)
    case Wolfe => WolfePreamble(ss, alpha)
    case WolfeStrong => WolfePreamble(ss, alpha)
    case Lipschitz =>
      var rho :- Need(ss.par.rho, "rho");
      if !(rho < 1.0) then Err(AssertionError(DecayMsg)) else Ok(alpha)
    case Goldstein => Ok(alpha)
    case Unknown(_) => Ok(alpha)
  }

  function WolfePreamble(ss: StepSize, alpha: real): Result<real>
    requires ss.Backtracking?
  {
    var rho :- Need(ss.par.rho, "rho");
    if !(rho < 1.0) then Err(AssertionError(DecayMsg))
    else
      var beta1 :- Need(ss.par.beta1, "beta1");
      var beta2 :- Need(ss.par.beta2, "beta2");
      if !(0.0 < beta1 < beta2 < 1.0) then Err(AssertionError(WolfeBetaMsg)) else Ok(alpha)
  }

  /** A failing read or assertion ends the search before any trial, and a search that succeeds passed them all. */
  lemma PreambleFirst(ss: StepSize, f: Objective, grad: Gradient, update: Update, h: Vec, x: Vec)
    requires ss.Backtracking?
    ensures Preamble(ss).Err? ==> Backtrack(ss, f, grad, update, h, x) == Err(Preamble(ss).error)
    ensures Backtrack(ss, f, grad, update, h, x).Ok? ==> Preamble(ss).Ok?
  {
  }

  /**
   * Once the reads and assertions pass, an initial step the rule accepts is
   * returned as it is, and a rejected one whose first shrink falls below
   * 1e-16 raises the ValueError, under every backtracking rule. For the
   * Lipschitz rule this is its first call on the object (no `_alpha` yet),
   * whose eps the constructor always sets.
   */
  lemma BacktrackFirstTrial(ss: StepSize, f: Objective, grad: Gradient, update: Update, h: Vec, x: Vec)
    requires ss.Backtracking?
    ensures Preamble(ss).Ok? && ss.rule == Armijo ==>
      var a0, rho, beta := ss.par.initAlpha.value, ss.par.rho.value, ss.par.beta.value;
      && (ArmijoAccepts(f, x, update(x, a0, h), f(x), grad(x), beta) ==>
            Backtrack(ss, f, grad, update, h, x) == Ok(Stepped(ss, Some(a0))))
      && (!ArmijoAccepts(f, x, update(x, a0, h), f(x), grad(x), beta) && a0 * rho < Tiny ==>
            Backtrack(ss, f, grad, update, h, x) == Err(ValueError(StepTooSmall)))
    ensures Preamble(ss).Ok? && ss.rule == Lipschitz && ss.lipAlpha.None? && ss.par.eps.Some? ==>
      var a0, rho, eps := ss.par.initAlpha.value, ss.par.rho.value, ss.par.eps.value;
      && (LipschitzAccepts(f, x, update(x, a0, h), f(x), grad(x), eps, a0) ==>
            Backtrack(ss, f, grad, update, h, x) == Ok(Stepped(ss.(lipAlpha := Some(a0)), Some(a0))))
      && (!LipschitzAccepts(f, x, update(x, a0, h), f(x), grad(x), eps, a0) && a0 * rho < Tiny ==>
            Backtrack(ss, f, grad, update, h, x) == Err(ValueError(StepTooSmall)))
    ensures Preamble(ss).Ok? && (ss.rule == Wolfe || ss.rule == WolfeStrong) ==>
      var a0, rho := ss.par.initAlpha.value, ss.par.rho.value;
      && (WolfeAccepts(ss.rule == WolfeStrong, f, grad, x, h, f(x), grad(x), ss.par.beta1.value, ss.par.beta2.value, a0) ==>
            Backtrack(ss, f, grad, update, h, x) == Ok(Stepped(ss, Some(a0))))
      && (f(Add(x, Scale(a0, h))).None? && a0 * rho < Tiny ==>
            Backtrack(ss, f, grad, update, h, x) == Err(ValueError(StepTooSmall)))
  {
  }

  /**
   * An Armijo call whose parameters pass returns the first accepted shrink
   * of init_alpha, raises the ValueError at the first shrink below 1e-16,
   * and exhausts the trial budget only when neither happens within it.
   */
  lemma BacktrackArmijoSearch(ss: StepSize, f: Objective, grad: Gradient, update: Update, h: Vec, x: Vec, k: nat)
    requires ss.Backtracking?
    ensures Preamble(ss).Ok? && ss.rule == Armijo ==>
      var a0, rho, beta := ss.par.initAlpha.value, ss.par.rho.value, ss.par.beta.value;
      var accepts := a => ArmijoAccepts(f, x, update(x, a, h), f(x), grad(x), beta);
      var r := Backtrack(ss, f, grad, update, h, x);
      && (k <= ss.budget && FirstAccepted(accepts, a0, rho, k) ==> r == Ok(Stepped(ss, Some(Trial(a0, rho, k)))))
      && (k <= ss.budget + 1 && UnderflowsAt(accepts, a0, rho, k) ==> r == Err(ValueError(StepTooSmall)))
      && (RanOut(accepts, a0, rho, ss.budget) <==> r == Err(OutOfFuel))
  {
    if Preamble(ss).Ok? && ss.rule == Armijo {
      var a0, rho, beta := ss.par.initAlpha.value, ss.par.rho.value, ss.par.beta.value;
      ArmijoFinds(f, update, x, h, f(x), grad(x), rho, beta, a0, ss.budget, k);
      ArmijoUnderflows(f, update, x, h, f(x), grad(x), rho, beta, a0, ss.budget, k);
      ArmijoRunsOut(f, update, x, h, f(x), grad(x), rho, beta, a0, ss.budget);
    }
  }

  /** The same for a Lipschitz call, from its start; the step it returns is remembered. */
  lemma BacktrackLipschitzSearch(ss: StepSize, f: Objective, grad: Gradient, update: Update, h: Vec, x: Vec, k: nat)
    requires ss.Backtracking?
    ensures Preamble(ss).Ok? && ss.rule == Lipschitz && ss.par.eps.Some? &&
            LipschitzStart(ss.lipAlpha, ss.par.initAlpha.value, ss.par.rho.value).Ok? ==>
      var rho, eps := ss.par.rho.value, ss.par.eps.value;
      var start := LipschitzStart(ss.lipAlpha, ss.par.initAlpha.value, rho).value;
      var accepts := a => LipschitzAccepts(f, x, update(x, a, h), f(x), grad(x), eps, a);
      var r := Backtrack(ss, f, grad, update, h, x);
      && (k <= ss.budget && FirstAccepted(accepts, start, rho, k) ==>
            r == Ok(Stepped(ss.(lipAlpha := Some(Trial(start, rho, k))), Some(Trial(start, rho, k)))))
      && (k <= ss.budget + 1 && UnderflowsAt(accepts, start, rho, k) ==> r == Err(ValueError(StepTooSmall)))
      && (RanOut(accepts, start, rho, ss.budget) <==> r == Err(OutOfFuel))
  {
    if Preamble(ss).Ok? && ss.rule == Lipschitz && ss.par.eps.Some? &&
       LipschitzStart(ss.lipAlpha, ss.par.initAlpha.value, ss.par.rho.value).Ok? {
      var rho, eps := ss.par.rho.value, ss.par.eps.value;
      var start := LipschitzStart(ss.lipAlpha, ss.par.initAlpha.value, rho).value;
      LipschitzFinds(f, update, x, h, f(x), grad(x), rho, eps, start, ss.budget, k);
      LipschitzUnderflows(f, update, x, h, f(x), grad(x), rho, eps, start, ss.budget, k);
      LipschitzRunsOut(f, update, x, h, f(x), grad(x), rho, eps, start, ss.budget);
    }
  }

  /** The same for a Wolfe or strong-Wolfe call, over the brackets from [0, inf) at init_alpha. */
  lemma BacktrackWolfeSearch(ss: StepSize, f: Objective, grad: Gradient, update: Update, h: Vec, x: Vec, k: nat)
    requires ss.Backtracking?
    ensures Preamble(ss).Ok? && (ss.rule == Wolfe || ss.rule == WolfeStrong) ==>
      var w := WolfeCtx(ss.rule == WolfeStrong, f, grad, x, h, f(x), grad(x),
                        ss.par.rho.value, ss.par.beta1.value, ss.par.beta2.value);
      var b := Bracket(ss.par.initAlpha.value, 0.0, None);
      var r := Backtrack(ss, f, grad, update, h, x);
      && (k <= ss.budget && WolfeFindsAt(w, b, k) ==> r == Ok(Stepped(ss, Some(WolfeAfter(w, b, k).value.alpha))))
      && (k <= ss.budget + 1 && WolfeUnderflowsAt(w, b, k) ==> r == Err(ValueError(StepTooSmall)))
      && (WolfeRanOut(w, b, ss.budget) <==> r == Err(OutOfFuel))
  {
    if Preamble(ss).Ok? && (ss.rule == Wolfe || ss.rule == WolfeStrong) {
      var strong, rho, b1, b2 := ss.rule == WolfeStrong, ss.par.rho.value, ss.par.beta1.value, ss.par.beta2.value;
      var a0 := ss.par.initAlpha.value;
      var r0 := WolfeLoop(strong, f, grad, x, h, f(x), grad(x), rho, b1, b2, a0, 0.0, None, ss.budget);
      assert WolfeSearch(strong, ss, f, grad, h, x, a0) == r0;
      assert Backtrack(ss, f, grad, update, h, x) == if r0.Ok? then Ok(Stepped(ss, Some(r0.value))) else Err(r0.error);
      WolfeFinds(strong, f, grad, x, h, f(x), grad(x), rho, b1, b2, a0, 0.0, None, ss.budget, k);
      WolfeUnderflows(strong, f, grad, x, h, f(x), grad(x), rho, b1, b2, a0, 0.0, None, ss.budget, k);
      WolfeRunsOut(strong, f, grad, x, h, f(x), grad(x), rho, b1, b2, a0, 0.0, None, ss.budget);
    }
  }

  /** The parameter reads and assertions of the two Wolfe rules, then the bracketing loop. */
  function WolfeSearch(strong: bool, ss: StepSize, f: Objective, grad: Gradient, h: Vec, x: Vec, alpha: real): (r: Result<real>)
    requires ss.Backtracking?
    ensures r.Ok? ==>
      && ss.par.rho.Some? && ss.par.rho.value < 1.0
      && ss.par.beta1.Some? && ss.par.beta2.Some?
      && 0.0 < ss.par.beta1.value < ss.par.beta2.value < 1.0
      && WolfeAccepts(strong, f, grad, x, h, f(x), grad(x), ss.par.beta1.value, ss.par.beta2.value, r.value)
      && (r.value == alpha || r.value >= Tiny)
  {
    var rho :- Need(ss.par.rho, "rho");
    if !(rho < 1.0) then Err(AssertionError(DecayMsg))
    else
      var beta1 :- Need(ss.par.beta1, "beta1");
      var beta2 :- Need(ss.par.beta2, "beta2");
      if !(0.0 < beta1 < beta2 < 1.0) then Err(AssertionError(WolfeBetaMsg))
      else WolfeLoop(strong, f, grad, x, h, f(x), grad(x), rho, beta1, beta2, alpha, 0.0, None, ss.budget)
  }

  /** `ExactLineSearch4Quad.get_stepsize`: α = h·(b − Ax) / h·(Ah). */
  function ExactStep(A: Mat, b: Vec, h: Vec, x: Vec): (r: Result<real>)
    ensures r.Err? <==> Quad(h, A, h) == 0.0
    ensures r.Err? ==> r.error == NonFinite
    ensures r.Ok? ==> Dot(Sub(MatVec(A, Add(x, Scale(r.value, h))), b), h) == 0.0
  {
    if Quad(h, A, h) == 0.0 then Err(NonFinite)
    else
      var a := Ratio(Dot(h, Sub(b, MatVec(A, x))), Quad(h, A, h));
      ExactStepStationary(A, b, h, x, a);
      Ok(a)
  }

  /** n / d, for a nonzero d. */
  function Ratio(n: real, d: real): (r: real)
    requires d != 0.0
    ensures r * d == n
  {
    QuotientTimes(n, d, n / d);
    n / d
  }

  /** The residual at x + a*h is orthogonal to h for the exact step a. */
  lemma ExactStepStationary(A: Mat, b: Vec, h: Vec, x: Vec, a: real)
    requires a * Quad(h, A, h) == Dot(h, Sub(b, MatVec(A, x)))
    ensures Dot(Sub(MatVec(A, Add(x, Scale(a, h))), b), h) == 0.0
  {
    ResidualAlongLine(A, b, h, x, a);
    SlopeAtX(A, b, h, x);
  }

  lemma SlopeAtX(A: Mat, b: Vec, h: Vec, x: Vec)
    ensures Dot(h, Sub(b, MatVec(A, x))) == Dot(b, h) - Dot(MatVec(A, x), h)
  {
    DotSubRight(h, b, MatVec(A, x));
    DotComm(MatVec(A, x), h);
    DotComm(b, h);
  }

  lemma QuotientTimes(n: real, d: real, a: real)
    requires d != 0.0 && a == n / d
    ensures a * d == n
  {
  }

  /** (A(x + a h) − b)·h expands to x·Ah-terms linear in a. */
  lemma ResidualAlongLine(A: Mat, b: Vec, h: Vec, x: Vec, a: real)
    ensures Dot(Sub(MatVec(A, Add(x, Scale(a, h))), b), h)
         == Dot(MatVec(A, x), h) + a * Quad(h, A, h) - Dot(b, h)
  {
    var u, v := MatVec(A, x), MatVec(A, h);
    MatVecAlongLine(A, x, h, a);
    ShiftedDot(u, v, b, h, a);
    DotComm(v, h);
    Substitute(Dot(Sub(Add(u, Scale(a, v)), b), h), Dot(u, h), Dot(v, h), Dot(b, h), Quad(h, A, h), a);
  }

  lemma Substitute(lhs: real, uh: real, vh: real, bh: real, q: real, a: real)
    requires lhs == uh + a * vh - bh && vh == q
    ensures lhs == uh + a * q - bh
  {
  }

  /** (u + a v − b)·h expanded. */
  lemma ShiftedDot(u: Vec, v: Vec, b: Vec, h: Vec, a: real)
    ensures Dot(Sub(Add(u, Scale(a, v)), b), h) == Dot(u, h) + a * Dot(v, h) - Dot(b, h)
  {
    DotSubLeft(Add(u, Scale(a, v)), b, h);
    DotAddLeft(u, Scale(a, v), h);
    DotScaleLeft(a, v, h);
  }

  /** `get_stepsize(h, x, num_iter)` of every step-size class modelled here. */
  function GetStepsize(ss: StepSize, f: Objective, grad: Gradient, update: Update, h: Vec, x: Vec, numIter: int): (r: Result<Stepped>)
    ensures ss.Constant? ==> r == Ok(Stepped(ss, Some(ss.stepsize)))
    ensures ss.InvIter? && numIter >= 1 ==>
      r.Ok? && r.value.alpha.Some? && r.value.alpha.value * (numIter as real) == 1.0
    ensures ss.InvIter? && numIter == 0 ==> r == Err(ZeroDivisionError)
    ensures ss.ExactQuad? && r.Ok? ==>
      r.value.alpha.Some? && Dot(Sub(MatVec(ss.A, Add(x, Scale(r.value.alpha.value, h))), ss.b), h) == 0.0
    ensures ss.Backtracking? ==> r == Backtrack(ss, f, grad, update, h, x)
  {
    match ss
    case Constant(c) => Ok(Stepped(ss, Some(c)))
    case InvIter =>
      if numIter == 0 then Err(ZeroDivisionError) else Ok(Stepped(ss, Some(1.0 / (numIter as real))))
    case Backtracking(_, _, _, _) => Backtrack(ss, f, grad, update, h, x)
    case ExactQuad(A, b) =>
      var a :- ExactStep(A, b, h, x);
      Ok(Stepped(ss, Some(a)))
  }

  /** The 1/k schedule is positive and strictly decreasing in k. */
  lemma InvIterDecreasing(k: int, f: Objective, grad: Gradient, update: Update, h: Vec, x: Vec)
    requires k >= 1
    ensures
      var r1 := GetStepsize(InvIter, f, grad, update, h, x, k);
      var r2 := GetStepsize(InvIter, f, grad, update, h, x, k + 1);
      && r1.Ok? && r2.Ok? && r1.value.alpha.Some? && r2.value.alpha.Some?
      && 0.0 < r2.value.alpha.value < r1.value.alpha.value
  {
  }

  /** A constant step ignores the direction, the point and the iteration index. */
  lemma ConstantIgnoresInputs(c: real, f: Objective, grad: Gradient, update: Update,
                              h: Vec, x: Vec, k: int, h': Vec, x': Vec, k': int)
    ensures GetStepsize(Constant(c), f, grad, update, h, x, k) == GetStepsize(Constant(c), f, grad, update, h', x', k')
  {
  }

  /** A step length together with the step-size object's state after the call. */
  datatype Taken = Taken(next: StepSize, alpha: real)

  /**
   * A `get_stepsize` call as a driver consumes it: the driver multiplies the
   * result with h, so a step of None (Goldstein) raises TypeError there.
   */
  function Take(ss: StepSize, f: Objective, grad: Gradient, update: Update, h: Vec, x: Vec, numIter: int): (r: Result<Taken>)
    ensures r.Ok? <==> GetStepsize(ss, f, grad, update, h, x, numIter).Ok? && GetStepsize(ss, f, grad, update, h, x, numIter).value.alpha.Some?
    ensures GetStepsize(ss, f, grad, update, h, x, numIter).Ok? && GetStepsize(ss, f, grad, update, h, x, numIter).value.alpha.None? ==>
      r == Err(TypeError)
    ensures r.Ok? ==> Some(r.value.alpha) == GetStepsize(ss, f, grad, update, h, x, numIter).value.alpha
  {
    var st :- GetStepsize(ss, f, grad, update, h, x, numIter);
    if st.alpha.None? then Err(TypeError) else Ok(Taken(st.next, st.alpha.value))
  }
}

=== FILE: vectors.dfy ===
/**
 * Real vectors and matrices: the idealisation of the numpy arrays the
 * optimisers work on. Floating point is replaced by `real`.
 *
 * Every operation is total: a vector is read as an infinite sequence that is
 * zero beyond its length (`At`), so mismatched lengths, which numpy would
 * reject, never arise as a precondition. Two vectors that differ only by
 * trailing zeros are `Equiv`.
 */
module Vectors {

  type Vec = seq<real>

  /** A matrix is a sequence of rows. */
  type Mat = seq<Vec>

  function Max(a: int, b: int): int {
    if a < b then b else a
  }

  /** Entry i of u, reading zero beyond its length. */
  function At(u: Vec, i: nat): real {
    if i < |u| then u[i] else 0.0
  }

  /** u and v are the same vector up to trailing zeros. */
  ghost predicate Equiv(u: Vec, v: Vec) {
    forall i: nat :: At(u, i) == At(v, i)
  }

  function Last(s: seq<Vec>): Vec
    requires |s| > 0
  {
    s[|s| - 1]
  }

  function Zeros(n: nat): (r: Vec)
    ensures |r| == n
    ensures forall i: nat :: At(r, i) == 0.0
  {
    seq(n, _ => 0.0)
  }

  function Add(u: Vec, v: Vec): (r: Vec)
    ensures |r| == Max(|u|, |v|)
    ensures forall i: nat :: At(r, i) == At(u, i) + At(v, i)
  {
    seq(Max(|u|, |v|), i requires 0 <= i < Max(|u|, |v|) => At(u, i) + At(v, i))
  }

  function Scale(a: real, u: Vec): (r: Vec)
    ensures |r| == |u|
    ensures forall i: nat :: At(r, i) == a * At(u, i)
  {
    seq(|u|, i requires 0 <= i < |u| => a * u[i])
  }

  function Neg(u: Vec): (r: Vec)
    ensures |r| == |u|
    ensures forall i: nat :: At(r, i) == - At(u, i)
  {
    Scale(-1.0, u)
  }

  function Sub(u: Vec, v: Vec): (r: Vec)
    ensures |r| == Max(|u|, |v|)
    ensures forall i: nat :: At(r, i) == At(u, i) - At(v, i)
  {
    Add(u, Neg(v))
  }

  /** Sum of the first n products of entries. */
  function DotN(u: Vec, v: Vec, n: nat): real {
    if n == 0 then 0.0 else DotN(u, v, n - 1) + At(u, n - 1) * At(v, n - 1)
  }

  /** The inner product `u.dot(v)`. */
  function Dot(u: Vec, v: Vec): real {
    DotN(u, v, Max(|u|, |v|))
  }

  /** The squared Euclidean norm; `‖u‖ < tol` is compared through it. */
  function NormSq(u: Vec): real {
    Dot(u, u)
  }

  /** `np.linalg.norm(u) < tol`, stated without a square root. */
  predicate NormLess(u: Vec, tol: real) {
    tol > 0.0 && NormSq(u) < tol * tol
  }

  // ---------------------------------------------------------------- inner product

  lemma DotNStable(u: Vec, v: Vec, n: nat)
    requires n >= Max(|u|, |v|)
    ensures DotN(u, v, n) == Dot(u, v)
    decreases n
  {
    if n > Max(|u|, |v|) {
      DotNStable(u, v, n - 1);
    }
  }

  lemma DotNPointwise(u: Vec, v: Vec, u': Vec, v': Vec, n: nat)
    requires forall i: nat :: At(u, i) * At(v, i) == At(u', i) * At(v', i)
    ensures DotN(u, v, n) == DotN(u', v', n)
  {
    if n > 0 {
      DotNPointwise(u, v, u', v', n - 1);
    }
  }

  /** The inner product depends only on the entries, not on trailing zeros. */
  lemma DotEquiv(u: Vec, v: Vec, u': Vec, v': Vec)
    requires Equiv(u, u') && Equiv(v, v')
    ensures Dot(u, v) == Dot(u', v')
  {
    var n := Max(Max(|u|, |v|), Max(|u'|, |v'|));
    DotNPointwise(u, v, u', v', n);
    DotNStable(u, v, n);
    DotNStable(u', v', n);
  }

  lemma DotComm(u: Vec, v: Vec)
    ensures Dot(u, v) == Dot(v, u)
  {
    DotNPointwise(u, v, v, u, Max(|u|, |v|));
  }

  lemma DotNZero(u: Vec, v: Vec, n: nat)
    requires forall i: nat :: At(u, i) == 0.0
    ensures DotN(u, v, n) == 0.0
  {
    if n > 0 {
      DotNZero(u, v, n - 1);
    }
  }

  lemma DotZeroLeft(u: Vec, v: Vec)
    requires forall i: nat :: At(u, i) == 0.0
    ensures Dot(u, v) == 0.0
  {
    DotNZero(u, v, Max(|u|, |v|));
  }

  lemma DotZeroRight(u: Vec, v: Vec)
    requires forall i: nat :: At(v, i) == 0.0
    ensures Dot(u, v) == 0.0
  {
    DotZeroLeft(v, u);
    DotComm(u, v);
  }

  lemma DotNAdd(u: Vec, v: Vec, w: Vec, n: nat)
    ensures DotN(Add(u, v), w, n) == DotN(u, w, n) + DotN(v, w, n)
  {
    if n > 0 {
      DotNAdd(u, v, w, n - 1);
    }
  }

  lemma DotNScale(a: real, u: Vec, w: Vec, n: nat)
    ensures DotN(Scale(a, u), w, n) == a * DotN(u, w, n)
  {
    if n > 0 {
      DotNScale(a, u, w, n - 1);
    }
  }

  lemma DotAddLeft(u: Vec, v: Vec, w: Vec)
    ensures Dot(Add(u, v), w) == Dot(u, w) + Dot(v, w)
  {
    var n := Max(Max(|u|, |v|), |w|);
    DotNAdd(u, v, w, n);
    DotNStable(Add(u, v), w, n);
    DotNStable(u, w, n);
    DotNStable(v, w, n);
  }

  lemma DotScaleLeft(a: real, u: Vec, w: Vec)
    ensures Dot(Scale(a, u), w) == a * Dot(u, w)
  {
    var n := Max(|u|, |w|);
    DotNScale(a, u, w, n);
    DotNStable(Scale(a, u), w, n);
  }

  lemma DotSubLeft(u: Vec, v: Vec, w: Vec)
    ensures Dot(Sub(u, v), w) == Dot(u, w) - Dot(v, w)
  {
    DotAddLeft(u, Neg(v), w);
    DotScaleLeft(-1.0, v, w);
  }

  lemma DotAddRight(w: Vec, u: Vec, v: Vec)
    ensures Dot(w, Add(u, v)) == Dot(w, u) + Dot(w, v)
  {
    DotComm(w, Add(u, v));
    DotAddLeft(u, v, w);
    DotComm(u, w);
    DotComm(v, w);
  }

  lemma DotScaleRight(a: real, w: Vec, u: Vec)
    ensures Dot(w, Scale(a, u)) == a * Dot(w, u)
  {
    DotComm(w, Scale(a, u));
    DotScaleLeft(a, u, w);
    DotComm(u, w);
  }

  lemma DotSubRight(w: Vec, u: Vec, v: Vec)
    ensures Dot(w, Sub(u, v)) == Dot(w, u) - Dot(w, v)
  {
    DotComm(w, Sub(u, v));
    DotSubLeft(u, v, w);
    DotComm(u, w);
    DotComm(v, w);
  }

  lemma DotNeg(u: Vec, v: Vec)
    ensures Dot(u, Neg(v)) == - Dot(u, v)
  {
    assert Equiv(Neg(v), Scale(-1.0, v));
    DotEquiv(u, Neg(v), u, Scale(-1.0, v));
    DotScaleRight(-1.0, u, v);
  }

  lemma DotNSquares(u: Vec, n: nat)
    ensures DotN(u, u, n) >= 0.0
  {
    if n > 0 {
      DotNSquares(u, n - 1);
    }
  }

  lemma NormSqNonNeg(u: Vec)
    ensures NormSq(u) >= 0.0
  {
    DotNSquares(u, Max(|u|, |u|));
  }

  // ---------------------------------------------------------------- matrices

  /** Row i of m, empty beyond the last row. */
  function Row(m: Mat, i: nat): Vec {
    if i < |m| then m[i] else []
  }

  /** Entry (i, j) of m, zero outside it. */
  function At2(m: Mat, i: nat, j: nat): real {
    At(Row(m, i), j)
  }

  ghost predicate Symmetric(m: Mat) {
    forall i: nat, j: nat :: At2(m, i, j) == At2(m, j, i)
  }

  /** `np.eye(n)`. */
  function Identity(n: nat): (r: Mat)
    ensures forall i: nat, j: nat :: At2(r, i, j) == if i == j && i < n then 1.0 else 0.0
  {
    seq(n, i requires 0 <= i < n => seq(n, j requires 0 <= j < n => if i == j then 1.0 else 0.0))
  }

  function MAdd(a: Mat, b: Mat): (r: Mat)
    ensures forall i: nat :: Row(r, i) == Add(Row(a, i), Row(b, i))
    ensures forall i: nat, j: nat :: At2(r, i, j) == At2(a, i, j) + At2(b, i, j)
  {
    seq(Max(|a|, |b|), i requires 0 <= i < Max(|a|, |b|) => Add(Row(a, i), Row(b, i)))
  }

  function MScale(c: real, m: Mat): (r: Mat)
    ensures forall i: nat :: Row(r, i) == Scale(c, Row(m, i))
    ensures forall i: nat, j: nat :: At2(r, i, j) == c * At2(m, i, j)
  {
    seq(|m|, i requires 0 <= i < |m| => Scale(c, m[i]))
  }

  function MSub(a: Mat, b: Mat): (r: Mat)
    ensures forall i: nat :: Row(r, i) == Add(Row(a, i), Scale(-1.0, Row(b, i)))
    ensures forall i: nat, j: nat :: At2(r, i, j) == At2(a, i, j) - At2(b, i, j)
  {
    MAdd(a, MScale(-1.0, b))
  }

  /** `np.outer(u, v)`: entry (i, j) is u[i] * v[j]. */
  function Outer(u: Vec, v: Vec): (r: Mat)
    ensures forall i: nat, j: nat :: At2(r, i, j) == At(u, i) * At(v, j)
  {
    seq(|u|, i requires 0 <= i < |u| => Scale(u[i], v))
  }

  /** `m.dot(x)`. */
  function MatVec(m: Mat, x: Vec): (r: Vec)
    ensures |r| == |m|
    ensures forall i: nat :: At(r, i) == Dot(Row(m, i), x)
  {
    DotZeroLeft([], x);
    seq(|m|, i requires 0 <= i < |m| => Dot(m[i], x))
  }

  /** The scalar `x.dot(m.dot(y))`. */
  function Quad(x: Vec, m: Mat, y: Vec): real {
    Dot(x, MatVec(m, y))
  }

  lemma SymmetricAdd(a: Mat, b: Mat)
    requires Symmetric(a) && Symmetric(b)
    ensures Symmetric(MAdd(a, b))
  {
  }

  lemma SymmetricSub(a: Mat, b: Mat)
    requires Symmetric(a) && Symmetric(b)
    ensures Symmetric(MSub(a, b))
  {
  }

  lemma SymmetricScale(c: real, m: Mat)
    requires Symmetric(m)
    ensures Symmetric(MScale(c, m))
  {
  }

  lemma SymmetricOuterSelf(u: Vec)
    ensures Symmetric(Outer(u, u))
  {
  }

  lemma MatVecAddMat(a: Mat, b: Mat, x: Vec)
    ensures Equiv(MatVec(MAdd(a, b), x), Add(MatVec(a, x), MatVec(b, x)))
  {
    forall i: nat
      ensures At(MatVec(MAdd(a, b), x), i) == At(Add(MatVec(a, x), MatVec(b, x)), i)
    {
      DotAddLeft(Row(a, i), Row(b, i), x);
    }
  }

  lemma MatVecScaleMat(c: real, m: Mat, x: Vec)
    ensures Equiv(MatVec(MScale(c, m), x), Scale(c, MatVec(m, x)))
  {
    forall i: nat
      ensures At(MatVec(MScale(c, m), x), i) == At(Scale(c, MatVec(m, x)), i)
    {
      DotScaleLeft(c, Row(m, i), x);
    }
  }

  lemma MatVecSubMat(a: Mat, b: Mat, x: Vec)
    ensures Equiv(MatVec(MSub(a, b), x), Sub(MatVec(a, x), MatVec(b, x)))
  {
    forall i: nat
      ensures At(MatVec(MSub(a, b), x), i) == At(Sub(MatVec(a, x), MatVec(b, x)), i)
    {
      DotAddLeft(Row(a, i), Scale(-1.0, Row(b, i)), x);
      DotScaleLeft(-1.0, Row(b, i), x);
    }
  }

  /** `np.outer(u, v).dot(x) == u * v.dot(x)`. */
  lemma MatVecOuter(u: Vec, v: Vec, x: Vec)
    ensures Equiv(MatVec(Outer(u, v), x), Scale(Dot(v, x), u))
  {
    forall i: nat
      ensures At(MatVec(Outer(u, v), x), i) == At(Scale(Dot(v, x), u), i)
    {
      if i < |u| {
        assert Row(Outer(u, v), i) == Scale(u[i], v);
        DotScaleLeft(u[i], v, x);
      } else {
        DotZeroLeft([], x);
      }
    }
  }

  lemma MatVecAddVec(m: Mat, x: Vec, y: Vec)
    ensures MatVec(m, Add(x, y)) == Add(MatVec(m, x), MatVec(m, y))
  {
    forall i | 0 <= i < |m|
      ensures MatVec(m, Add(x, y))[i] == Add(MatVec(m, x), MatVec(m, y))[i]
    {
      DotAddRight(m[i], x, y);
    }
  }

  lemma MatVecScaleVec(m: Mat, a: real, x: Vec)
    ensures MatVec(m, Scale(a, x)) == Scale(a, MatVec(m, x))
  {
    forall i | 0 <= i < |m|
      ensures MatVec(m, Scale(a, x))[i] == Scale(a, MatVec(m, x))[i]
    {
      DotScaleRight(a, m[i], x);
    }
  }

  /** A(x + a h) = Ax + a Ah. */
  lemma MatVecAlongLine(A: Mat, x: Vec, h: Vec, a: real)
    ensures MatVec(A, Add(x, Scale(a, h))) == Add(MatVec(A, x), Scale(a, MatVec(A, h)))
  {
    MatVecAddVec(A, x, Scale(a, h));
    MatVecScaleVec(A, a, h);
  }

  lemma MatVecEquiv(m: Mat, x: Vec, y: Vec)
    requires Equiv(x, y)
    ensures MatVec(m, x) == MatVec(m, y)
  {
    forall i | 0 <= i < |m|
      ensures MatVec(m, x)[i] == MatVec(m, y)[i]
    {
      DotEquiv(m[i], x, m[i], y);
    }
  }

  lemma NegNeg(u: Vec)
    ensures Neg(Neg(u)) == u
  {
  }
}
